=== FILE: README.md ===
# libpocket in Dafny

A model of the core of `libpocket`, a Rust client for the Pocket read-it-later API, with
proofs about it. The model covers six parts:

- **The wire codec of Pocket items.** Booleans travel as `"0"`/`"1"`, enumerations as the
  string of their ordinal, and counters and timestamps as decimal strings. Items are decoded
  field by field from an abstract JSON value, and the untagged `ItemOrDeletedItem` falls back
  to a deleted item that needs only `item_id`. The `ReadingList` map is included.
- **The response classifier** `parse_all_response`. It sorts a "get" answer into a page, "no
  more items" (when `list` comes back as an empty array) or an error.
- **The "get" requests:**
  - the filters of `GetInput`, written with serde's skip-if-`None` rule and renamed keys;
  - the credentials merged into those filters;
  - `get`, which fetches one page;
  - `list_all`, which pages through the list and merges the pages into one ordered map.
- **The batch "send" payload** of `modify` and the three actions built on it
  (`mark_as_read`, `mark_as_favorite`, `add_urls`).
- **URL canonicalisation** (`fixup_blogspot`, `start_domain_from`, `cleanup_path` and
  `cleanup_url`), together with the unit tests written for it.
- **The string side of the OAuth flow:**
  - the endpoint addresses;
  - the authorization page;
  - the two form bodies;
  - how the request token and the access token are cut out of the server's answers.

The network does not appear. Wherever the client sends a request, the model takes the
answer as an input:
- the JSON value of a response body, or the decode error of a malformed one;
- for `list_all`, the sequence of classified answers the server gives to successive
  requests;
- for the OAuth calls, the answer text or the transport error.

The clock reading that `modify` puts in each action is also a parameter.

Modules, one file each:

- `wrappers`: `Option` and `Result`.
- `decimal`: fixed-width integer types, decimal printing and `from_str`.
- `text`: `str::find`, `split`, `join`, `starts_with`, `ends_with`, `trim_end_matches`.
- `json`: the abstract JSON value and serde's primitive and container codecs.
- `wire`: the string-encoded booleans, numbers and enumerations.
- `model`: the item types.
- `query`: `GetInput`.
- `response`: `parse_all_response`.
- `client`: `auth`, `get`, `list_all`.
- `modify`: the "send" payload.
- `cleanup`: URL canonicalisation.
- `auth`: the OAuth strings.

`Client.Get` and `Client.ListAll` are methods, because the source's `get` and `list_all`
update a local map, and `list_all` a page counter, in a loop. Everything else in the core is
expressions over values, so it is modelled as functions and lemmas.

## Model

| member | source | states |
|---|---|---|
| Decimal.ShowNat | src/lib.rs:75-76 | the decimal form of a `u64` is a non-empty string of ASCII digits with no leading zero |
| Decimal.DigitsValueOfShowNat | src/lib.rs:75-76 | reading the printed digits back gives the number |
| Decimal.ParseUnsigned | src/model.rs:60-61 | `from_str` of an unsigned type: accepted exactly when, after one optional leading `+`, at least one ASCII digit remains, there are only digits, and their value is below the type's limit; the result is that value |
| Decimal.ParseUnsignedNonCanonical | src/model.rs:60-61 | `from_str` also accepts forms `Display` never writes: `"+5"` reads as 5 and `"007"` as 7 |
| Decimal.ParseShowNat | src/model.rs:60-61 | parsing what `Display` wrote gives the number back (the `DisplayFromStr` round trip) |
| Decimal.ShowInt | src/lib.rs:593 | the printed `i64` timestamp starts with `-` exactly when it is negative, followed by the digits of its magnitude |
| Text.IndexOf | src/lib.rs:660 | `find`: the result is a match, no match lies before it, and there is no result exactly when the pattern does not occur |
| Text.IndexFrom | src/lib.rs:660 | the scan behind `find`: the leftmost match at or after a start index, none exactly when no match lies there |
| Text.Split | src/lib.rs:660 | `split` gives at least one piece, and exactly one when the pattern does not occur |
| Text.SplitJoin | src/lib.rs:660 | joining the pieces with the pattern gives the string back |
| Text.SplitPiecesFree | src/lib.rs:660 | no piece contains the pattern |
| Text.SplitTwo | src/lib.rs:660-661 | two pieces exactly when the pattern occurs and does not occur again after its first match; then the first piece is the text before that match |
| Text.SplitNone | src/lib.rs:660 | a string without the pattern splits into itself alone |
| Text.SplitCons | src/auth.rs:88 | splitting `a + [c] + rest` at `c`, when `a` has no `c`, gives `a` followed by the pieces of `rest` |
| Text.FirstPiece | src/auth.rs:118 | the first piece of a split at `c` is a prefix without `c`, is the whole string exactly when `c` is absent, and is otherwise followed by `c` |
| Text.SplitAtFirst | src/auth.rs:88 | a string holding `c` is the text before its first `c`, then `c`, then the rest |
| Text.SplitChar | src/auth.rs:88-118 | `split` at one character (as `split('=')` and `split('&')`) gives at least one piece |
| Text.SplitCharAppend | src/auth.rs:88-118 | splitting a concatenation at a character glues the last piece of the left part to the first piece of the right part |
| Text.SplitCharAt | src/auth.rs:88-118 | splitting at an occurrence of the character gives the pieces of each side, side by side |
| Text.SplitCharNoSep | src/auth.rs:88-118 | a string without the character is a single piece |
| Text.SplitCharIsSplit | src/auth.rs:88 | the one-character split agrees with the general pattern split on every input |
| Text.TrimEndMatches | src/lib.rs:676-680 | the trimmed string is a prefix, no longer ends with the suffix, and is the input itself when that did not end with the suffix |
| Json.DecodeString | src/model.rs:35 | a string field decodes exactly from a JSON string, to its text |
| Json.EncodeString | src/model.rs:35 | the written string decodes back |
| Json.DecodeU32 | src/model.rs:83 | a `u32` field decodes exactly from a JSON number in range, to that number |
| Json.DecodeU64 | src/model.rs:94 | a `u64` field decodes exactly from a JSON number in range, to that number |
| Json.EncodeU32 | src/model.rs:83 | the written number decodes back |
| Json.EncodeU64 | src/model.rs:94 | the written number decodes back |
| Json.Field | src/model.rs:13-107 | a missing required key is a `MissingField` error; a present one is decoded by the field's decoder |
| Json.OptField | src/model.rs:91-106 | an `Option` field that is absent or `null` reads as `None`, and otherwise as the decoded value |
| Json.OptFieldRoundTrip | src/lib.rs:105-120 | an optional field written by serde reads back as the same option |
| Json.DecodeSeq | src/lib.rs:290 | a `Vec` decodes when every element does, to the elements' values in order |
| Json.DecodeMap | src/model.rs:366 | a map decodes exactly from an object whose every value decodes; the keys are the object's keys and each value is its decoded entry |
| Json.EncodeMap | src/lib.rs:279 | the written object has exactly the map's keys |
| Json.MapRoundTrip | src/lib.rs:279 | a map whose values round-trip reads back as the same map |
| Wire.DecodeBool | src/model.rs:196-205 | `"0"` gives false, `"1"` gives true, and every other value is an error |
| Wire.EncodeBool | src/lib.rs:151-156 | a boolean is written as a string and reads back as the same boolean |
| Wire.DecodeU64Str | src/lib.rs:75-76 | a string-encoded `u64` decodes exactly from a JSON string that `from_str` accepts, to the value it parses; a bare JSON number is rejected |
| Wire.EncodeU64Str | src/lib.rs:75-76 | the number is written as its decimal string and reads back |
| Wire.DecodeU32Str | src/model.rs:226-231 | a string-encoded `u32` (image and video sizes) decodes exactly from a JSON string that `from_str` accepts below 2^32, to that value; a bare number is rejected |
| Wire.EncodeU32Str | src/model.rs:226-231 | the number is written as its decimal string and reads back |
| Wire.DecodeFavoriteStatus | src/model.rs:329-334 | as a JSON string, accepts exactly `"0"` and `"1"`, each as the variant with that code |
| Wire.EncodeFavoriteStatus | src/lib.rs:305-311 | each variant is written as its code and reads back |
| Wire.DecodeStatus | src/model.rs:337-344 | as a JSON string, accepts exactly `"0"`, `"1"` and `"2"`, each as the variant with that code |
| Wire.EncodeStatus | src/lib.rs:313-321 | each variant is written as its code and reads back |
| Wire.StatusName | src/lib.rs:343-355 | `Display` names each status by its variant name, never by its wire code |
| Wire.DecodeHasImage | src/model.rs:347-354 | as a JSON string, accepts exactly `"0"`, `"1"` and `"2"`, each as the variant with that code |
| Wire.EncodeHasImage | src/lib.rs:323-331 | each variant is written as its code and reads back |
| Wire.DecodeHasVideo | src/model.rs:357-364 | as a JSON string, accepts exactly `"0"`, `"1"` and `"2"`, each as the variant with that code |
| Wire.EncodeHasVideo | src/lib.rs:333-341 | each variant is written as its code and reads back |
| Model.EffectiveUrl | src/lib.rs:358-364 | the resolved URL when it is not empty, else the given URL; empty only when both are |
| Model.EffectiveTitle | src/lib.rs:366-376 | the resolved title, else the given title, else the effective URL, each skipped when empty |
| Model.DecodeDomainMetadata | src/model.rs:208-212 | an object decodes when `name` is absent, `null` or a string and `logo` and `greyscale_logo` are strings; each field is what its key decodes to, `name` being `None` when absent |
| Model.EncodeDomainMetadata | src/lib.rs:158-163 | the written metadata reads back |
| Model.DecodeMainImage | src/model.rs:218-232 | an object decodes when `item_id` and `src` are strings and `width` and `height` are strings `from_str` accepts as `u32`; each field is what its key decodes to |
| Model.EncodeMainImage | src/lib.rs:168-183 | the written image reads back |
| Model.DecodeImage | src/model.rs:237-264 | an object decodes when its five text keys are strings and `width` and `height` are strings that parse as `u32`; each field is what its key decodes to |
| Model.EncodeImage | src/lib.rs:187-215 | the written image reads back |
| Model.DecodeVideo | src/model.rs:268-299 | an object decodes when its text keys are strings, `width`, `height` and `type` are strings that parse as `u32`, and `length` is absent, `null` or such a string; each field is what its key decodes to |
| Model.EncodeVideo | src/lib.rs:218-250 | the written video reads back |
| Model.DecodeAuthor | src/model.rs:302-317 | an object decodes when `item_id`, `author_id`, `name` and `url` are strings; each field is that string |
| Model.EncodeAuthor | src/lib.rs:252-268 | the written author reads back |
| Model.DecodeTag | src/model.rs:320-326 | an object decodes when `item_id` and `tag` are strings; each field is that string |
| Model.EncodeTag | src/lib.rs:270-277 | the written tag reads back |
| Model.EncodeImages | src/lib.rs:113 | the written map of images reads back |
| Model.EncodeVideos | src/lib.rs:114 | the written map of videos reads back |
| Model.EncodeAuthors | src/lib.rs:115 | the written map of authors reads back |
| Model.EncodeTags | src/lib.rs:116 | the written map of tags reads back |
| Model.DecodeImages | src/lib.rs:113 | a map of images decodes exactly when every value of the object is an image; same keys, each value decoded |
| Model.DecodeVideos | src/lib.rs:114 | a map of videos decodes exactly when every value of the object is a video; same keys, each value decoded |
| Model.DecodeAuthors | src/lib.rs:115 | a map of authors decodes exactly when every value of the object is an author; same keys, each value decoded |
| Model.DecodeTags | src/lib.rs:116 | a map of tags decodes exactly when every value of the object is a tag; same keys, each value decoded |
| Model.DecodeItemHead | src/model.rs:13-52 | reads exactly when each of the ten keys reads with its decoder; each field is what its key reads as |
| Model.DecodeItemCounters | src/model.rs:53-89 | reads exactly when each flag, string-encoded counter and timestamp, `sort_id` and `lang` reads; each field is what its key reads as |
| Model.DecodeItemExtras | src/model.rs:90-106 | reads exactly when `listen_duration_estimate` and every present optional key read; each field is what its key reads as, `None` when absent or null |
| Model.DecodeItem | src/model.rs:13-107 | as an object: decodes exactly when every field reads from its key; every field of the result is what that key reads as |
| Model.DecodedItemShape | src/model.rs:13-107 | an object that decodes as an item has every required key; `item_id` is that string, `is_article` arrives as `"0"`/`"1"`, `word_count` as a decimal string of its value, `sort_id` as a number |
| Model.DecodedItemTimes | src/model.rs:68-98 | `is_index` arrives as `"0"`/`"1"`, the four timestamps as decimal strings of their values, and `listen_duration_estimate` as a number |
| Model.DecodedItemAbsentFields | src/model.rs:91-106 | in a decoded item, each optional field the object leaves out reads as `None` (`Model.ItemWithoutOptionalFields` shows such objects decode) |
| Model.ItemWithoutOptionalFields | src/model.rs:90-106 | an object whose required keys read and which has none of the nine optional keys decodes, with all nine `None`, and the untagged decoder takes it as a live item |
| Model.EncodeItem | src/lib.rs:25-121 | serde writes an item as an object |
| Model.ItemTextFieldsRead | src/lib.rs:25-121 | the written identity and title fields read back |
| Model.ItemStatusFieldsRead | src/lib.rs:25-121 | the written status, favorite, excerpt and boolean fields read back |
| Model.ItemCounterFieldsRead | src/lib.rs:75-85 | the written word count and add/update times read back from their strings |
| Model.ItemTimeFieldsRead | src/lib.rs:89-96 | the written read/favorite times and `sort_id` read back |
| Model.ItemRestFieldsRead | src/lib.rs:98-107 | the written `is_index`, `lang` and listening estimate read back |
| Model.ItemOptionalFieldsRead | src/lib.rs:105-113 | the written optional fields read back, `None` included |
| Model.ItemCollectionFieldsRead | src/lib.rs:114-120 | the written collections and main image read back |
| Model.ItemRoundTrip | src/lib.rs:25-121 | writing an item and reading it back gives the same item |
| Model.DecodeDeletedItem | src/model.rs:180-187 | as an object: decodes exactly when `item_id` is a string, ignoring every other key |
| Model.EncodeDeletedItem | src/lib.rs:124-131 | a deleted item is written as its id alone and reads back |
| Model.DecodeItemOrDeletedItem | src/model.rs:189-194 | as an object: decodes exactly when there is a string `item_id`; an object that decodes as an item is a live item; a deleted item results only when the item decoding fails |
| Model.EncodeItemOrDeletedItem | src/lib.rs:133-138 | either variant is written untagged, as an object |
| Model.ItemOrDeletedItemRoundTrip | src/lib.rs:133-138 | either variant written and read back is the same variant |
| Model.DeletedItemShape | src/model.rs:180-187 | the deletion record Pocket sends, with its status `"2"` and listening estimate, decodes as a deleted item with that id |
| Model.DecodeReadingList | src/model.rs:366 | a reading list decodes from an object whose every entry decodes, keyed by item id |
| Model.EncodeReadingList | src/lib.rs:279 | the written list has exactly the list's ids as keys |
| Model.ReadingListRoundTrip | src/lib.rs:279 | writing a reading list and reading it back gives the same list |
| Model.DecodeModifiedItem | src/model.rs:116-177 | an object decodes when its required keys decode and `given_url`, `lang` and `domain_metadata` are absent, `null` or decodable; each field is what its key decodes to, `None` for an absent or `null` optional key |
| Model.ModifiedItemOfFields | src/model.rs:116-177 | an object decodes as a given modified item exactly when each of its keys decodes to that item's field |
| Model.DropUrlAndLang | src/model.rs:131-133 | removing `given_url` and `lang` from a modified-item object still decodes, to the same item with those two fields `None` (src/model.rs:164-166 for `lang`) |
| Model.ItemWithoutUrlAndLang | src/model.rs:116-177 | an item object without `given_url` and `lang` decodes as a modified item carrying the item's shared fields, with those two `None` |
| Model.ItemIsModifiedItem | src/model.rs:116-177 | every object that decodes as an item decodes as a modified item carrying the same fields |
| Model.ModifiedItemWithoutGivenUrl | src/model.rs:116-194 | a modified item without `given_url` is not an item, so as an `ItemOrDeletedItem` it decodes as a deleted item with its id |
| Query.StateName | src/lib.rs:388-397 | the lower-case serde names of the states, one per variant |
| Query.ContentTypeName | src/lib.rs:414-423 | the lower-case serde names of the content types, one per variant |
| Query.SortName | src/lib.rs:425-436 | the lower-case serde names of the orders, one per variant |
| Query.DetailTypeName | src/lib.rs:438-445 | the lower-case serde names of the detail levels, one per variant |
| Query.EncodeState | src/lib.rs:388-397 | each state is written as the string of its lower-case name, and no two alike |
| Query.EncodeContentType | src/lib.rs:414-423 | each content type is written as the string of its lower-case name |
| Query.EncodeSort | src/lib.rs:425-436 | each order is written as the string of its lower-case name |
| Query.EncodeDetailType | src/lib.rs:438-445 | each detail level is written as the string of its lower-case name |
| Query.EncodeTagFilter | src/lib.rs:405-412 | `Untagged` is written as the string `_untagged_`; a tag name as the one-key object `{"TagName": name}` |
| Query.Lift | src/lib.rs:447 | a present field is written with its encoder, an absent one not at all |
| Query.EncodeGetInput | src/lib.rs:447-484 | the filters are written as an object using only the filters' key names (which key is written, and its value: the two lemmas below) |
| Query.SelectionFiltersWritten | src/lib.rs:451-470 | each of `state`, `favorite`, `tag`, `content_type`, `sort` and `detailType` is written exactly when that filter is present, as its lower-case name, its code, or the tag filter's form |
| Query.PagingFiltersWritten | src/lib.rs:472-483 | each of `search`, `domain`, `since`, `count` and `offset` is written exactly when that filter is present, strings as strings and numbers as numbers |
| Query.LiftInjective | src/lib.rs:447 | an injective encoder makes the optional field's encoding injective |
| Query.SameSelectionFilters | src/lib.rs:451-470 | two inputs written alike have the same selection filters |
| Query.SamePagingFilters | src/lib.rs:472-483 | two inputs written alike have the same search and paging filters |
| Query.EncodeGetInputInjective | src/lib.rs:447-484 | different filters never produce the same request object |
| Client.AuthJson | src/lib.rs:508-513 | the credentials object holds exactly the consumer key and the access token |
| Client.AuthKeysDisjoint | src/lib.rs:520-523 | no filter key is a credential key, so the merge overwrites nothing |
| Client.RequestPayload | src/lib.rs:520-523 | the request body holds every filter unchanged plus both credentials, and nothing else |
| Client.PageResult | src/lib.rs:529-537 | a page gives its list, "no more" an empty list, an error that error |
| Client.Get | src/lib.rs:515-538 | sends the merged payload and returns exactly the page result of the classified answer |
| Client.LastPageIsLast | src/lib.rs:553 | the last page number whose offset still fits in a `u32` |
| Client.ListAllInput | src/lib.rs:548-555 | the k-th request asks for 5000 items from offset `k * 5000` |
| Client.ListAllRequestShape | src/lib.rs:548-558 | the k-th request is written as exactly `state=all`, `sort=site`, `detailType=complete`, `count=5000` and `offset=k*5000` |
| Client.StopIndex | src/lib.rs:566-573 | the first answer that is not a page; every earlier answer is a page |
| Client.MergedPages | src/lib.rs:570 | the pages merged in order with `extend`; its keys and values are given by the two lemmas below |
| Client.MergedPagesKeys | src/lib.rs:570 | the merged list's ids are the union of the pages' ids |
| Client.MergedPagesLatestWins | src/lib.rs:570 | an id takes its entry from the last page that holds it |
| Client.ListAllResult | src/lib.rs:566-576 | the result is an error exactly when paging ended on an error, with that error; otherwise it is the pages before the stop, merged |
| Client.ListAll | src/lib.rs:540-577 | sends one request per answer up to and including the stop, the k-th with `ListAllInput(k)`, and returns `ListAllResult` |
| Client.OnePageListAllIsGet | src/lib.rs:515-577 | paging that ends right after one page gives what a single `get` of that page gives |
| Response.DecodeReadingListResponse | src/lib.rs:281-284 | as an object: a response decodes as a page exactly when its `list` decodes as a reading list |
| Response.DecodeItems | src/lib.rs:290 | a list of items decodes exactly from an array of items, one per element |
| Response.DecodeEmptyReadingListResponse | src/lib.rs:286-291 | the second shape: an object whose `list` is an array of items |
| Response.ParseAllResponse | src/lib.rs:640-657 | a page when the first shape decodes; "no more" when only the second shape decodes and its list is empty; otherwise an error carrying the first attempt's error (or the malformed body's) |
| Response.EmptyObjectListIsParsed | src/lib.rs:789-796 | `{"list": {}}` is a page |
| Response.EmptyArrayListIsNoMore | src/lib.rs:798-805 | `{"list": []}` is "no more" |
| Response.MalformedBodyIsError | src/lib.rs:807-814 | a body that is not JSON is an error with its decode error |
| Response.NonEmptyArrayListIsError | src/lib.rs:648-650 | a non-empty array `list` is an error carrying the first attempt's error |
| Response.MissingListIsError | src/lib.rs:641-655 | an object without `list` is a `MissingField("list")` error |
| Modify.Verb | src/lib.rs:584-588 | `favorite`, `archive` and `add`, one per action |
| Modify.ItemKey | src/lib.rs:589-592 | the key is `url` exactly for `Add` and `item_id` otherwise |
| Modify.TimeUnquoted | src/lib.rs:593 | a printed timestamp never holds a double quote |
| Modify.ActionObjects | src/lib.rs:594-602 | one action object per id, in order, each with the action's verb and key and the same time |
| Modify.ActionObject | src/lib.rs:594-600 | the text of one action; read back by `Modify.SplitActionObject` |
| Modify.SplitActionObject | src/lib.rs:597-600 | an action object cut at its double quotes gives back its verb, key, id and time |
| Modify.BatchPiecesAt | src/lib.rs:594-610 | in the pieces of a batch, action `k`'s verb, key, id and time sit at `12k+2`, `12k+4`, `12k+6` and `12k+10` |
| Modify.SplitJoinedActions | src/lib.rs:594-610 | the actions joined with `, ` cut at double quotes give each action's pieces with ` }, { ` between neighbours |
| Modify.SplitPayloadHead | src/lib.rs:603-606 | the head of the payload cut at double quotes gives the consumer key and the access token |
| Modify.SplitModifyPayload | src/lib.rs:603-611 | the whole payload cut at double quotes gives the credentials followed by each action's pieces |
| Modify.PayloadPiecesAt | src/lib.rs:603-611 | the payload's pieces number `12n + 11` for `n` ids; the credentials sit at 3 and 7, and action `k`'s verb, key, id and time at `13+12k`, `15+12k`, `17+12k` and `21+12k` |
| Modify.ReadPieces | src/lib.rs:603-611 | a payload whose pieces have that layout reads back as those credentials and those actions |
| Modify.ModifyPayload | src/lib.rs:603-611 | the payload text of `modify`; read back by `Modify.ModifyPayloadRoundTrip` |
| Modify.ModifyPayloadRoundTrip | src/lib.rs:579-611 | cut at its double quotes (not JSON-decoded), the payload gives back the client's credentials and exactly one action per id, in input order, with the action's verb and key and the same time |
| Modify.MarkAsRead | src/lib.rs:487-492 | `modify` with the archive action; its actions are given by `Modify.MarkAsReadArchives` |
| Modify.MarkAsFavorite | src/lib.rs:494-499 | `modify` with the favorite action; its actions are given by `Modify.MarkAsFavoriteFavorites` |
| Modify.AddUrls | src/lib.rs:501-506 | `modify` with the add action; its actions are given by `Modify.AddUrlsAdds` |
| Modify.MarkAsReadArchives | src/lib.rs:487-492 | `mark_as_read` sends one `archive` action per id, keyed by `item_id` |
| Modify.MarkAsFavoriteFavorites | src/lib.rs:494-499 | `mark_as_favorite` sends one `favorite` action per id, keyed by `item_id` |
| Modify.AddUrlsAdds | src/lib.rs:501-506 | `add_urls` sends one `add` action per URL, keyed by `url` |
| Cleanup.FixupBlogspot | src/lib.rs:659-666 | a host in which `.blogspot.` occurs and does not occur again after its first match (so `split` gives two pieces) becomes the text before that match followed by `.blogspot.com`; any other host is returned unchanged |
| Cleanup.FixupBlogspotWithoutBlogspot | src/lib.rs:659-666 | a host without `.blogspot.` is unchanged |
| Cleanup.FixupBlogspotTwice | src/lib.rs:659-666 | a host with two non-overlapping matches of `.blogspot.` is unchanged |
| Cleanup.FixupBlogspotOverlap | src/lib.rs:659-666 | overlapping matches count once: `x.blogspot.blogspot.y` becomes `x.blogspot.com` |
| Cleanup.FixupBlogspotCountryDomain | src/lib.rs:659-666 | `a.blogspot.<domain>` becomes `a.blogspot.com` |
| Cleanup.FirstBlogspot | src/lib.rs:660 | in `a.blogspot.b`, with no `.blogspot.` inside `a.blogspot`, the first match is right after `a` |
| Cleanup.StartDomainFrom | src/lib.rs:668-674 | 4 exactly when the host starts with `www.`, else 0 |
| Cleanup.CleanupPath | src/lib.rs:676-680 | the cleaned path never ends in `/` and is a prefix of the path |
| Cleanup.TrimEndOnce | src/lib.rs:677-679 | `trim_end_matches` removes every repetition of the suffix: trimming `s + suffix` is trimming `s` |
| Cleanup.CleanupPathTrailingSlash | src/lib.rs:762-767 | a path and the same path with one more slash clean up alike |
| Cleanup.CleanupPathOneSlash | src/lib.rs:676-680 | only the trailing slash is stripped from a path whose last other character is not a slash |
| Cleanup.CleanupPathNotIdempotent | src/lib.rs:676-680 | cleaning `/index.html/` leaves `/index.html`, which a second cleaning reduces to nothing |
| Cleanup.CleanupPathIndexHtml | src/lib.rs:775-779 | an `index.html` page cleans up like its directory |
| Cleanup.CleanupPathIndexPhp | src/lib.rs:769-773 | `/index.php` cleans up to nothing |
| Cleanup.CleanupSlash | src/lib.rs:676-680 | `/` cleans up to nothing |
| Cleanup.CleanupUrl | src/lib.rs:682-695 | an unparsable URL is returned as it is; a parsed one starts with `https://` and ends in the cleaned path (`Cleanup.CleanupUrlOf` gives the whole result) |
| Cleanup.CleanupUrlOf | src/lib.rs:682-695 | for every parsed host, the result is `https://` + the host without one leading `www.`, with its blogspot domain fixed, + the cleaned path |
| Cleanup.CleanupUrlWww | src/lib.rs:668-674 | a host `www.` + rest cleans up to `https://` + the fixed-up rest + the cleaned path |
| Cleanup.CleanupUrlNoWww | src/lib.rs:682-695 | a host without `www.` is kept whole: `https://` + the fixed-up host + the cleaned path |
| Cleanup.CleanupUrlDropsOneWww | src/lib.rs:668-674 | only one `www.` is dropped: `www.www.x` cleans up to `https://www.x` and the cleaned path |
| Cleanup.CleanupUrlDropsWww | src/lib.rs:744-751 | the scheme and a leading `www.` do not matter |
| Cleanup.CleanupUrlTrailingSlash | src/lib.rs:762-767 | a URL whose path has one more slash cleans up the same |
| Cleanup.CleanupUrlPlainHosts | src/lib.rs:702-724 | `http://example.com#…`, `http://example.com?` and `http(s)://another.example.com` clean up to `https://` + the same host |
| Cleanup.CleanupUrlDropsIndexPhp | src/lib.rs:769-773 | `https://example.com/index.php` cleans up to `https://example.com` |
| Cleanup.CleanupUrlDropsIndexHtml | src/lib.rs:781-786 | `https://jenkins.io/2.0/index.html` cleans up like `https://jenkins.io/2.0/` |
| Cleanup.CleanupUrlDropsTrailingSlash | src/lib.rs:762-767 | `https://example.com/hello/` cleans up like `https://example.com/hello` |
| Cleanup.CleanupUrlBlogspot | src/lib.rs:726-742 | a blogspot host with any country domain cleans up to the `.com` domain |
| Cleanup.CleanupUrlBlogspotCl | src/lib.rs:726-733 | `this-is-a.blogspot.cl` becomes `this-is-a.blogspot.com` and the query goes |
| Cleanup.CleanupUrlBlogspotComBr | src/lib.rs:735-742 | `this-is-a.blogspot.com.br` becomes `this-is-a.blogspot.com` |
| Cleanup.CleanupUrlBlogspotWww | src/lib.rs:744-760 | with `www.` and either scheme, the same |
| Auth.Url | src/auth.rs:22-26 | the endpoint `https://getpocket.com/v3` followed by the method's path |
| Auth.UrlInjective | src/auth.rs:22-26 | two methods never share an address |
| Auth.AuthorizationUrl | src/auth.rs:40-45 | `https://getpocket.com/auth/authorize?request_token=` + token + `&redirect_uri=https://getpocket.com` |
| Auth.TokenOfAuthorizationUrl | src/auth.rs:40-45 | an address has the authorization page's shape exactly when it has that prefix and suffix and room for both |
| Auth.AuthorizationUrlRoundTrip | src/auth.rs:40-45 | the token is read back from its authorization page, whatever characters it holds |
| Auth.AuthorizationUrlOfToken | src/auth.rs:40-45 | every address of that shape is the page of the token read from it |
| Auth.FormField | src/auth.rs:82 | a form field is its name, `=`, and its value |
| Auth.RequestTokenBody | src/auth.rs:81-84 | the body starts with the `consumer_key` field |
| Auth.FormFieldSplit | src/auth.rs:82 | a field splits at `=` back into its name and value |
| Auth.FormPairSplit | src/auth.rs:82 | a two-field body splits at `&` back into its fields |
| Auth.RequestTokenBodyFields | src/auth.rs:81-84 | the request-token body is the `consumer_key` field and the `redirect_uri` field |
| Auth.ParseRequestToken | src/auth.rs:86-95 | a transport error passes through; an answer without `=` is a `RequestTokenError`; otherwise the token is the text after the first `=` up to the next `=` or the end |
| Auth.SecondPiece | src/auth.rs:88 | the second piece of a split at `c` is the text after the first `c`, up to the next `c` |
| Auth.RequestTokenOfAnswer | src/auth.rs:88-95 | the answer `code=<token>` gives back the token |
| Auth.AuthorizeBody | src/auth.rs:107 | the body starts with the `consumer_key` field and ends with the token |
| Auth.AuthorizeBodyFields | src/auth.rs:107 | the access-token body is the `consumer_key` field and the `code` field |
| Auth.ParseAuthorizationCode | src/auth.rs:109-125 | a transport error passes through; an answer without `=` is a `RequestAuthorizationCode` error; otherwise the code is the second `=`-piece cut at its first `&` |
| Auth.CodeIsCutValue | src/auth.rs:111-123 | the code is the value `get_request_token` would read, cut at its first `&` |
| Auth.AuthorizationCodeOfAnswer | src/auth.rs:111-125 | the answer `access_token=<code>&username=<user>` gives back the code |
| Auth.CodeOfAnswer | src/auth.rs:111-125 | the same for any key names and any user |

## Left out

- HTTP transport: `Client::request`, `auth::request` and `https_client` are network I/O. Each is replaced by its answer as an input. The panics on an unreadable or non-UTF-8 body are not modelled.
- JSON text: serde's parser and printer are not modelled. A body is an abstract JSON value, or a decode error for malformed text. Object key order, duplicate keys and floating-point numbers are not represented (JSON numbers are integers).
- Response.DecodeReadingListResponse: decodes objects only. serde's derived struct decoders also accept a JSON array listing the fields by position, so `[{}]` is a page in the source and an error in the model.
- Response.DecodeEmptyReadingListResponse: objects only, for the same reason. `[[]]` is "no more" in the source.
- Model.DecodeDeletedItem: objects only, for the same reason. `["x"]` is a deleted item in the source.
- Model.DecodeItemOrDeletedItem: objects only. The untagged decoder replays the buffered value into the same positional form.
- Model.DecodeItem and the other struct decoders (Model.DecodeModifiedItem, the nested records): objects only, for the same reason.
- Wire.DecodeFavoriteStatus: accepts the code as a JSON string only. serde's derived decoder for a unit-variant enum also accepts the one-key object form, so `{"0": null}` is `NotFavorited` in the source and an error in the model.
- Wire.DecodeStatus: the JSON string only, for the same reason. `{"2": null}` is `ShouldBeDeleted` in the source.
- Wire.DecodeHasImage: the JSON string only, for the same reason.
- Wire.DecodeHasVideo: the JSON string only, for the same reason.
- Decode error messages: errors are reduced to their kind (missing field, wrong type, invalid value). A failing map entry reports a fixed `InvalidMapEntry` rather than serde's message.
- `json_value_merge`: modelled only for merging two objects with disjoint keys, which is the only way the client uses it (`Client.AuthKeysDisjoint`).
- URI parsing in `cleanup_url`: the parser is a foreign call, so what it finds (host and path, or nothing) is an input. A parsed URL without a host panics in the source, so the model requires one.
- The clock: `chrono::Utc::now` is the `time` parameter of the `modify` payload.
- The HTTP request that `modify`, `mark_as_read`, `mark_as_favorite` and `add_urls` send: each is modelled by the payload string it sends.
- `dbg!` output, the command-line binaries, the examples and the integration tests that run against the live service.
- Client.ListAll: requires the server to stop (a "no more" or error answer) within the given answers and no later than page 858993. Beyond that page the source's `u32` offset would overflow.
- Client.ListAll: takes the already classified answers and returns the filters of every request instead of the request bodies. Each body is `Client.RequestPayload` of the client and those filters, as `Client.Get` states.
- Model.EncodeItem: only serialisation is modelled for `Item` in lib.rs. The model.rs copy has no serializer for booleans, and that difference is not modelled.
- Modify.ModifyPayloadRoundTrip: requires that no id, consumer key or access token holds a double quote. The source interpolates them into the JSON text without escaping, so such a value changes the payload's structure. The round trip is stated for `Modify.ReadActions` and `Modify.ReadCredentials`, which cut the text at every `"` and are not JSON decoding. A backslash in a value escapes the quote after it in the JSON text, and a raw control character makes the text invalid JSON. The model does not capture either: for such values the round trip holds for its reader but not for a JSON parser on the server.
- Modify.MarkAsReadArchives: the same quote requirement and the same reader; backslashes and control characters are not captured.
- Modify.MarkAsFavoriteFavorites: likewise.
- Modify.AddUrlsAdds: likewise; a URL with a backslash or a control character is not captured.
- Auth.ParseAuthorizationCode: the second error branch of `get_authorization_code` cannot be reached, because splitting always yields a first piece. The model has only the first error branch.
- Form bodies: the consumer key and token are interpolated without percent-encoding, as in the source. `Auth.RequestTokenBodyFields` and `Auth.AuthorizeBodyFields` therefore require values without `&` and `=`.

=== FILE: auth.dfy ===
/** Pocket's OAuth flow: the endpoint URLs, the form bodies of the two token requests, the
    page the user is sent to, and how the request token and the access token are read out of
    the server's form-encoded answers. The HTTP exchange itself is not modelled: what the
    server answers (or the transport error) is an input. */
module Auth {
  import opened Wrappers
  import opened Text

  /** The base of every API method. */
  const Endpoint: string := "https://getpocket.com/v3"

  /** Where Pocket sends the user after they authorize the application. */
  const RedirectUrl: string := "https://getpocket.com"

  /** The page that asks the user to authorize a request token, up to the token. */
  const AuthorizePrefix: string := "https://getpocket.com/auth/authorize?request_token="

  /** What follows the token on that page's address. */
  const AuthorizeSuffix: string := "&redirect_uri=" + RedirectUrl

  /** `url`: the address of an API method, the endpoint followed by the method's path. */
  function Url(path: string): (r: string)
    ensures StartsWith(r, Endpoint) && r[|Endpoint|..] == path
  {
    Endpoint + path
  }

  /** Two methods never share an address. */
  lemma UrlInjective(m1: string, m2: string)
    requires Url(m1) == Url(m2)
    ensures m1 == m2
  {
    assert m1 == Url(m1)[|Endpoint|..];
  }

  /** The errors of the OAuth flow. */
  datatype AuthError =
    | OAuthError(message: string)
    | RequestTokenError(message: string)
    | RequestAuthorizationCode(message: string)

  /** `authorization_url`: the page the user opens to authorize the request token. */
  function AuthorizationUrl(token: string): (r: string)
    ensures StartsWith(r, AuthorizePrefix) && EndsWith(r, AuthorizeSuffix)
    ensures |r| == |AuthorizePrefix| + |token| + |AuthorizeSuffix|
  {
    AuthorizePrefix + token + AuthorizeSuffix
  }

  /** The token an authorization page asks about, if the address has that page's shape. */
  function TokenOfAuthorizationUrl(u: string): (r: Option<string>)
    ensures r.Some? <==> (|u| >= |AuthorizePrefix| + |AuthorizeSuffix|
      && StartsWith(u, AuthorizePrefix) && EndsWith(u, AuthorizeSuffix))
  {
    if |u| >= |AuthorizePrefix| + |AuthorizeSuffix| && StartsWith(u, AuthorizePrefix)
      && EndsWith(u, AuthorizeSuffix)
    then Some(u[|AuthorizePrefix|..|u| - |AuthorizeSuffix|])
    else None
  }

  /** The token can be read back from the page's address, whatever characters it holds. */
  lemma AuthorizationUrlRoundTrip(token: string)
    ensures TokenOfAuthorizationUrl(AuthorizationUrl(token)) == Some(token)
  {
    var u := AuthorizationUrl(token);
    assert u[|AuthorizePrefix|..|u| - |AuthorizeSuffix|] == token;
  }

  /** Every address of that shape is the page of the token read from it. */
  lemma AuthorizationUrlOfToken(u: string)
    requires TokenOfAuthorizationUrl(u).Some?
    ensures AuthorizationUrl(TokenOfAuthorizationUrl(u).value) == u
  {
    var token := TokenOfAuthorizationUrl(u).value;
    assert u == u[..|AuthorizePrefix|] + token + u[|u| - |AuthorizeSuffix|..];
  }

  // ---- obtaining a request token ----

  /** One field `name=value` of a form body. */
  function FormField(name: string, value: string): (r: string)
    ensures |r| == |name| + 1 + |value| && r[|name|] == '='
  {
    name + "=" + value
  }

  /** The form body that asks for a request token: `consumer_key=<key>&redirect_uri=<url>`. */
  function RequestTokenBody(consumerKey: string): (r: string)
    ensures StartsWith(r, FormField("consumer_key", consumerKey))
  {
    FormField("consumer_key", consumerKey) + "&" + FormField("redirect_uri", RedirectUrl)
  }

  /** A field splits back into its name and value when neither holds `=`. */
  lemma FormFieldSplit(name: string, value: string)
    requires '=' !in name && '=' !in value
    ensures Split(FormField(name, value), "=") == [name, value]
  {
    SplitCons(name, '=', value);
    SplitCharNone(value, '=');
  }

  /** A two-field body splits back into its fields when neither holds `&`. */
  lemma FormPairSplit(f1: string, f2: string)
    requires '&' !in f1 && '&' !in f2
    ensures Split(f1 + "&" + f2, "&") == [f1, f2]
  {
    SplitCons(f1, '&', f2);
    SplitCharNone(f2, '&');
  }

  /** The request-token body carries the consumer key and the redirect address as two form
      fields, when the key holds no `&`; `FormFieldSplit` reads the key back from the first. */
  lemma RequestTokenBodyFields(consumerKey: string)
    requires '&' !in consumerKey
    ensures Split(RequestTokenBody(consumerKey), "&")
      == [FormField("consumer_key", consumerKey), FormField("redirect_uri", RedirectUrl)]
  {
    FormPairSplit(FormField("consumer_key", consumerKey), FormField("redirect_uri", RedirectUrl));
  }

  /** `get_request_token`, once the request is answered: a transport error is passed on;
      otherwise the token is the second `=`-separated piece of the answer (Pocket answers
      `code=<token>`), and an answer without `=` is a `RequestTokenError` quoting it. */
  function ParseRequestToken(response: Result<string, AuthError>): (r: Result<string, AuthError>)
    ensures response.Err? ==> r == response
    ensures response.Ok? ==> (r.Err? <==> '=' !in response.value)
    ensures response.Ok? && r.Err? ==> r.error.RequestTokenError?
    ensures response.Ok? && r.Ok? ==> '=' !in r.value && AfterFirst(response.value, '=', r.value)
  {
    match response
    case Err(e) => Err(e)
    case Ok(body) =>
      var parts := Split(body, "=");
      if |parts| >= 2 then
        SecondPiece(body, '=');
        Ok(parts[1])
      else
        ContainsChar(body, '=');
        Err(RequestTokenError("could not retrieve token from response body. Body was: \"" + body + "\""))
  }

  /** `v` is the text that follows the first `c` in `s`, up to the next `c` or the end. */
  predicate AfterFirst(s: string, c: char, v: string) {
    exists i :: 0 <= i < |s| && s[i] == c && c !in s[..i]
      && |v| <= |s| - i - 1 && s[i + 1..][..|v|] == v
      && (i + 1 + |v| == |s| || s[i + 1 + |v|] == c)
  }

  /** The second piece of a split on a character follows its first occurrence. */
  lemma SecondPiece(s: string, c: char)
    requires |Split(s, [c])| >= 2
    ensures AfterFirst(s, c, Split(s, [c])[1]) && c !in Split(s, [c])[1]
  {
    assert c in s by { ContainsChar(s, c); }
    var a, rest := SplitAtFirst(s, c);
    assert Split(s, [c])[1] == Split(rest, [c])[0] by { SplitCons(a, c, rest); }
    FirstPiece(rest, c);
    PieceAfter(s, a, c, rest, Split(rest, [c])[0]);
  }

  lemma PieceAfter(s: string, a: string, c: char, rest: string, v: string)
    requires s == a + [c] + rest && c !in a
    requires v <= rest && (v == rest <==> c !in rest) && (c in rest ==> |v| < |rest| && rest[|v|] == c)
    ensures AfterFirst(s, c, v)
  {
    var i := |a|;
    assert s[i] == c && s[..i] == a && s[i + 1..] == rest;
    assert rest[..|v|] == v;
  }

  /** Pocket's answer `code=<token>` gives back the token. */
  lemma RequestTokenOfAnswer(token: string)
    requires '=' !in token
    ensures ParseRequestToken(Ok("code=" + token)) == Ok(token)
  {
    SplitCons("code", '=', token);
    SplitCharNone(token, '=');
  }

  // ---- obtaining the access token ----

  /** The form body that trades an authorized request token for an access token:
      `consumer_key=<key>&code=<token>`. */
  function AuthorizeBody(consumerKey: string, token: string): (r: string)
    ensures StartsWith(r, FormField("consumer_key", consumerKey)) && EndsWith(r, token)
  {
    FormField("consumer_key", consumerKey) + "&" + FormField("code", token)
  }

  /** The access-token body carries the consumer key and the request token as two form
      fields, when neither holds `&`. */
  lemma AuthorizeBodyFields(consumerKey: string, token: string)
    requires '&' !in consumerKey && '&' !in token
    ensures Split(AuthorizeBody(consumerKey, token), "&")
      == [FormField("consumer_key", consumerKey), FormField("code", token)]
  {
    FormPairSplit(FormField("consumer_key", consumerKey), FormField("code", token));
  }

  /** `get_authorization_code`, once the request is answered: a transport error is passed on;
      otherwise the code is the second `=`-separated piece of the answer up to its first `&`
      (Pocket answers `access_token=<code>&username=<user>`), and an answer without `=` is a
      `RequestAuthorizationCode` error quoting it. */
  function ParseAuthorizationCode(response: Result<string, AuthError>): (r: Result<string, AuthError>)
    ensures response.Err? ==> r == response
    ensures response.Ok? ==> (r.Err? <==> '=' !in response.value)
    ensures response.Ok? && r.Err? ==> r.error.RequestAuthorizationCode?
    ensures response.Ok? && r.Ok? ==> (|Split(response.value, "=")| >= 2 &&
      var value := Split(response.value, "=")[1];
      '&' !in r.value && r.value <= value && (r.value == value || value[|r.value|] == '&'))
  {
    match response
    case Err(e) => Err(e)
    case Ok(body) =>
      var parts := Split(body, "=");
      if |parts| >= 2 then
        ContainsChar(body, '=');
        FirstPiece(parts[1], '&');
        Ok(Split(parts[1], "&")[0])
      else
        ContainsChar(body, '=');
        Err(RequestAuthorizationCode("unable to parse response. Response was \"" + body + "\""))
  }

  /** The code is the token-shaped value of the answer, cut at its first `&`. */
  lemma CodeIsCutValue(body: string)
    requires '=' in body
    ensures ParseRequestToken(Ok(body)).Ok? && ParseAuthorizationCode(Ok(body)).Ok?
    ensures var value, code := ParseRequestToken(Ok(body)).value, ParseAuthorizationCode(Ok(body)).value;
      code <= value && '&' !in code && (code == value || value[|code|] == '&')
  {
  }

  /** Pocket's answer `access_token=<code>&username=<user>` gives back the code. */
  lemma AuthorizationCodeOfAnswer(code: string, user: string)
    requires '=' !in code && '&' !in code
    ensures ParseAuthorizationCode(Ok("access_token=" + code + "&username=" + user)) == Ok(code)
  {
    var body := "access_token=" + code + "&username=" + user;
    assert body == "access_token" + ['='] + (code + ['&'] + "username") + ['='] + user;
    CodeOfAnswer("access_token", code, "username", user);
  }

  lemma CodeOfAnswer(key: string, code: string, userKey: string, user: string)
    requires '=' !in key && '=' !in code && '&' !in code && '=' !in userKey
    ensures ParseAuthorizationCode(Ok(key + ['='] + (code + ['&'] + userKey) + ['='] + user)) == Ok(code)
  {
    var value := code + ['&'] + userKey;
    assert key + ['='] + value + ['='] + user == key + ['='] + (value + ['='] + user);
    SplitCons(key, '=', value + ['='] + user);
    SplitCons(value, '=', user);
    SplitCons(code, '&', userKey);
  }
}

=== FILE: cleanup.dfy ===
/** URL canonicalisation (`cleanup_url` and its helpers): the scheme becomes `https`, a
    leading `www.` is dropped, every blogspot country domain becomes `.blogspot.com`, and the
    path loses a trailing `index.html`, `index.php` and slashes. The query and fragment are not
    kept. Parsing the URL is not modelled: the host and path the parser finds are inputs. */
module Cleanup {
  import opened Wrappers
  import opened Text

  const Blogspot: string := ".blogspot."

  /** `fixup_blogspot`: a host in which `.blogspot.` occurs, and does not occur again after
      its first match (so that `split` gives two pieces), is cut after that match and given
      the `.com` domain; any other host is returned as it is. */
  function FixupBlogspot(host: string): (r: string)
    ensures var i := IndexOf(host, Blogspot);
      i.Some? && !Contains(host[i.value + |Blogspot|..], Blogspot) ==>
        r == host[..i.value] + ".blogspot.com"
    ensures var i := IndexOf(host, Blogspot);
      !(i.Some? && !Contains(host[i.value + |Blogspot|..], Blogspot)) ==> r == host
  {
    SplitTwo(host, Blogspot);
    var parts := Split(host, Blogspot);
    if |parts| == 2 then parts[0] + ".blogspot.com" else host
  }

  /** A host with no `.blogspot.` is left alone. */
  lemma FixupBlogspotWithoutBlogspot(host: string)
    requires !Contains(host, Blogspot)
    ensures FixupBlogspot(host) == host
  {
  }

  /** Overlapping matches count once: in `x.blogspot.blogspot.y` the second `.blogspot.`
      shares its first dot with the first, so `split` gives two pieces and the host is fixed. */
  lemma FixupBlogspotOverlap(name: string, tld: string)
    requires name == "x" && tld == "y"
    ensures FixupBlogspot(name + ".blogspot.blogspot." + tld) == name + ".blogspot.com"
  {
    var domain := "blogspot." + tld;
    NoMatchIn(name, ".blogspot", Blogspot);
    NoMatchIn("blogspot", "." + tld, Blogspot);
    assert "blogspot" + ("." + tld) == domain;
    assert name + ".blogspot.blogspot." + tld == name + Blogspot + domain;
    FixupBlogspotCountryDomain(name, domain);
  }

  /** A host with two non-overlapping matches of `.blogspot.` is left alone too. */
  lemma FixupBlogspotTwice(a: string, b: string, c: string)
    requires !Contains(a + ".blogspot", Blogspot)
    ensures FixupBlogspot(a + Blogspot + b + Blogspot + c) == a + Blogspot + b + Blogspot + c
  {
    var rest := b + Blogspot + c;
    FirstBlogspot(a, rest);
    assert a + Blogspot + b + Blogspot + c == a + Blogspot + rest;
    assert MatchesAt(rest, Blogspot, |b|);
    assert Contains(rest, Blogspot);
  }

  /** `.blogspot.` first occurs right after `a` when it occurs neither inside `a` nor across
      the boundary. */
  lemma FirstBlogspot(a: string, b: string)
    requires !Contains(a + ".blogspot", Blogspot)
    ensures IndexOf(a + Blogspot + b, Blogspot) == Some(|a|)
    ensures (a + Blogspot + b)[..|a|] == a && (a + Blogspot + b)[|a| + |Blogspot|..] == b
  {
    var s := a + Blogspot + b;
    var t := a + ".blogspot";
    assert MatchesAt(s, Blogspot, |a|);
    forall j: nat | j < |a| ensures !MatchesAt(s, Blogspot, j) {
      assert !MatchesAt(t, Blogspot, j);
      assert s[j..j + |Blogspot|] == t[j..j + |Blogspot|];
    }
  }

  /** The host `a.blogspot.<domain>`, where `<domain>` holds no further `.blogspot.`, becomes
      `a.blogspot.com`. */
  lemma FixupBlogspotCountryDomain(a: string, domain: string)
    requires !Contains(a + ".blogspot", Blogspot)
    requires !Contains(domain, Blogspot)
    ensures FixupBlogspot(a + Blogspot + domain) == a + ".blogspot.com"
  {
    FirstBlogspot(a, domain);
  }

  /** No match of `p` in `x + y` when `x` lacks the first character of `p` and `y` is shorter
      than `p`. */
  lemma NoMatchIn(x: string, y: string, p: string)
    requires |p| > 0 && p[0] !in x && |y| < |p|
    ensures !Contains(x + y, p)
  {
    var s := x + y;
    forall j: nat | j <= |s| ensures !MatchesAt(s, p, j) {
      if j < |x| && j + |p| <= |s| {
        assert s[j..j + |p|][0] == x[j];
      }
    }
  }

  /** No match of `p` in a string that lacks one of the characters of `p`. */
  lemma MissingChar(s: string, p: string, k: nat)
    requires k < |p| && p[k] !in s
    ensures !Contains(s, p)
  {
    forall j: nat | j <= |s| ensures !MatchesAt(s, p, j) {
      if j + |p| <= |s| {
        assert s[j..j + |p|][k] == s[j + k];
      }
    }
  }

  /** `start_domain_from`: how many leading characters of the host to skip. */
  function StartDomainFrom(host: string): (r: nat)
    ensures r == 4 <==> StartsWith(host, "www.")
    ensures r == 0 <==> !StartsWith(host, "www.")
    ensures r <= |host|
  {
    if StartsWith(host, "www.") then 4 else 0
  }

  /** `cleanup_path`: strips trailing `index.html`s, then trailing `index.php`s, then
      trailing slashes. The result never ends in a slash and is a prefix of the path. */
  function CleanupPath(path: string): (r: string)
    ensures !EndsWith(r, "/")
    ensures r <= path
  {
    TrimEndMatches(TrimEndMatches(TrimEndMatches(path, "index.html"), "index.php"), "/")
  }

  /** Trimming a suffix from a string that ends in another character changes nothing. */
  lemma TrimEndOfOtherEnding(s: string, suffix: string)
    requires |suffix| > 0 && |s| > 0 && s[|s| - 1] != suffix[|suffix| - 1]
    ensures TrimEndMatches(s, suffix) == s
  {
  }

  /** Trimming a suffix from a string that ends in it trims the rest the same way. */
  lemma TrimEndOnce(s: string, suffix: string)
    requires |suffix| > 0
    ensures TrimEndMatches(s + suffix, suffix) == TrimEndMatches(s, suffix)
  {
    assert EndsWith(s + suffix, suffix) && (s + suffix)[..|s|] == s;
  }

  /** Trailing slashes do not matter: a path and the same path with one more slash clean up
      alike, provided the path does not itself end in an index page. */
  lemma CleanupPathTrailingSlash(path: string)
    requires !EndsWith(path, "index.html") && !EndsWith(path, "index.php")
    ensures CleanupPath(path + "/") == CleanupPath(path)
  {
    var s := path + "/";
    TrimEndOfOtherEnding(s, "index.html");
    TrimEndOfOtherEnding(s, "index.php");
    assert EndsWith(s, "/") && s[..|s| - 1] == path;
  }

  /** One trailing slash is all that is stripped from a path that ends in a slash after any
      other character, whatever page name precedes it. */
  lemma CleanupPathOneSlash(path: string)
    requires |path| > 0 && path[|path| - 1] != '/'
    ensures CleanupPath(path + "/") == path
  {
    TrimEndOfOtherEnding(path + "/", "index.html");
    TrimEndOfOtherEnding(path + "/", "index.php");
    TrimEndOnce(path, "/");
    TrimEndOfOtherEnding(path, "/");
  }

  /** Cleaning a path is not idempotent: a page name revealed by stripping the slash stays,
      and only a second cleaning removes it. */
  lemma CleanupPathNotIdempotent(dir: string, page: string)
    requires dir == "/" && page == dir + "index.html"
    ensures CleanupPath(page + "/") == page
    ensures CleanupPath(CleanupPath(page + "/")) == ""
  {
    CleanupPathOneSlash(page);
    CleanupPathIndexHtml(dir);
    CleanupSlash();
  }

  /** An `index.html` page cleans up like the directory that holds it. */
  lemma CleanupPathIndexHtml(dir: string)
    requires |dir| > 0 && dir[|dir| - 1] == '/'
    ensures CleanupPath(dir + "index.html") == CleanupPath(dir)
  {
    TrimEndOnce(dir, "index.html");
    TrimEndOfOtherEnding(dir, "index.html");
  }

  /** An `index.php` page whose directory is only slashes cleans up to nothing. */
  lemma CleanupPathIndexPhp()
    ensures CleanupPath("/index.php") == ""
  {
    TrimEndOfOtherEnding("/index.php", "index.html");
    assert "/index.php" == "/" + "index.php";
    TrimEndOnce("/", "index.php");
    TrimEndOfOtherEnding("/", "index.php");
    CleanupSlash();
  }

  /** The root path cleans up to nothing. */
  lemma CleanupSlash()
    ensures TrimEndMatches("/", "/") == ""
    ensures CleanupPath("/") == ""
  {
    TrimEndOfOtherEnding("/", "index.html");
    TrimEndOfOtherEnding("/", "index.php");
    assert "/" == "" + "/";
    TrimEndOnce("", "/");
  }

  /** What the URI parser finds in a URL: its host, if any, and its path. */
  datatype Uri = Uri(host: Option<string>, path: string)

  /** `cleanup_url`: a URL the parser rejects (`parsed` is `None`) is returned as it is;
      otherwise the URL is rebuilt as `https://` followed by the host without `www.`, with
      the blogspot domain fixed, and the cleaned path. A parsed URL without a host is a panic
      in the source, so the model does not accept one. */
  function CleanupUrl(url: string, parsed: Option<Uri>): (r: string)
    requires parsed.Some? ==> parsed.value.host.Some?
    ensures parsed.None? ==> r == url
    ensures parsed.Some? ==> StartsWith(r, "https://") && EndsWith(r, CleanupPath(parsed.value.path))
  {
    match parsed
    case None => url
    case Some(uri) =>
      var host := uri.host.value;
      var startsFrom := StartDomainFrom(host);
      var domain, path := FixupBlogspot(host[startsFrom..]), CleanupPath(uri.path);
      Bracketed("https://", domain, path);
      "https://" + domain + path
  }

  lemma Bracketed(a: string, b: string, c: string)
    ensures StartsWith(a + b + c, a) && EndsWith(a + b + c, c)
  {
    assert (a + b + c)[..|a|] == a;
    assert (a + b + c)[|a + b + c| - |c|..] == c;
  }

  /** The scheme and a leading `www.` do not matter: the URLs with and without them clean up
      alike. */
  lemma CleanupUrlDropsWww(u1: string, u2: string, host: string, path: string)
    requires !StartsWith(host, "www.")
    ensures CleanupUrl(u1, Some(Uri(Some("www." + host), path))) == CleanupUrl(u2, Some(Uri(Some(host), path)))
  {
    assert ("www." + host)[4..] == host;
  }

  /** A path cleans up like the same path with one more slash. */
  lemma CleanupUrlTrailingSlash(u1: string, u2: string, host: string, path: string)
    requires !EndsWith(path, "index.html") && !EndsWith(path, "index.php")
    ensures CleanupUrl(u1, Some(Uri(Some(host), path + "/"))) == CleanupUrl(u2, Some(Uri(Some(host), path)))
  {
    CleanupPathTrailingSlash(path);
  }

  /** The whole result for a parsed URL: `https://`, the host with one leading `www.` removed
      and its blogspot domain fixed, then the cleaned path. */
  lemma CleanupUrlOf(url: string, host: string, path: string)
    ensures CleanupUrl(url, Some(Uri(Some(host), path))) ==
      "https://" + FixupBlogspot(if StartsWith(host, "www.") then host[4..] else host) + CleanupPath(path)
  {
    if StartsWith(host, "www.") {
      assert "www." + host[4..] == host;
      CleanupUrlWww(url, host[4..], path);
    } else {
      CleanupUrlNoWww(url, host, path);
    }
  }

  /** A host that starts with `www.` loses exactly those four characters. */
  lemma CleanupUrlWww(url: string, rest: string, path: string)
    ensures CleanupUrl(url, Some(Uri(Some("www." + rest), path))) ==
      "https://" + FixupBlogspot(rest) + CleanupPath(path)
  {
    assert ("www." + rest)[4..] == rest;
  }

  /** A host that does not start with `www.` is kept whole. */
  lemma CleanupUrlNoWww(url: string, host: string, path: string)
    requires !StartsWith(host, "www.")
    ensures CleanupUrl(url, Some(Uri(Some(host), path))) == "https://" + FixupBlogspot(host) + CleanupPath(path)
  {
    assert host[0..] == host;
  }

  /** Only one `www.` goes: `www.www.x` keeps the second. */
  lemma CleanupUrlDropsOneWww(url: string, host: string, path: string)
    requires !Contains("www." + host, Blogspot)
    ensures CleanupUrl(url, Some(Uri(Some("www.www." + host), path))) == "https://" + "www." + host + CleanupPath(path)
  {
    var rest := "www." + host;
    assert "www.www." + host == "www." + rest;
    CleanupUrlWww(url, rest, path);
    FixupBlogspotWithoutBlogspot(rest);
  }

  /** A host that does not begin with `w` keeps its first character. */
  lemma NotWww(host: string)
    requires |host| > 0 && host[0] != 'w'
    ensures !StartsWith(host, "www.")
  {
  }

  // The `cleanup_url` unit tests, with the host and path of each URL as inputs. Each test's
  // strings are bound to parameters so that the proof reasons about them symbolically.

  /** "http://example.com#asdfas.fsa", "http://example.com?" and "http(s)://another.example.com":
      the host is kept, the fragment and the query are dropped and the scheme becomes `https`. */
  lemma CleanupUrlPlainHosts(host: string, path: string)
    requires host == "example.com" || host == "another.example.com"
    requires path == "/"
    ensures CleanupUrl("", Some(Uri(Some(host), path))) == "https://" + host
  {
    MissingChar(host, Blogspot, 1);
    CleanupSlash();
    NotWww(host);
    CleanupUrlNoWww("", host, path);
  }

  /** "https://example.com/index.php": the page is dropped. */
  lemma CleanupUrlDropsIndexPhp(host: string, path: string)
    requires host == "example.com" && path == "/index.php"
    ensures CleanupUrl("", Some(Uri(Some(host), path))) == "https://" + host
  {
    MissingChar(host, Blogspot, 1);
    CleanupPathIndexPhp();
    NotWww(host);
    CleanupUrlNoWww("", host, path);
  }

  /** "https://jenkins.io/2.0/index.html" cleans up like "https://jenkins.io/2.0/". */
  lemma CleanupUrlDropsIndexHtml(host: string, dir: string)
    requires host == "jenkins.io" && dir == "/2.0/"
    ensures CleanupUrl("", Some(Uri(Some(host), dir + "index.html")))
      == CleanupUrl("", Some(Uri(Some(host), dir)))
  {
    CleanupPathIndexHtml(dir);
    NotWww(host);
    CleanupUrlNoWww("", host, dir + "index.html");
    CleanupUrlNoWww("", host, dir);
  }

  /** "https://example.com/hello/" cleans up like "https://example.com/hello". */
  lemma CleanupUrlDropsTrailingSlash(host: string, path: string)
    requires host == "example.com" && path == "/hello"
    ensures CleanupUrl("", Some(Uri(Some(host), path + "/")))
      == CleanupUrl("", Some(Uri(Some(host), path)))
  {
    CleanupUrlTrailingSlash("", "", host, path);
  }

  /** A blogspot host with any country domain cleans up to the `.com` domain. */
  lemma CleanupUrlBlogspot(name: string, domain: string, path: string)
    requires !Contains(name + ".blogspot", Blogspot) && !Contains(domain, Blogspot)
    requires !StartsWith(name + Blogspot + domain, "www.")
    ensures CleanupUrl("", Some(Uri(Some(name + Blogspot + domain), path)))
      == "https://" + name + ".blogspot.com" + CleanupPath(path)
  {
    var host := name + Blogspot + domain;
    assert FixupBlogspot(host) == name + ".blogspot.com" by {
      FixupBlogspotCountryDomain(name, domain);
    }
    assert CleanupUrl("", Some(Uri(Some(host), path))) == "https://" + FixupBlogspot(host) + CleanupPath(path) by {
      CleanupUrlNoWww("", host, path);
    }
  }

  /** "https://this-is-a.blogspot.cl/asdf/asdf/asdf?asdf=1": the country domain becomes
      `.com` and the query is dropped. */
  lemma CleanupUrlBlogspotCl(name: string, path: string)
    requires name == "this-is-a" && path == "/asdf/asdf/asdf"
    ensures CleanupUrl("", Some(Uri(Some(name + ".blogspot.cl"), path)))
      == "https://" + name + ".blogspot.com" + path
  {
    NoMatchIn(name, ".blogspot", Blogspot);
    NoMatchIn("", "cl", Blogspot);
    assert name + ".blogspot.cl" == name + Blogspot + "cl";
    NotWww(name + Blogspot + "cl");
    AsdfPath(path);
    CleanupUrlBlogspot(name, "cl", path);
  }

  /** "https://this-is-a.blogspot.com.br/asdf/asdf/asdf?asdf=1". */
  lemma CleanupUrlBlogspotComBr(name: string, path: string)
    requires name == "this-is-a" && path == "/asdf/asdf/asdf"
    ensures CleanupUrl("", Some(Uri(Some(name + ".blogspot.com.br"), path)))
      == "https://" + name + ".blogspot.com" + path
  {
    NoMatchIn(name, ".blogspot", Blogspot);
    NoMatchIn("", "com.br", Blogspot);
    assert name + ".blogspot.com.br" == name + Blogspot + "com.br";
    NotWww(name + Blogspot + "com.br");
    AsdfPath(path);
    CleanupUrlBlogspot(name, "com.br", path);
  }

  /** "https://www.this-is-a.blogspot.com.br/asdf/asdf/asdf?asdf=1" (and the same URL with
      `http`): the `www.` goes too. */
  lemma CleanupUrlBlogspotWww(name: string, path: string)
    requires name == "this-is-a" && path == "/asdf/asdf/asdf"
    ensures CleanupUrl("", Some(Uri(Some("www." + name + ".blogspot.com.br"), path)))
      == "https://" + name + ".blogspot.com" + path
  {
    var host := name + ".blogspot.com.br";
    var www := "www." + name + ".blogspot.com.br";
    assert www == "www." + host;
    assert CleanupUrl("", Some(Uri(Some(www), path))) == CleanupUrl("", Some(Uri(Some(host), path))) by {
      NotWww(host);
      CleanupUrlDropsWww("", "", host, path);
    }
    CleanupUrlBlogspotComBr(name, path);
  }

  lemma AsdfPath(path: string)
    requires path == "/asdf/asdf/asdf"
    ensures CleanupPath(path) == path
  {
    TrimEndOfOtherEnding(path, "index.html");
    TrimEndOfOtherEnding(path, "index.php");
    TrimEndOfOtherEnding(path, "/");
  }
}

=== FILE: client.dfy ===
/** The Pocket client's "get" operations: the request payload (the filters merged with the
    credentials), fetching one page (`get`), and fetching the whole reading list page by page
    (`list_all`). The server is not modelled: the response bodies it would send are inputs. */
module Client {
  import opened Wrappers
  import opened Decimal
  import opened Json
  import opened Query
  import opened Response
  import Model

  /** The application's consumer key and the user's access token. */
  datatype Client = Client(consumerKey: string, authorizationCode: string)

  /** The keys `auth` writes. */
  const AuthKeys: set<string> := {"consumer_key", "access_token"}

  /** `Client::auth`: the credentials as a JSON object. */
  function AuthJson(c: Client): (r: Json)
    ensures r.JObject? && r.fields.Keys == AuthKeys
    ensures r.fields["consumer_key"] == JString(c.consumerKey)
    ensures r.fields["access_token"] == JString(c.authorizationCode)
  {
    JObject(map["consumer_key" := JString(c.consumerKey), "access_token" := JString(c.authorizationCode)])
  }

  /** No filter is written under a credential key, so merging the credentials into the filters
      never overwrites a filter. */
  lemma AuthKeysDisjoint(g: GetInput)
    ensures EncodeGetInput(g).fields.Keys !! AuthKeys
  {
    assert GetInputKeys !! AuthKeys;
  }

  /** The body of a "get" request: the filters with the credentials merged in
      (`json_value_merge`'s `merge`, which adds the keys of the credentials object). The
      payload holds every filter unchanged and both credentials, and nothing else. */
  function RequestPayload(c: Client, g: GetInput): (r: Json)
    ensures r.JObject? && r.fields.Keys == EncodeGetInput(g).fields.Keys + AuthKeys
    ensures forall k :: k in EncodeGetInput(g).fields ==> r.fields[k] == EncodeGetInput(g).fields[k]
    ensures r.fields["consumer_key"] == JString(c.consumerKey)
    ensures r.fields["access_token"] == JString(c.authorizationCode)
  {
    AuthKeysDisjoint(g);
    JObject(EncodeGetInput(g).fields + AuthJson(c).fields)
  }

  /** What a single "get" returns for a classified response. */
  function PageResult(s: ResponseState): (r: Result<Model.ReadingList, DecodeError>)
    ensures s.Parsed? ==> r == Ok(s.response.list)
    ensures s.NoMore? ==> r == Ok(map[])
    ensures s.Error? ==> r == Err(s.error)
  {
    match s
    case Parsed(page) => Ok(page.list)
    case NoMore => Ok(map[])
    case Error(e) => Err(e)
  }

  /** Extending an empty map gives the map itself (kept as a lemma of its own: stated inside
      `Get`, the map equality is checked against every fact about the response in scope). */
  lemma ExtendEmpty<K, V>(m: map<K, V>)
    ensures map[] + m == m
  {
  }

  /** `Client::get`: sends one request and returns that page, an empty list when there are no
      more items, or the error. */
  method Get(c: Client, input: GetInput, body: Body) returns (payload: Json, result: Result<Model.ReadingList, DecodeError>)
    ensures payload == RequestPayload(c, input)
    ensures result == PageResult(ParseAllResponse(body))
  {
    var readingList: Model.ReadingList := map[];
    payload := RequestPayload(c, input);
    var state := ParseAllResponse(body);
    match state {
      case NoMore =>
      case Parsed(page) =>
        ExtendEmpty(page.list);
        readingList := readingList + page.list;
      case Error(e) =>
        return payload, Err(e);
    }
    result := Ok(readingList);
  }

  // ---- list_all ----

  /** The last page whose offset, `k * DEFAULT_COUNT`, still fits in a `u32`. */
  const LAST_PAGE: nat := 858993

  lemma LastPageIsLast()
    ensures LAST_PAGE * DEFAULT_COUNT < U32_LIMIT <= (LAST_PAGE + 1) * DEFAULT_COUNT
  {
  }

  /** The filters of the `k`-th request `list_all` sends (counting from 0): everything, in
      site order, in complete detail, one page of `DEFAULT_COUNT` items starting at item
      `k * DEFAULT_COUNT`. The offset is a `u32`, so `k` must not pass `LAST_PAGE`. */
  function ListAllInput(k: nat): (r: GetInput)
    requires k <= LAST_PAGE
    ensures r.offset == Some(k * DEFAULT_COUNT) && r.count == Some(DEFAULT_COUNT)
  {
    GetInput(
      state := Some(All), favorite := None, tag := None, contentType := None, sort := Some(Site),
      detailType := Some(Complete), search := None, domain := None, since := None,
      count := Some(DEFAULT_COUNT), offset := Some(k * DEFAULT_COUNT))
  }

  /** The filters of the `k`-th request, as written on the wire: exactly these five keys. */
  lemma ListAllRequestShape(k: nat)
    requires k <= LAST_PAGE
    ensures EncodeGetInput(ListAllInput(k)) == JObject(map[
      "state" := JString("all"), "sort" := JString("site"), "detailType" := JString("complete"),
      "count" := JNumber(5000), "offset" := JNumber(k * 5000)])
  {
    var o := EncodeGetInput(ListAllInput(k)).fields;
    var expected := map[
      "state" := JString("all"), "sort" := JString("site"), "detailType" := JString("complete"),
      "count" := JNumber(5000), "offset" := JNumber(k * 5000)];
    assert o.Keys == expected.Keys;
    assert o["state"] == expected["state"];
    assert o["sort"] == expected["sort"];
    assert o["detailType"] == expected["detailType"];
  }

  /** The server stops paging at some point: a response that is not a page. */
  predicate Stops(states: seq<ResponseState>) {
    exists i :: 0 <= i < |states| && !states[i].Parsed?
  }

  /** The index of the first response that is not a page. */
  function StopIndex(states: seq<ResponseState>): (n: nat)
    requires Stops(states)
    ensures n < |states| && !states[n].Parsed?
    ensures forall i :: 0 <= i < n ==> states[i].Parsed?
  {
    if !states[0].Parsed? then 0
    else
      var i :| 0 <= i < |states| && !states[i].Parsed?;
      assert 0 <= i - 1 < |states[1..]| && !states[1..][i - 1].Parsed?;
      1 + StopIndex(states[1..])
  }

  /** The reading list of page `i`. */
  function Page(states: seq<ResponseState>, i: nat): Model.ReadingList
    requires i < |states| && states[i].Parsed?
  {
    states[i].response.list
  }

  /** The first `n` pages merged in order, each into the map built so far (`BTreeMap::extend`). */
  function MergedPages(states: seq<ResponseState>, n: nat): Model.ReadingList
    requires n <= |states|
    requires forall i :: 0 <= i < n ==> states[i].Parsed?
  {
    if n == 0 then map[] else MergedPages(states, n - 1) + Page(states, n - 1)
  }

  /** The id set of the merged list is the union of the pages' id sets. */
  lemma {:induction false} MergedPagesKeys(states: seq<ResponseState>, n: nat, id: Model.ItemId)
    requires n <= |states|
    requires forall i :: 0 <= i < n ==> states[i].Parsed?
    ensures id in MergedPages(states, n) <==> exists i :: 0 <= i < n && id in Page(states, i)
  {
    if n > 0 {
      MergedPagesKeys(states, n - 1, id);
    }
  }

  /** An id takes its entry from the last page that holds it. */
  lemma {:induction false} MergedPagesLatestWins(states: seq<ResponseState>, n: nat, i: nat, id: Model.ItemId)
    requires n <= |states|
    requires forall j :: 0 <= j < n ==> states[j].Parsed?
    requires i < n && id in Page(states, i)
    requires forall j :: i < j < n ==> id !in Page(states, j)
    ensures id in MergedPages(states, n)
    ensures MergedPages(states, n)[id] == Page(states, i)[id]
  {
    if i < n - 1 {
      MergedPagesLatestWins(states, n - 1, i, id);
    }
  }

  /** What `list_all` returns for the classified responses: the merged pages when paging ends
      with `NoMore`, or the error of the response that ended it, with every page fetched
      before it discarded. */
  function ListAllResult(states: seq<ResponseState>): (r: Result<Model.ReadingList, DecodeError>)
    requires Stops(states)
    ensures r.Err? <==> states[StopIndex(states)].Error?
    ensures r.Err? ==> r.error == states[StopIndex(states)].error
    ensures r.Ok? ==> r.value == MergedPages(states, StopIndex(states))
  {
    var n := StopIndex(states);
    match states[n]
    case Error(e) => Err(e)
    case NoMore => Ok(MergedPages(states, n))
  }

  /** `Client::list_all`: asks for page after page, raising the offset by one page after each
      page received, until a response is not a page. The server is the sequence of its
      classified answers: `states[k]` is `ParseAllResponse` of the body answering the `k`-th
      request. The method returns the filters of every request it sent, in order (the body of
      each is `RequestPayload` of the client and those filters, as in `Get`), and the result. */
  method ListAll(c: Client, states: seq<ResponseState>) returns (sent: seq<GetInput>, result: Result<Model.ReadingList, DecodeError>)
    requires Stops(states)
    requires StopIndex(states) <= LAST_PAGE
    ensures |sent| == StopIndex(states) + 1
    ensures forall k :: 0 <= k < |sent| ==> sent[k] == ListAllInput(k)
    ensures result == ListAllResult(states)
  {
    var readingList: Model.ReadingList := map[];
    var offset: nat := 0;
    sent := [];
    while true
      invariant offset <= StopIndex(states)
      invariant |sent| == offset
      invariant forall k :: 0 <= k < offset ==> sent[k] == ListAllInput(k)
      invariant readingList == MergedPages(states, offset)
      decreases StopIndex(states) - offset
    {
      var input := ListAllInput(offset);
      sent := sent + [input];
      match states[offset] {
        case NoMore =>
          return sent, Ok(readingList);
        case Parsed(page) =>
          offset := offset + 1;
          readingList := readingList + page.list;
        case Error(e) =>
          return sent, Err(e);
      }
    }
  }

  /** Paging that ends right after one page gives what a single `get` of that page gives. */
  lemma OnePageListAllIsGet(states: seq<ResponseState>)
    requires |states| >= 2 && states[0].Parsed? && states[1].NoMore?
    ensures Stops(states) && StopIndex(states) == 1
    ensures ListAllResult(states) == PageResult(states[0])
  {
    assert !states[1].Parsed?;
    assert StopIndex(states) == 1;
    assert MergedPages(states, 1) == map[] + Page(states, 0);
    assert map[] + Page(states, 0) == Page(states, 0);
  }
}

=== FILE: decimal.dfy ===
/** Fixed-width integer ranges and the decimal text form of integers: Rust's `Display` for
    integers and `FromStr` for unsigned integers, which is how the Pocket wire format carries
    counters and timestamps inside JSON strings. */
module Decimal {
  import opened Wrappers

  const U32_LIMIT: nat := 0x1_0000_0000
  const U64_LIMIT: nat := 0x1_0000_0000_0000_0000

  /** Rust's `u32`. */
  type U32 = x: int | 0 <= x < 0x1_0000_0000
  /** Rust's `u64`. */
  type U64 = x: int | 0 <= x < 0x1_0000_0000_0000_0000
  /** Rust's `i64` (the type of a Unix timestamp from the clock). */
  type I64 = x: int | -0x8000_0000_0000_0000 <= x < 0x8000_0000_0000_0000

  predicate IsDigit(c: char) {
    '0' <= c <= '9'
  }

  predicate AllDigits(s: string) {
    forall i :: 0 <= i < |s| ==> IsDigit(s[i])
  }

  function DigitValue(c: char): nat
    requires IsDigit(c)
  {
    c as int - '0' as int
  }

  function DigitChar(d: nat): (c: char)
    requires d < 10
    ensures IsDigit(c) && DigitValue(c) == d
  {
    ('0' as int + d) as char
  }

  /** The value of a string of decimal digits, most significant first. */
  function DigitsValue(s: string): nat
    requires AllDigits(s)
  {
    if s == [] then 0 else DigitsValue(s[..|s| - 1]) * 10 + DigitValue(s[|s| - 1])
  }

  /** Decimal rendering of a natural number as `Display` writes an unsigned integer:
      at least one digit and no leading zero. */
  function ShowNat(n: nat): (r: string)
    ensures |r| > 0 && AllDigits(r)
    ensures r[0] == '0' ==> n == 0
  {
    if n < 10 then [DigitChar(n)] else ShowNat(n / 10) + [DigitChar(n % 10)]
  }

  /** Decimal rendering of a signed integer as `Display` writes an `i64`. */
  function ShowInt(i: int): (r: string)
    ensures |r| > 0
    ensures r[0] == '-' <==> i < 0
    ensures i < 0 ==> r[1..] == ShowNat(-i)
    ensures i >= 0 ==> r == ShowNat(i)
  {
    if i < 0 then "-" + ShowNat(-i) else ShowNat(i)
  }

  /** The digits `FromStr` reads: the text without one optional leading '+'. */
  function Magnitude(s: string): string {
    if |s| > 0 && s[0] == '+' then s[1..] else s
  }

  /** `str::parse` for an unsigned integer type whose values lie below `limit`: an optional
      '+', then at least one ASCII digit, and a value that fits. Anything else is an error. */
  function ParseUnsigned(s: string, limit: nat): (r: Option<nat>)
    ensures r.Some? <==> |Magnitude(s)| > 0 && AllDigits(Magnitude(s)) && DigitsValue(Magnitude(s)) < limit
    ensures r.Some? ==> r.value == DigitsValue(Magnitude(s)) && r.value < limit
    ensures s == "" || s == "+" ==> r.None?
    ensures (exists i :: 0 <= i < |s| && !IsDigit(s[i]) && !(i == 0 && s[i] == '+')) ==> r.None?
  {
    var digits := Magnitude(s);
    if |digits| == 0 || !AllDigits(digits) then None
    else
      var v := DigitsValue(digits);
      if v < limit then Some(v) else None
  }

  lemma {:induction false} DigitsValueOfShowNat(n: nat)
    ensures DigitsValue(ShowNat(n)) == n
  {
    if n >= 10 {
      DigitsValueOfShowNat(n / 10);
      var s := ShowNat(n);
      assert s[..|s| - 1] == ShowNat(n / 10);
    }
  }

  /** `from_str` also accepts a leading '+' and leading zeros, which `Display` never writes. */
  lemma ParseUnsignedNonCanonical()
    ensures ParseUnsigned("+5", U64_LIMIT) == Some(5)
    ensures ParseUnsigned("007", U64_LIMIT) == Some(7)
  {
    assert Magnitude("+5") == "5";
    assert "007"[..2] == "00" && "00"[..1] == "0";
  }

  /** Reading back what `Display` wrote gives the original number. */
  lemma ParseShowNat(n: nat, limit: nat)
    requires n < limit
    ensures ParseUnsigned(ShowNat(n), limit) == Some(n)
  {
    DigitsValueOfShowNat(n);
  }
}

=== FILE: json.dfy ===
/** An abstract JSON value and the decoding conventions serde applies to it: structs are
    objects whose named fields are looked up (unknown fields are ignored, a missing field is an
    error unless its type is `Option`), `Vec`s are arrays, `BTreeMap<String, _>`s are objects,
    and strings and integers decode only from their own kind of value. JSON text is not modelled:
    a body that is not well-formed JSON is the error `Syntax`. */
module Json {
  import opened Wrappers
  import opened Decimal

  /** A JSON value. Numbers are integers (the wire format uses no fractions); an object maps
      each key to its value. */
  datatype Json =
    | JNull
    | JBool(b: bool)
    | JNumber(n: int)
    | JString(s: string)
    | JArray(elems: seq<Json>)
    | JObject(fields: map<string, Json>)

  /** Why a JSON value does not decode as the expected Rust type. */
  datatype DecodeError =
    | Syntax
    | InvalidType(expected: string)
    | InvalidValue(found: string, expected: string)
    | UnknownVariant(found: string, expected: string)
    | MissingField(field: string)
    | InvalidMapEntry(expected: string)
    | NoMatchingVariant(name: string)

  type Decoded<T> = Result<T, DecodeError>

  function DecodeString(j: Json): (r: Decoded<string>)
    ensures r.Ok? <==> j.JString?
    ensures r.Ok? ==> r.value == j.s
  {
    if j.JString? then Ok(j.s) else Err(InvalidType("a string"))
  }

  function EncodeString(s: string): (r: Json)
    ensures r != JNull && DecodeString(r) == Ok(s)
  {
    JString(s)
  }

  /** A native JSON number as a `u32`: negative or too large values are rejected. */
  function DecodeU32(j: Json): (r: Decoded<U32>)
    ensures r.Ok? <==> j.JNumber? && 0 <= j.n < U32_LIMIT
    ensures r.Ok? ==> r.value == j.n
  {
    if !j.JNumber? then Err(InvalidType("u32"))
    else if 0 <= j.n < U32_LIMIT then Ok(j.n)
    else Err(InvalidValue(ShowInt(j.n), "u32"))
  }

  /** A native JSON number as a `u64`. */
  function DecodeU64(j: Json): (r: Decoded<U64>)
    ensures r.Ok? <==> j.JNumber? && 0 <= j.n < U64_LIMIT
    ensures r.Ok? ==> r.value == j.n
  {
    if !j.JNumber? then Err(InvalidType("u64"))
    else if 0 <= j.n < U64_LIMIT then Ok(j.n)
    else Err(InvalidValue(ShowInt(j.n), "u64"))
  }

  /** A `u32` written as a native JSON number; reading it back gives the same number. */
  function EncodeU32(n: U32): (r: Json)
    ensures r != JNull && DecodeU32(r) == Ok(n)
  {
    JNumber(n)
  }

  /** A `u64` written as a native JSON number; reading it back gives the same number. */
  function EncodeU64(n: U64): (r: Json)
    ensures r != JNull && DecodeU64(r) == Ok(n)
  {
    JNumber(n)
  }

  /** A mandatory struct field. */
  function Field<T>(o: map<string, Json>, name: string, dec: Json -> Decoded<T>): (r: Decoded<T>)
    ensures name !in o ==> r == Err(MissingField(name))
    ensures name in o ==> r == dec(o[name])
  {
    if name in o then dec(o[name]) else Err(MissingField(name))
  }

  /** A field of type `Option<T>`: absent or `null` is `None`, anything else must decode. */
  function OptField<T>(o: map<string, Json>, name: string, dec: Json -> Decoded<T>): (r: Decoded<Option<T>>)
    ensures name !in o || o[name] == JNull ==> r == Ok(None)
    ensures name in o && o[name] != JNull ==>
      (r.Ok? <==> dec(o[name]).Ok?) && (r.Ok? ==> r.value == Some(dec(o[name]).value))
  {
    if name !in o || o[name] == JNull then Ok(None)
    else
      var v :- dec(o[name]);
      Ok(Some(v))
  }

  /** How serde writes an `Option<T>`: `None` as `null`. */
  function EncodeOpt<T>(x: Option<T>, enc: T -> Json): Json {
    match x
    case None => JNull
    case Some(v) => enc(v)
  }

  /** An `Option` field written by `EncodeOpt` reads back as the same `Option`, provided the
      value's own encoding is not `null` and reads back. */
  lemma OptFieldRoundTrip<T>(o: map<string, Json>, name: string, x: Option<T>, enc: T -> Json, dec: Json -> Decoded<T>)
    requires name in o && o[name] == EncodeOpt(x, enc)
    requires x.Some? ==> enc(x.value) != JNull && dec(enc(x.value)) == Ok(x.value)
    ensures OptField(o, name, dec) == Ok(x)
  {
  }

  /** A `Vec<T>` from an array: every element must decode; the first failure is reported. */
  function DecodeSeq<T>(elems: seq<Json>, dec: Json -> Decoded<T>): (r: Decoded<seq<T>>)
    ensures r.Ok? <==> forall i :: 0 <= i < |elems| ==> dec(elems[i]).Ok?
    ensures r.Ok? ==> |r.value| == |elems| && forall i :: 0 <= i < |elems| ==> dec(elems[i]) == Ok(r.value[i])
  {
    if |elems| == 0 then Ok([])
    else
      var head :- dec(elems[0]);
      var tail :- DecodeSeq(elems[1..], dec);
      assert forall i :: 1 <= i < |elems| ==> elems[i] == elems[1..][i - 1];
      Ok([head] + tail)
  }

  /** A `BTreeMap<String, T>` from an object: every value must decode. */
  function DecodeMap<T>(j: Json, dec: Json -> Decoded<T>, what: string): (r: Decoded<map<string, T>>)
    ensures r.Ok? <==> j.JObject? && forall k :: k in j.fields ==> dec(j.fields[k]).Ok?
    ensures r.Ok? ==> r.value.Keys == j.fields.Keys
    ensures r.Ok? ==> forall k :: k in j.fields ==> dec(j.fields[k]) == Ok(r.value[k])
  {
    if !j.JObject? then Err(InvalidType("a map"))
    else if forall k | k in j.fields :: dec(j.fields[k]).Ok? then
      Ok(map k | k in j.fields :: dec(j.fields[k]).value)
    else Err(InvalidMapEntry(what))
  }

  /** How serde writes a `BTreeMap<String, T>`: an object with the same keys. */
  function EncodeMap<T>(m: map<string, T>, enc: T -> Json): (r: Json)
    ensures r.JObject? && r.fields.Keys == m.Keys
  {
    JObject(map k | k in m :: enc(m[k]))
  }

  /** Writing a map and reading it back gives the same map, provided that holds for every value. */
  lemma MapRoundTrip<T>(m: map<string, T>, enc: T -> Json, dec: Json -> Decoded<T>, what: string)
    requires forall k :: k in m ==> dec(enc(m[k])) == Ok(m[k])
    ensures DecodeMap(EncodeMap(m, enc), dec, what) == Ok(m)
  {
    var r := DecodeMap(EncodeMap(m, enc), dec, what);
    assert r.Ok?;
    assert r.value == m;
  }
}

=== FILE: model.dfy ===
/** The Pocket data model: items as the "get" endpoint returns them, the records nested in
    them, the structural choice between a live item and a deleted one, the reading list, and
    the reduced item the "send" endpoint returns. Each record has the decoder serde derives for
    it and, where the source also derives `Serialize`, the encoder, proved to be its inverse. */
module Model {
  import opened Wrappers
  import opened Decimal
  import opened Json
  import opened Wire

  type ItemId = string

  datatype DomainMetadata = DomainMetadata(name: Option<string>, logo: string, greyscaleLogo: string)

  /** The item's main image; width and height travel as decimal strings. */
  datatype MainImage = MainImage(itemId: string, src: string, width: U32, height: U32)

  datatype Image = Image(
    itemId: string, imageId: string, src: string, width: U32, height: U32,
    credit: string, caption: string)

  /** A video; width, height, type and the optional length travel as decimal strings. */
  datatype Video = Video(
    itemId: string, videoId: string, src: string, width: U32, height: U32,
    videoType: U32, vid: string, length: Option<U32>)

  datatype Author = Author(itemId: string, authorId: string, name: string, url: string)

  datatype Tag = Tag(itemId: string, tag: string)

  /** A saved item. `Option` fields may be missing from a response; all others are required. */
  datatype Item = Item(
    itemId: ItemId,
    resolvedId: string,
    givenUrl: string,
    resolvedUrl: string,
    givenTitle: string,
    resolvedTitle: string,
    favorite: FavoriteStatus,
    status: Status,
    excerpt: string,
    isArticle: bool,
    hasImage: HasImage,
    hasVideo: HasVideo,
    wordCount: U64,
    timeAdded: U64,
    timeUpdated: U64,
    timeRead: U64,
    timeFavorited: U64,
    sortId: U32,
    isIndex: bool,
    lang: string,
    topImageUrl: Option<string>,
    domainMetadata: Option<DomainMetadata>,
    listenDurationEstimate: U64,
    timeToRead: Option<U64>,
    ampUrl: Option<string>,
    images: Option<map<string, Image>>,
    videos: Option<map<string, Video>>,
    authors: Option<map<string, Author>>,
    tags: Option<map<string, Tag>>,
    image: Option<MainImage>)

  /** An item the server has marked for deletion: only its id is kept. */
  datatype DeletedItem = DeletedItem(itemId: ItemId)

  /** serde's untagged `ItemOrDeletedItem`: no discriminant on the wire. */
  datatype ItemOrDeletedItem = Live(item: Item) | Deleted(deleted: DeletedItem) {
    function Id(): ItemId {
      match this
      case Live(i) => i.itemId
      case Deleted(d) => d.itemId
    }
  }

  /** `BTreeMap<ItemId, ItemOrDeletedItem>`: each id at most once. */
  type ReadingList = map<ItemId, ItemOrDeletedItem>

  /** The item the "send" endpoint returns after adding or re-adding; unlike `Item`, its
      `given_url` and `lang` may be absent or `null`. */
  datatype ModifiedItem = ModifiedItem(
    itemId: ItemId,
    resolvedId: string,
    givenUrl: Option<string>,
    resolvedUrl: string,
    excerpt: string,
    isArticle: bool,
    hasImage: HasImage,
    hasVideo: HasVideo,
    wordCount: U64,
    lang: Option<string>,
    domainMetadata: Option<DomainMetadata>)

  // ---- effective url and title ----

  /** `Item::url`: the resolved url when there is one, else the given url. */
  function EffectiveUrl(i: Item): (r: string)
    ensures i.resolvedUrl != "" ==> r == i.resolvedUrl
    ensures i.resolvedUrl == "" ==> r == i.givenUrl
    ensures r == "" <==> i.resolvedUrl == "" && i.givenUrl == ""
  {
    if i.resolvedUrl != "" then i.resolvedUrl else i.givenUrl
  }

  /** `Item::title`: the first non-empty of resolved title, given title and effective url. */
  function EffectiveTitle(i: Item): (r: string)
    ensures i.resolvedTitle != "" ==> r == i.resolvedTitle
    ensures i.resolvedTitle == "" && i.givenTitle != "" ==> r == i.givenTitle
    ensures i.resolvedTitle == "" && i.givenTitle == "" ==> r == EffectiveUrl(i)
    ensures r == "" <==> i.resolvedTitle == "" && i.givenTitle == "" && i.resolvedUrl == "" && i.givenUrl == ""
  {
    if i.resolvedTitle == "" then
      if i.givenTitle == "" then EffectiveUrl(i) else i.givenTitle
    else i.resolvedTitle
  }

  // ---- nested records ----

  function DecodeDomainMetadata(j: Json): (r: Decoded<DomainMetadata>)
    ensures r.Ok? ==> j.JObject? && "logo" in j.fields && "greyscale_logo" in j.fields
    ensures r.Ok? && "name" !in j.fields ==> r.value.name.None?
    ensures r.Ok? ==> OptField(j.fields, "name", DecodeString) == Ok(r.value.name)
    ensures r.Ok? ==> Field(j.fields, "logo", DecodeString) == Ok(r.value.logo)
    ensures r.Ok? ==> Field(j.fields, "greyscale_logo", DecodeString) == Ok(r.value.greyscaleLogo)
    ensures (j.JObject? &&
      OptField(j.fields, "name", DecodeString).Ok? &&
      Field(j.fields, "logo", DecodeString).Ok? &&
      Field(j.fields, "greyscale_logo", DecodeString).Ok?) ==> r.Ok?
  {
    if !j.JObject? then Err(InvalidType("struct DomainMetadata"))
    else
      var o := j.fields;
      var name :- OptField(o, "name", DecodeString);
      var logo :- Field(o, "logo", DecodeString);
      var greyscaleLogo :- Field(o, "greyscale_logo", DecodeString);
      Ok(DomainMetadata(name, logo, greyscaleLogo))
  }

  function EncodeDomainMetadata(d: DomainMetadata): (r: Json)
    ensures r.JObject?
    ensures DecodeDomainMetadata(r) == Ok(d)
  {
    var o := map[
      "name" := EncodeOpt(d.name, EncodeString),
      "logo" := JString(d.logo),
      "greyscale_logo" := JString(d.greyscaleLogo)];
    OptFieldRoundTrip(o, "name", d.name, EncodeString, DecodeString);
    JObject(o)
  }

  function DecodeMainImage(j: Json): (r: Decoded<MainImage>)
    ensures r.Ok? ==> j.JObject? && {"item_id", "src", "width", "height"} <= j.fields.Keys
    ensures r.Ok? ==> j.fields["width"].JString? && j.fields["height"].JString?
    ensures r.Ok? ==> Field(j.fields, "item_id", DecodeString) == Ok(r.value.itemId)
    ensures r.Ok? ==> Field(j.fields, "src", DecodeString) == Ok(r.value.src)
    ensures r.Ok? ==> Field(j.fields, "width", DecodeU32Str) == Ok(r.value.width)
    ensures r.Ok? ==> Field(j.fields, "height", DecodeU32Str) == Ok(r.value.height)
    ensures (j.JObject? &&
      Field(j.fields, "item_id", DecodeString).Ok? &&
      Field(j.fields, "src", DecodeString).Ok? &&
      Field(j.fields, "width", DecodeU32Str).Ok? &&
      Field(j.fields, "height", DecodeU32Str).Ok?) ==> r.Ok?
  {
    if !j.JObject? then Err(InvalidType("struct MainImage"))
    else
      var o := j.fields;
      var itemId :- Field(o, "item_id", DecodeString);
      var src :- Field(o, "src", DecodeString);
      var width :- Field(o, "width", DecodeU32Str);
      var height :- Field(o, "height", DecodeU32Str);
      Ok(MainImage(itemId, src, width, height))
  }

  function EncodeMainImage(m: MainImage): (r: Json)
    ensures r.JObject?
    ensures DecodeMainImage(r) == Ok(m)
  {
    JObject(map[
      "item_id" := JString(m.itemId),
      "src" := JString(m.src),
      "width" := EncodeU32Str(m.width),
      "height" := EncodeU32Str(m.height)])
  }

  function DecodeImage(j: Json): (r: Decoded<Image>)
    ensures r.Ok? ==>
      j.JObject? && {"item_id", "image_id", "src", "width", "height", "credit", "caption"} <= j.fields.Keys
    ensures r.Ok? ==> Field(j.fields, "item_id", DecodeString) == Ok(r.value.itemId)
    ensures r.Ok? ==> Field(j.fields, "image_id", DecodeString) == Ok(r.value.imageId)
    ensures r.Ok? ==> Field(j.fields, "src", DecodeString) == Ok(r.value.src)
    ensures r.Ok? ==> Field(j.fields, "width", DecodeU32Str) == Ok(r.value.width)
    ensures r.Ok? ==> Field(j.fields, "height", DecodeU32Str) == Ok(r.value.height)
    ensures r.Ok? ==> Field(j.fields, "credit", DecodeString) == Ok(r.value.credit)
    ensures r.Ok? ==> Field(j.fields, "caption", DecodeString) == Ok(r.value.caption)
    ensures (j.JObject? &&
      Field(j.fields, "item_id", DecodeString).Ok? &&
      Field(j.fields, "image_id", DecodeString).Ok? &&
      Field(j.fields, "src", DecodeString).Ok? &&
      Field(j.fields, "width", DecodeU32Str).Ok? &&
      Field(j.fields, "height", DecodeU32Str).Ok? &&
      Field(j.fields, "credit", DecodeString).Ok? &&
      Field(j.fields, "caption", DecodeString).Ok?) ==> r.Ok?
  {
    if !j.JObject? then Err(InvalidType("struct Image"))
    else
      var o := j.fields;
      var itemId :- Field(o, "item_id", DecodeString);
      var imageId :- Field(o, "image_id", DecodeString);
      var src :- Field(o, "src", DecodeString);
      var width :- Field(o, "width", DecodeU32Str);
      var height :- Field(o, "height", DecodeU32Str);
      var credit :- Field(o, "credit", DecodeString);
      var caption :- Field(o, "caption", DecodeString);
      Ok(Image(itemId, imageId, src, width, height, credit, caption))
  }

  function EncodeImage(m: Image): (r: Json)
    ensures r.JObject?
    ensures DecodeImage(r) == Ok(m)
  {
    JObject(map[
      "item_id" := JString(m.itemId),
      "image_id" := JString(m.imageId),
      "src" := JString(m.src),
      "width" := EncodeU32Str(m.width),
      "height" := EncodeU32Str(m.height),
      "credit" := JString(m.credit),
      "caption" := JString(m.caption)])
  }

  function DecodeVideo(j: Json): (r: Decoded<Video>)
    ensures r.Ok? ==>
      j.JObject? && {"item_id", "video_id", "src", "width", "height", "type", "vid"} <= j.fields.Keys
    ensures r.Ok? && "length" !in j.fields ==> r.value.length.None?
    ensures r.Ok? ==> Field(j.fields, "item_id", DecodeString) == Ok(r.value.itemId)
    ensures r.Ok? ==> Field(j.fields, "video_id", DecodeString) == Ok(r.value.videoId)
    ensures r.Ok? ==> Field(j.fields, "src", DecodeString) == Ok(r.value.src)
    ensures r.Ok? ==> Field(j.fields, "width", DecodeU32Str) == Ok(r.value.width)
    ensures r.Ok? ==> Field(j.fields, "height", DecodeU32Str) == Ok(r.value.height)
    ensures r.Ok? ==> Field(j.fields, "type", DecodeU32Str) == Ok(r.value.videoType)
    ensures r.Ok? ==> Field(j.fields, "vid", DecodeString) == Ok(r.value.vid)
    ensures r.Ok? ==> OptField(j.fields, "length", DecodeU32Str) == Ok(r.value.length)
    ensures (j.JObject? &&
      Field(j.fields, "item_id", DecodeString).Ok? &&
      Field(j.fields, "video_id", DecodeString).Ok? &&
      Field(j.fields, "src", DecodeString).Ok? &&
      Field(j.fields, "width", DecodeU32Str).Ok? &&
      Field(j.fields, "height", DecodeU32Str).Ok? &&
      Field(j.fields, "type", DecodeU32Str).Ok? &&
      Field(j.fields, "vid", DecodeString).Ok? &&
      OptField(j.fields, "length", DecodeU32Str).Ok?) ==> r.Ok?
  {
    if !j.JObject? then Err(InvalidType("struct Video"))
    else
      var o := j.fields;
      var itemId :- Field(o, "item_id", DecodeString);
      var videoId :- Field(o, "video_id", DecodeString);
      var src :- Field(o, "src", DecodeString);
      var width :- Field(o, "width", DecodeU32Str);
      var height :- Field(o, "height", DecodeU32Str);
      var videoType :- Field(o, "type", DecodeU32Str);
      var vid :- Field(o, "vid", DecodeString);
      var length :- OptField(o, "length", DecodeU32Str);
      Ok(Video(itemId, videoId, src, width, height, videoType, vid, length))
  }

  function EncodeVideo(v: Video): (r: Json)
    ensures r.JObject?
    ensures DecodeVideo(r) == Ok(v)
  {
    var o := map[
      "item_id" := JString(v.itemId),
      "video_id" := JString(v.videoId),
      "src" := JString(v.src),
      "width" := EncodeU32Str(v.width),
      "height" := EncodeU32Str(v.height),
      "type" := EncodeU32Str(v.videoType),
      "vid" := JString(v.vid),
      "length" := EncodeOpt(v.length, EncodeU32Str)];
    OptFieldRoundTrip(o, "length", v.length, EncodeU32Str, DecodeU32Str);
    JObject(o)
  }

  function DecodeAuthor(j: Json): (r: Decoded<Author>)
    ensures r.Ok? ==> j.JObject? && {"item_id", "author_id", "name", "url"} <= j.fields.Keys
    ensures r.Ok? ==> Field(j.fields, "item_id", DecodeString) == Ok(r.value.itemId)
    ensures r.Ok? ==> Field(j.fields, "author_id", DecodeString) == Ok(r.value.authorId)
    ensures r.Ok? ==> Field(j.fields, "name", DecodeString) == Ok(r.value.name)
    ensures r.Ok? ==> Field(j.fields, "url", DecodeString) == Ok(r.value.url)
    ensures (j.JObject? &&
      Field(j.fields, "item_id", DecodeString).Ok? &&
      Field(j.fields, "author_id", DecodeString).Ok? &&
      Field(j.fields, "name", DecodeString).Ok? &&
      Field(j.fields, "url", DecodeString).Ok?) ==> r.Ok?
  {
    if !j.JObject? then Err(InvalidType("struct Author"))
    else
      var o := j.fields;
      var itemId :- Field(o, "item_id", DecodeString);
      var authorId :- Field(o, "author_id", DecodeString);
      var name :- Field(o, "name", DecodeString);
      var url :- Field(o, "url", DecodeString);
      Ok(Author(itemId, authorId, name, url))
  }

  function EncodeAuthor(a: Author): (r: Json)
    ensures r.JObject?
    ensures DecodeAuthor(r) == Ok(a)
  {
    JObject(map[
      "item_id" := JString(a.itemId),
      "author_id" := JString(a.authorId),
      "name" := JString(a.name),
      "url" := JString(a.url)])
  }

  function DecodeTag(j: Json): (r: Decoded<Tag>)
    ensures r.Ok? ==> j.JObject? && {"item_id", "tag"} <= j.fields.Keys
    ensures r.Ok? ==> Field(j.fields, "item_id", DecodeString) == Ok(r.value.itemId)
    ensures r.Ok? ==> Field(j.fields, "tag", DecodeString) == Ok(r.value.tag)
    ensures (j.JObject? &&
      Field(j.fields, "item_id", DecodeString).Ok? &&
      Field(j.fields, "tag", DecodeString).Ok?) ==> r.Ok?
  {
    if !j.JObject? then Err(InvalidType("struct Tag"))
    else
      var o := j.fields;
      var itemId :- Field(o, "item_id", DecodeString);
      var tag :- Field(o, "tag", DecodeString);
      Ok(Tag(itemId, tag))
  }

  function EncodeTag(t: Tag): (r: Json)
    ensures r.JObject?
    ensures DecodeTag(r) == Ok(t)
  {
    JObject(map["item_id" := JString(t.itemId), "tag" := JString(t.tag)])
  }

  // ---- maps of nested records ----

  /** A `BTreeMap<String, Image>`: an object whose every value is a image, under the same keys. */
  function DecodeImages(j: Json): (r: Decoded<map<string, Image>>)
    ensures r.Ok? <==> j.JObject? && forall k :: k in j.fields ==> DecodeImage(j.fields[k]).Ok?
    ensures r.Ok? ==> r.value.Keys == j.fields.Keys
    ensures r.Ok? ==> forall k :: k in r.value ==> DecodeImage(j.fields[k]) == Ok(r.value[k])
  {
    DecodeMap(j, DecodeImage, "Image")
  }

  function EncodeImages(m: map<string, Image>): (r: Json)
    ensures r.JObject? && DecodeImages(r) == Ok(m)
  {
    MapRoundTrip(m, EncodeImage, DecodeImage, "Image");
    EncodeMap(m, EncodeImage)
  }

  /** A `BTreeMap<String, Video>`: an object whose every value is a video, under the same keys. */
  function DecodeVideos(j: Json): (r: Decoded<map<string, Video>>)
    ensures r.Ok? <==> j.JObject? && forall k :: k in j.fields ==> DecodeVideo(j.fields[k]).Ok?
    ensures r.Ok? ==> r.value.Keys == j.fields.Keys
    ensures r.Ok? ==> forall k :: k in r.value ==> DecodeVideo(j.fields[k]) == Ok(r.value[k])
  {
    DecodeMap(j, DecodeVideo, "Video")
  }

  function EncodeVideos(m: map<string, Video>): (r: Json)
    ensures r.JObject? && DecodeVideos(r) == Ok(m)
  {
    MapRoundTrip(m, EncodeVideo, DecodeVideo, "Video");
    EncodeMap(m, EncodeVideo)
  }

  /** A `BTreeMap<String, Author>`: an object whose every value is a author, under the same keys. */
  function DecodeAuthors(j: Json): (r: Decoded<map<string, Author>>)
    ensures r.Ok? <==> j.JObject? && forall k :: k in j.fields ==> DecodeAuthor(j.fields[k]).Ok?
    ensures r.Ok? ==> r.value.Keys == j.fields.Keys
    ensures r.Ok? ==> forall k :: k in r.value ==> DecodeAuthor(j.fields[k]) == Ok(r.value[k])
  {
    DecodeMap(j, DecodeAuthor, "Author")
  }

  function EncodeAuthors(m: map<string, Author>): (r: Json)
    ensures r.JObject? && DecodeAuthors(r) == Ok(m)
  {
    MapRoundTrip(m, EncodeAuthor, DecodeAuthor, "Author");
    EncodeMap(m, EncodeAuthor)
  }

  /** A `BTreeMap<String, Tag>`: an object whose every value is a tag, under the same keys. */
  function DecodeTags(j: Json): (r: Decoded<map<string, Tag>>)
    ensures r.Ok? <==> j.JObject? && forall k :: k in j.fields ==> DecodeTag(j.fields[k]).Ok?
    ensures r.Ok? ==> r.value.Keys == j.fields.Keys
    ensures r.Ok? ==> forall k :: k in r.value ==> DecodeTag(j.fields[k]) == Ok(r.value[k])
  {
    DecodeMap(j, DecodeTag, "Tag")
  }

  function EncodeTags(m: map<string, Tag>): (r: Json)
    ensures r.JObject? && DecodeTags(r) == Ok(m)
  {
    MapRoundTrip(m, EncodeTag, DecodeTag, "Tag");
    EncodeMap(m, EncodeTag)
  }

  // ---- Item ----

  /** The keys an object must carry to decode as an `Item`. */
  const ItemRequiredFields: set<string> := {
    "item_id", "resolved_id", "given_url", "resolved_url", "given_title", "resolved_title",
    "favorite", "status", "excerpt", "is_article", "has_image", "has_video", "word_count",
    "time_added", "time_updated", "time_read", "time_favorited", "sort_id", "is_index", "lang",
    "listen_duration_estimate"}

  /** Part of an `Item`: the identity, titles and status of an item. */
  datatype ItemHead = ItemHead(
    itemId: string,
    resolvedId: string,
    givenUrl: string,
    resolvedUrl: string,
    givenTitle: string,
    resolvedTitle: string,
    favorite: FavoriteStatus,
    status: Status,
    excerpt: string,
    isArticle: bool)

  /** Part of an `Item`: the flags, counters and timestamps of an item. */
  datatype ItemCounters = ItemCounters(
    hasImage: HasImage,
    hasVideo: HasVideo,
    wordCount: U64,
    timeAdded: U64,
    timeUpdated: U64,
    timeRead: U64,
    timeFavorited: U64,
    sortId: U32,
    isIndex: bool,
    lang: string)

  /** Part of an `Item`: the fields of an item the server sends only sometimes or only in complete detail. */
  datatype ItemExtras = ItemExtras(
    topImageUrl: Option<string>,
    domainMetadata: Option<DomainMetadata>,
    listenDurationEstimate: U64,
    timeToRead: Option<U64>,
    ampUrl: Option<string>,
    images: Option<map<string, Image>>,
    videos: Option<map<string, Video>>,
    authors: Option<map<string, Author>>,
    tags: Option<map<string, Tag>>,
    image: Option<MainImage>)

  /** Every field of an `ItemHead` reads from its key. */
  predicate ItemHeadDecodes(o: map<string, Json>) {
    && Field(o, "item_id", DecodeString).Ok?
    && Field(o, "resolved_id", DecodeString).Ok?
    && Field(o, "given_url", DecodeString).Ok?
    && Field(o, "resolved_url", DecodeString).Ok?
    && Field(o, "given_title", DecodeString).Ok?
    && Field(o, "resolved_title", DecodeString).Ok?
    && Field(o, "favorite", DecodeFavoriteStatus).Ok?
    && Field(o, "status", DecodeStatus).Ok?
    && Field(o, "excerpt", DecodeString).Ok?
    && Field(o, "is_article", DecodeBool).Ok?
  }

  /** Every field of an `ItemCounters` reads from its key. */
  predicate ItemCountersDecode(o: map<string, Json>) {
    && Field(o, "has_image", DecodeHasImage).Ok?
    && Field(o, "has_video", DecodeHasVideo).Ok?
    && Field(o, "word_count", DecodeU64Str).Ok?
    && Field(o, "time_added", DecodeU64Str).Ok?
    && Field(o, "time_updated", DecodeU64Str).Ok?
    && Field(o, "time_read", DecodeU64Str).Ok?
    && Field(o, "time_favorited", DecodeU64Str).Ok?
    && Field(o, "sort_id", DecodeU32).Ok?
    && Field(o, "is_index", DecodeBool).Ok?
    && Field(o, "lang", DecodeString).Ok?
  }

  /** Every field of an `ItemExtras` reads from its key (an absent optional key reads as `None`). */
  predicate ItemExtrasDecode(o: map<string, Json>) {
    && OptField(o, "top_image_url", DecodeString).Ok?
    && OptField(o, "domain_metadata", DecodeDomainMetadata).Ok?
    && Field(o, "listen_duration_estimate", DecodeU64).Ok?
    && OptField(o, "time_to_read", DecodeU64).Ok?
    && OptField(o, "amp_url", DecodeString).Ok?
    && OptField(o, "images", DecodeImages).Ok?
    && OptField(o, "videos", DecodeVideos).Ok?
    && OptField(o, "authors", DecodeAuthors).Ok?
    && OptField(o, "tags", DecodeTags).Ok?
    && OptField(o, "image", DecodeMainImage).Ok?
  }

  /** Reads the identity, titles and status of an item, field by field in declaration order; the first failure is the error. */
  function DecodeItemHead(o: map<string, Json>): (r: Decoded<ItemHead>)
    ensures r.Ok? <==> ItemHeadDecodes(o)
    ensures r.Ok? ==> Field(o, "item_id", DecodeString) == Ok(r.value.itemId)
    ensures r.Ok? ==> Field(o, "resolved_id", DecodeString) == Ok(r.value.resolvedId)
    ensures r.Ok? ==> Field(o, "given_url", DecodeString) == Ok(r.value.givenUrl)
    ensures r.Ok? ==> Field(o, "resolved_url", DecodeString) == Ok(r.value.resolvedUrl)
    ensures r.Ok? ==> Field(o, "given_title", DecodeString) == Ok(r.value.givenTitle)
    ensures r.Ok? ==> Field(o, "resolved_title", DecodeString) == Ok(r.value.resolvedTitle)
    ensures r.Ok? ==> Field(o, "favorite", DecodeFavoriteStatus) == Ok(r.value.favorite)
    ensures r.Ok? ==> Field(o, "status", DecodeStatus) == Ok(r.value.status)
    ensures r.Ok? ==> Field(o, "excerpt", DecodeString) == Ok(r.value.excerpt)
    ensures r.Ok? ==> Field(o, "is_article", DecodeBool) == Ok(r.value.isArticle)
  {
    var itemId :- Field(o, "item_id", DecodeString);
    var resolvedId :- Field(o, "resolved_id", DecodeString);
    var givenUrl :- Field(o, "given_url", DecodeString);
    var resolvedUrl :- Field(o, "resolved_url", DecodeString);
    var givenTitle :- Field(o, "given_title", DecodeString);
    var resolvedTitle :- Field(o, "resolved_title", DecodeString);
    var favorite :- Field(o, "favorite", DecodeFavoriteStatus);
    var status :- Field(o, "status", DecodeStatus);
    var excerpt :- Field(o, "excerpt", DecodeString);
    var isArticle :- Field(o, "is_article", DecodeBool);
    Ok(ItemHead(itemId, resolvedId, givenUrl, resolvedUrl, givenTitle, resolvedTitle, favorite, status, excerpt, isArticle))
  }

  /** Reads the flags, counters and timestamps of an item, field by field in declaration order; the first failure is the error. */
  function DecodeItemCounters(o: map<string, Json>): (r: Decoded<ItemCounters>)
    ensures r.Ok? <==> ItemCountersDecode(o)
    ensures r.Ok? ==> Field(o, "has_image", DecodeHasImage) == Ok(r.value.hasImage)
    ensures r.Ok? ==> Field(o, "has_video", DecodeHasVideo) == Ok(r.value.hasVideo)
    ensures r.Ok? ==> Field(o, "word_count", DecodeU64Str) == Ok(r.value.wordCount)
    ensures r.Ok? ==> Field(o, "time_added", DecodeU64Str) == Ok(r.value.timeAdded)
    ensures r.Ok? ==> Field(o, "time_updated", DecodeU64Str) == Ok(r.value.timeUpdated)
    ensures r.Ok? ==> Field(o, "time_read", DecodeU64Str) == Ok(r.value.timeRead)
    ensures r.Ok? ==> Field(o, "time_favorited", DecodeU64Str) == Ok(r.value.timeFavorited)
    ensures r.Ok? ==> Field(o, "sort_id", DecodeU32) == Ok(r.value.sortId)
    ensures r.Ok? ==> Field(o, "is_index", DecodeBool) == Ok(r.value.isIndex)
    ensures r.Ok? ==> Field(o, "lang", DecodeString) == Ok(r.value.lang)
  {
    var hasImage :- Field(o, "has_image", DecodeHasImage);
    var hasVideo :- Field(o, "has_video", DecodeHasVideo);
    var wordCount :- Field(o, "word_count", DecodeU64Str);
    var timeAdded :- Field(o, "time_added", DecodeU64Str);
    var timeUpdated :- Field(o, "time_updated", DecodeU64Str);
    var timeRead :- Field(o, "time_read", DecodeU64Str);
    var timeFavorited :- Field(o, "time_favorited", DecodeU64Str);
    var sortId :- Field(o, "sort_id", DecodeU32);
    var isIndex :- Field(o, "is_index", DecodeBool);
    var lang :- Field(o, "lang", DecodeString);
    Ok(ItemCounters(hasImage, hasVideo, wordCount, timeAdded, timeUpdated, timeRead, timeFavorited, sortId, isIndex, lang))
  }

  /** Reads the fields of an item the server sends only sometimes or only in complete detail, field by field in declaration order; the first failure is the error. */
  function DecodeItemExtras(o: map<string, Json>): (r: Decoded<ItemExtras>)
    ensures r.Ok? <==> ItemExtrasDecode(o)
    ensures r.Ok? ==> OptField(o, "top_image_url", DecodeString) == Ok(r.value.topImageUrl)
    ensures r.Ok? ==> OptField(o, "domain_metadata", DecodeDomainMetadata) == Ok(r.value.domainMetadata)
    ensures r.Ok? ==> Field(o, "listen_duration_estimate", DecodeU64) == Ok(r.value.listenDurationEstimate)
    ensures r.Ok? ==> OptField(o, "time_to_read", DecodeU64) == Ok(r.value.timeToRead)
    ensures r.Ok? ==> OptField(o, "amp_url", DecodeString) == Ok(r.value.ampUrl)
    ensures r.Ok? ==> OptField(o, "images", DecodeImages) == Ok(r.value.images)
    ensures r.Ok? ==> OptField(o, "videos", DecodeVideos) == Ok(r.value.videos)
    ensures r.Ok? ==> OptField(o, "authors", DecodeAuthors) == Ok(r.value.authors)
    ensures r.Ok? ==> OptField(o, "tags", DecodeTags) == Ok(r.value.tags)
    ensures r.Ok? ==> OptField(o, "image", DecodeMainImage) == Ok(r.value.image)
  {
    var topImageUrl :- OptField(o, "top_image_url", DecodeString);
    var domainMetadata :- OptField(o, "domain_metadata", DecodeDomainMetadata);
    var listenDurationEstimate :- Field(o, "listen_duration_estimate", DecodeU64);
    var timeToRead :- OptField(o, "time_to_read", DecodeU64);
    var ampUrl :- OptField(o, "amp_url", DecodeString);
    var images :- OptField(o, "images", DecodeImages);
    var videos :- OptField(o, "videos", DecodeVideos);
    var authors :- OptField(o, "authors", DecodeAuthors);
    var tags :- OptField(o, "tags", DecodeTags);
    var image :- OptField(o, "image", DecodeMainImage);
    Ok(ItemExtras(topImageUrl, domainMetadata, listenDurationEstimate, timeToRead, ampUrl, images, videos, authors, tags, image))
  }

  /** serde's derived decoder for `Item`. Booleans, counters and timestamps must arrive in
      their string encodings; `sort_id` and `listen_duration_estimate` are native numbers;
      an absent optional field is `None`; unknown keys are ignored. */
  function DecodeItem(j: Json): (r: Decoded<Item>)
    ensures r.Ok? <==> j.JObject? && ItemHeadDecodes(j.fields) && ItemCountersDecode(j.fields) && ItemExtrasDecode(j.fields)
    ensures r.Ok? ==> Field(j.fields, "item_id", DecodeString) == Ok(r.value.itemId)
    ensures r.Ok? ==> Field(j.fields, "resolved_id", DecodeString) == Ok(r.value.resolvedId)
    ensures r.Ok? ==> Field(j.fields, "given_url", DecodeString) == Ok(r.value.givenUrl)
    ensures r.Ok? ==> Field(j.fields, "resolved_url", DecodeString) == Ok(r.value.resolvedUrl)
    ensures r.Ok? ==> Field(j.fields, "given_title", DecodeString) == Ok(r.value.givenTitle)
    ensures r.Ok? ==> Field(j.fields, "resolved_title", DecodeString) == Ok(r.value.resolvedTitle)
    ensures r.Ok? ==> Field(j.fields, "favorite", DecodeFavoriteStatus) == Ok(r.value.favorite)
    ensures r.Ok? ==> Field(j.fields, "status", DecodeStatus) == Ok(r.value.status)
    ensures r.Ok? ==> Field(j.fields, "excerpt", DecodeString) == Ok(r.value.excerpt)
    ensures r.Ok? ==> Field(j.fields, "is_article", DecodeBool) == Ok(r.value.isArticle)
    ensures r.Ok? ==> Field(j.fields, "has_image", DecodeHasImage) == Ok(r.value.hasImage)
    ensures r.Ok? ==> Field(j.fields, "has_video", DecodeHasVideo) == Ok(r.value.hasVideo)
    ensures r.Ok? ==> Field(j.fields, "word_count", DecodeU64Str) == Ok(r.value.wordCount)
    ensures r.Ok? ==> Field(j.fields, "time_added", DecodeU64Str) == Ok(r.value.timeAdded)
    ensures r.Ok? ==> Field(j.fields, "time_updated", DecodeU64Str) == Ok(r.value.timeUpdated)
    ensures r.Ok? ==> Field(j.fields, "time_read", DecodeU64Str) == Ok(r.value.timeRead)
    ensures r.Ok? ==> Field(j.fields, "time_favorited", DecodeU64Str) == Ok(r.value.timeFavorited)
    ensures r.Ok? ==> Field(j.fields, "sort_id", DecodeU32) == Ok(r.value.sortId)
    ensures r.Ok? ==> Field(j.fields, "is_index", DecodeBool) == Ok(r.value.isIndex)
    ensures r.Ok? ==> Field(j.fields, "lang", DecodeString) == Ok(r.value.lang)
    ensures r.Ok? ==> OptField(j.fields, "top_image_url", DecodeString) == Ok(r.value.topImageUrl)
    ensures r.Ok? ==> OptField(j.fields, "domain_metadata", DecodeDomainMetadata) == Ok(r.value.domainMetadata)
    ensures r.Ok? ==> Field(j.fields, "listen_duration_estimate", DecodeU64) == Ok(r.value.listenDurationEstimate)
    ensures r.Ok? ==> OptField(j.fields, "time_to_read", DecodeU64) == Ok(r.value.timeToRead)
    ensures r.Ok? ==> OptField(j.fields, "amp_url", DecodeString) == Ok(r.value.ampUrl)
    ensures r.Ok? ==> OptField(j.fields, "images", DecodeImages) == Ok(r.value.images)
    ensures r.Ok? ==> OptField(j.fields, "videos", DecodeVideos) == Ok(r.value.videos)
    ensures r.Ok? ==> OptField(j.fields, "authors", DecodeAuthors) == Ok(r.value.authors)
    ensures r.Ok? ==> OptField(j.fields, "tags", DecodeTags) == Ok(r.value.tags)
    ensures r.Ok? ==> OptField(j.fields, "image", DecodeMainImage) == Ok(r.value.image)
  {
    if !j.JObject? then Err(InvalidType("struct Item"))
    else
      var h :- DecodeItemHead(j.fields);
      var c :- DecodeItemCounters(j.fields);
      var e :- DecodeItemExtras(j.fields);
      Ok(Item(
        h.itemId, h.resolvedId, h.givenUrl, h.resolvedUrl, h.givenTitle, h.resolvedTitle,
        h.favorite, h.status, h.excerpt, h.isArticle,
        c.hasImage, c.hasVideo, c.wordCount, c.timeAdded, c.timeUpdated, c.timeRead,
        c.timeFavorited, c.sortId, c.isIndex, c.lang,
        e.topImageUrl, e.domainMetadata, e.listenDurationEstimate, e.timeToRead, e.ampUrl,
        e.images, e.videos, e.authors, e.tags, e.image))
  }

  /** What a decoded item says about the object it came from: every required key is present,
      strings are copied, booleans and counters arrive as strings, and `sort_id` is a number. */
  lemma DecodedItemShape(j: Json)
    requires DecodeItem(j).Ok?
    ensures j.JObject? && ItemRequiredFields <= j.fields.Keys
    ensures var i := DecodeItem(j).value;
      && j.fields["item_id"] == JString(i.itemId)
      && j.fields["is_article"] == EncodeBool(i.isArticle)
      && j.fields["word_count"].JString?
      && ParseUnsigned(j.fields["word_count"].s, U64_LIMIT) == Some(i.wordCount as nat)
    ensures j.fields["sort_id"] == JNumber(DecodeItem(j).value.sortId)
  {
  }

  /** The rest of the wire forms a decoded item came in: `is_index` as "0"/"1", the four
      timestamps as decimal strings, and the listening estimate as a native number. */
  lemma DecodedItemTimes(j: Json)
    requires DecodeItem(j).Ok?
    ensures var i := DecodeItem(j).value;
      && j.fields["is_index"] == EncodeBool(i.isIndex)
      && j.fields["time_added"].JString?
      && ParseUnsigned(j.fields["time_added"].s, U64_LIMIT) == Some(i.timeAdded as nat)
      && j.fields["time_updated"].JString?
      && ParseUnsigned(j.fields["time_updated"].s, U64_LIMIT) == Some(i.timeUpdated as nat)
      && j.fields["time_read"].JString?
      && ParseUnsigned(j.fields["time_read"].s, U64_LIMIT) == Some(i.timeRead as nat)
      && j.fields["time_favorited"].JString?
      && ParseUnsigned(j.fields["time_favorited"].s, U64_LIMIT) == Some(i.timeFavorited as nat)
      && j.fields["listen_duration_estimate"] == JNumber(i.listenDurationEstimate)
  {
  }

  /** An optional field the object leaves out reads as `None`. */
  lemma DecodedItemAbsentFields(j: Json)
    requires DecodeItem(j).Ok?
    ensures var i := DecodeItem(j).value;
      && ("top_image_url" !in j.fields ==> i.topImageUrl.None?)
      && ("domain_metadata" !in j.fields ==> i.domainMetadata.None?)
      && ("time_to_read" !in j.fields ==> i.timeToRead.None?)
      && ("amp_url" !in j.fields ==> i.ampUrl.None?)
      && ("images" !in j.fields ==> i.images.None?)
      && ("videos" !in j.fields ==> i.videos.None?)
      && ("authors" !in j.fields ==> i.authors.None?)
      && ("tags" !in j.fields ==> i.tags.None?)
      && ("image" !in j.fields ==> i.image.None?)
  {
  }

  /** An object whose required keys all read and that carries none of the optional keys is
      an item whose nine optional fields are `None`; the untagged decoder takes it as a live
      item. */
  lemma ItemWithoutOptionalFields(j: Json)
    requires j.JObject? && ItemHeadDecodes(j.fields) && ItemCountersDecode(j.fields)
    requires Field(j.fields, "listen_duration_estimate", DecodeU64).Ok?
    requires ItemOptionalFields !! j.fields.Keys
    ensures DecodeItem(j).Ok?
    ensures var i := DecodeItem(j).value;
      && i.topImageUrl == None && i.domainMetadata == None && i.timeToRead == None
      && i.ampUrl == None && i.images == None && i.videos == None && i.authors == None
      && i.tags == None && i.image == None
    ensures DecodeItemOrDeletedItem(j) == Ok(Live(DecodeItem(j).value))
  {
    assert "top_image_url" in ItemOptionalFields && "domain_metadata" in ItemOptionalFields;
    assert "time_to_read" in ItemOptionalFields && "amp_url" in ItemOptionalFields;
    assert "images" in ItemOptionalFields && "videos" in ItemOptionalFields;
    assert "authors" in ItemOptionalFields && "tags" in ItemOptionalFields;
    assert "image" in ItemOptionalFields;
  }

  /** Every key serde writes for an `Item`: the required ones and the optional ones. */
  const ItemFields: set<string> := {
    "item_id", "resolved_id", "given_url", "resolved_url", "given_title", "resolved_title",
    "favorite", "status", "excerpt", "is_article", "has_image", "has_video", "word_count",
    "time_added", "time_updated", "time_read", "time_favorited", "sort_id", "is_index", "lang",
    "top_image_url", "domain_metadata", "listen_duration_estimate", "time_to_read", "amp_url",
    "images", "videos", "authors", "tags", "image"}

  /** The JSON value serde writes under key `k` of an item. */
  function ItemFieldValue(i: Item, k: string): Json {
    if k == "item_id" then JString(i.itemId)
    else if k == "resolved_id" then JString(i.resolvedId)
    else if k == "given_url" then JString(i.givenUrl)
    else if k == "resolved_url" then JString(i.resolvedUrl)
    else if k == "given_title" then JString(i.givenTitle)
    else if k == "resolved_title" then JString(i.resolvedTitle)
    else if k == "favorite" then EncodeFavoriteStatus(i.favorite)
    else if k == "status" then EncodeStatus(i.status)
    else if k == "excerpt" then JString(i.excerpt)
    else if k == "is_article" then EncodeBool(i.isArticle)
    else if k == "has_image" then EncodeHasImage(i.hasImage)
    else if k == "has_video" then EncodeHasVideo(i.hasVideo)
    else if k == "word_count" then EncodeU64Str(i.wordCount)
    else if k == "time_added" then EncodeU64Str(i.timeAdded)
    else if k == "time_updated" then EncodeU64Str(i.timeUpdated)
    else if k == "time_read" then EncodeU64Str(i.timeRead)
    else if k == "time_favorited" then EncodeU64Str(i.timeFavorited)
    else if k == "sort_id" then JNumber(i.sortId)
    else if k == "is_index" then EncodeBool(i.isIndex)
    else if k == "lang" then JString(i.lang)
    else if k == "top_image_url" then EncodeOpt(i.topImageUrl, EncodeString)
    else if k == "domain_metadata" then EncodeOpt(i.domainMetadata, EncodeDomainMetadata)
    else if k == "listen_duration_estimate" then JNumber(i.listenDurationEstimate)
    else if k == "time_to_read" then EncodeOpt(i.timeToRead, EncodeU64)
    else if k == "amp_url" then EncodeOpt(i.ampUrl, EncodeString)
    else if k == "images" then EncodeOpt(i.images, EncodeImages)
    else if k == "videos" then EncodeOpt(i.videos, EncodeVideos)
    else if k == "authors" then EncodeOpt(i.authors, EncodeAuthors)
    else if k == "tags" then EncodeOpt(i.tags, EncodeTags)
    else EncodeOpt(i.image, EncodeMainImage)
  }

  /** serde's derived encoder for `Item`: one key per field, `None` written as `null`. */
  function EncodeItem(i: Item): (r: Json)
    ensures r.JObject?
  {
    JObject(map k | k in ItemFields :: ItemFieldValue(i, k))
  }

  const ItemOptionalFields: set<string> := {
    "top_image_url", "domain_metadata", "time_to_read", "amp_url", "images", "videos",
    "authors", "tags", "image"}

  lemma ItemTextFieldsRead(i: Item)
    ensures Field(EncodeItem(i).fields, "item_id", DecodeString) == Ok(i.itemId)
    ensures Field(EncodeItem(i).fields, "resolved_id", DecodeString) == Ok(i.resolvedId)
    ensures Field(EncodeItem(i).fields, "given_url", DecodeString) == Ok(i.givenUrl)
    ensures Field(EncodeItem(i).fields, "resolved_url", DecodeString) == Ok(i.resolvedUrl)
    ensures Field(EncodeItem(i).fields, "given_title", DecodeString) == Ok(i.givenTitle)
    ensures Field(EncodeItem(i).fields, "resolved_title", DecodeString) == Ok(i.resolvedTitle)
  {
  }

  lemma ItemStatusFieldsRead(i: Item)
    ensures Field(EncodeItem(i).fields, "favorite", DecodeFavoriteStatus) == Ok(i.favorite)
    ensures Field(EncodeItem(i).fields, "status", DecodeStatus) == Ok(i.status)
    ensures Field(EncodeItem(i).fields, "excerpt", DecodeString) == Ok(i.excerpt)
    ensures Field(EncodeItem(i).fields, "is_article", DecodeBool) == Ok(i.isArticle)
    ensures Field(EncodeItem(i).fields, "has_image", DecodeHasImage) == Ok(i.hasImage)
    ensures Field(EncodeItem(i).fields, "has_video", DecodeHasVideo) == Ok(i.hasVideo)
  {
  }

  lemma ItemCounterFieldsRead(i: Item)
    ensures Field(EncodeItem(i).fields, "word_count", DecodeU64Str) == Ok(i.wordCount)
    ensures Field(EncodeItem(i).fields, "time_added", DecodeU64Str) == Ok(i.timeAdded)
    ensures Field(EncodeItem(i).fields, "time_updated", DecodeU64Str) == Ok(i.timeUpdated)
  {
  }

  lemma ItemTimeFieldsRead(i: Item)
    ensures Field(EncodeItem(i).fields, "time_read", DecodeU64Str) == Ok(i.timeRead)
    ensures Field(EncodeItem(i).fields, "time_favorited", DecodeU64Str) == Ok(i.timeFavorited)
    ensures Field(EncodeItem(i).fields, "sort_id", DecodeU32) == Ok(i.sortId)
  {
  }

  lemma ItemRestFieldsRead(i: Item)
    ensures Field(EncodeItem(i).fields, "is_index", DecodeBool) == Ok(i.isIndex)
    ensures Field(EncodeItem(i).fields, "lang", DecodeString) == Ok(i.lang)
    ensures Field(EncodeItem(i).fields, "listen_duration_estimate", DecodeU64) == Ok(i.listenDurationEstimate)
  {
  }

  lemma ItemOptionalFieldsRead(i: Item)
    ensures OptField(EncodeItem(i).fields, "top_image_url", DecodeString) == Ok(i.topImageUrl)
    ensures OptField(EncodeItem(i).fields, "domain_metadata", DecodeDomainMetadata) == Ok(i.domainMetadata)
    ensures OptField(EncodeItem(i).fields, "time_to_read", DecodeU64) == Ok(i.timeToRead)
    ensures OptField(EncodeItem(i).fields, "amp_url", DecodeString) == Ok(i.ampUrl)
    ensures OptField(EncodeItem(i).fields, "images", DecodeImages) == Ok(i.images)
  {
    var o := EncodeItem(i).fields;
    OptFieldRoundTrip(o, "top_image_url", i.topImageUrl, EncodeString, DecodeString);
    OptFieldRoundTrip(o, "domain_metadata", i.domainMetadata, EncodeDomainMetadata, DecodeDomainMetadata);
    OptFieldRoundTrip(o, "time_to_read", i.timeToRead, EncodeU64, DecodeU64);
    OptFieldRoundTrip(o, "amp_url", i.ampUrl, EncodeString, DecodeString);
    OptFieldRoundTrip(o, "images", i.images, EncodeImages, DecodeImages);
  }

  lemma ItemCollectionFieldsRead(i: Item)
    ensures OptField(EncodeItem(i).fields, "videos", DecodeVideos) == Ok(i.videos)
    ensures OptField(EncodeItem(i).fields, "authors", DecodeAuthors) == Ok(i.authors)
    ensures OptField(EncodeItem(i).fields, "tags", DecodeTags) == Ok(i.tags)
    ensures OptField(EncodeItem(i).fields, "image", DecodeMainImage) == Ok(i.image)
  {
    var o := EncodeItem(i).fields;
    OptFieldRoundTrip(o, "videos", i.videos, EncodeVideos, DecodeVideos);
    OptFieldRoundTrip(o, "authors", i.authors, EncodeAuthors, DecodeAuthors);
    OptFieldRoundTrip(o, "tags", i.tags, EncodeTags, DecodeTags);
    OptFieldRoundTrip(o, "image", i.image, EncodeMainImage, DecodeMainImage);
  }

  /** Writing an item and reading it back gives the same item, booleans included. */
  lemma ItemRoundTrip(i: Item)
    ensures DecodeItem(EncodeItem(i)) == Ok(i)
  {
    ItemTextFieldsRead(i);
    ItemStatusFieldsRead(i);
    ItemCounterFieldsRead(i);
    ItemTimeFieldsRead(i);
    ItemRestFieldsRead(i);
    ItemOptionalFieldsRead(i);
    ItemCollectionFieldsRead(i);
  }

  // ---- deleted items and the untagged choice ----

  /** serde's derived decoder for `DeletedItem`: only `item_id` is read, other keys ignored. */
  function DecodeDeletedItem(j: Json): (r: Decoded<DeletedItem>)
    ensures r.Ok? <==> j.JObject? && "item_id" in j.fields && j.fields["item_id"].JString?
    ensures r.Ok? ==> j.fields["item_id"] == JString(r.value.itemId)
  {
    if !j.JObject? then Err(InvalidType("struct DeletedItem"))
    else
      var itemId :- Field(j.fields, "item_id", DecodeString);
      Ok(DeletedItem(itemId))
  }

  function EncodeDeletedItem(d: DeletedItem): (r: Json)
    ensures r.JObject? && r.fields.Keys == {"item_id"}
    ensures DecodeDeletedItem(r) == Ok(d)
  {
    JObject(map["item_id" := JString(d.itemId)])
  }

  /** serde's untagged decoder for `ItemOrDeletedItem`: the value becomes an `Item` when it has
      the full item shape, otherwise a `DeletedItem` when it has a string `item_id`, and
      otherwise no variant matches. */
  function DecodeItemOrDeletedItem(j: Json): (r: Decoded<ItemOrDeletedItem>)
    ensures r.Ok? <==> j.JObject? && "item_id" in j.fields && j.fields["item_id"].JString?
    ensures r.Ok? ==> j.fields["item_id"] == JString(r.value.Id())
    ensures DecodeItem(j).Ok? ==> r == Ok(Live(DecodeItem(j).value))
    ensures r.Ok? && r.value.Deleted? ==> DecodeItem(j).Err?
  {
    match DecodeItem(j)
    case Ok(i) => Ok(Live(i))
    case Err(_) =>
      (match DecodeDeletedItem(j)
       case Ok(d) => Ok(Deleted(d))
       case Err(_) => Err(NoMatchingVariant("ItemOrDeletedItem")))
  }

  /** serde's untagged encoder: the variant's own encoding, with no tag. */
  function EncodeItemOrDeletedItem(x: ItemOrDeletedItem): (r: Json)
    ensures r.JObject?
  {
    match x
    case Live(i) => EncodeItem(i)
    case Deleted(d) => EncodeDeletedItem(d)
  }

  /** Writing either variant and reading it back gives the same variant: a deleted item's
      encoding lacks the keys an `Item` needs, so it cannot be mistaken for a live one. */
  lemma ItemOrDeletedItemRoundTrip(x: ItemOrDeletedItem)
    ensures DecodeItemOrDeletedItem(EncodeItemOrDeletedItem(x)) == Ok(x)
  {
    match x
    case Live(i) =>
      ItemRoundTrip(i);
    case Deleted(d) =>
      var j := EncodeDeletedItem(d);
      assert "resolved_id" !in j.fields;
      assert DecodeItem(j).Err?;
  }

  /** What the server sends for an item marked for deletion (its status and listening estimate
      besides the id) decodes as that deleted item. */
  lemma DeletedItemShape(id: ItemId, listen: int)
    ensures DecodeItemOrDeletedItem(JObject(map[
      "item_id" := JString(id), "status" := JString("2"),
      "listen_duration_estimate" := JNumber(listen)])) == Ok(Deleted(DeletedItem(id)))
  {
    var j := JObject(map[
      "item_id" := JString(id), "status" := JString("2"),
      "listen_duration_estimate" := JNumber(listen)]);
    assert "resolved_id" !in j.fields;
  }

  // ---- reading list ----

  /** `ReadingList`: an object from item id to an item or a deleted item. */
  function DecodeReadingList(j: Json): (r: Decoded<ReadingList>)
    ensures r.Ok? <==> j.JObject? && forall k :: k in j.fields ==> DecodeItemOrDeletedItem(j.fields[k]).Ok?
    ensures r.Ok? ==> r.value.Keys == j.fields.Keys
    ensures r.Ok? ==> forall k :: k in j.fields ==> DecodeItemOrDeletedItem(j.fields[k]) == Ok(r.value[k])
  {
    DecodeMap(j, DecodeItemOrDeletedItem, "ItemOrDeletedItem")
  }

  function EncodeReadingList(l: ReadingList): (r: Json)
    ensures r.JObject? && r.fields.Keys == l.Keys
  {
    EncodeMap(l, EncodeItemOrDeletedItem)
  }

  lemma ReadingListRoundTrip(l: ReadingList)
    ensures DecodeReadingList(EncodeReadingList(l)) == Ok(l)
  {
    forall k | k in l
      ensures DecodeItemOrDeletedItem(EncodeItemOrDeletedItem(l[k])) == Ok(l[k])
    {
      ItemOrDeletedItemRoundTrip(l[k]);
    }
    MapRoundTrip(l, EncodeItemOrDeletedItem, DecodeItemOrDeletedItem, "ItemOrDeletedItem");
  }

  // ---- modified item ----

  /** serde's derived decoder for `ModifiedItem`: as for `Item`, but `given_url` and `lang` may
      be absent or `null`, and the fields `Item` has beyond these are ignored. */
  function DecodeModifiedItem(j: Json): (r: Decoded<ModifiedItem>)
    ensures r.Ok? ==> j.JObject? && {"item_id", "resolved_id", "resolved_url", "excerpt",
      "is_article", "has_image", "has_video", "word_count"} <= j.fields.Keys
    ensures r.Ok? && ("given_url" !in j.fields || j.fields["given_url"] == JNull) ==> r.value.givenUrl.None?
    ensures r.Ok? && ("lang" !in j.fields || j.fields["lang"] == JNull) ==> r.value.lang.None?
    ensures r.Ok? ==> Field(j.fields, "item_id", DecodeString) == Ok(r.value.itemId)
    ensures r.Ok? ==> Field(j.fields, "resolved_id", DecodeString) == Ok(r.value.resolvedId)
    ensures r.Ok? ==> OptField(j.fields, "given_url", DecodeString) == Ok(r.value.givenUrl)
    ensures r.Ok? ==> Field(j.fields, "resolved_url", DecodeString) == Ok(r.value.resolvedUrl)
    ensures r.Ok? ==> Field(j.fields, "excerpt", DecodeString) == Ok(r.value.excerpt)
    ensures r.Ok? ==> Field(j.fields, "is_article", DecodeBool) == Ok(r.value.isArticle)
    ensures r.Ok? ==> Field(j.fields, "has_image", DecodeHasImage) == Ok(r.value.hasImage)
    ensures r.Ok? ==> Field(j.fields, "has_video", DecodeHasVideo) == Ok(r.value.hasVideo)
    ensures r.Ok? ==> Field(j.fields, "word_count", DecodeU64Str) == Ok(r.value.wordCount)
    ensures r.Ok? ==> OptField(j.fields, "lang", DecodeString) == Ok(r.value.lang)
    ensures r.Ok? ==> OptField(j.fields, "domain_metadata", DecodeDomainMetadata) == Ok(r.value.domainMetadata)
    ensures (j.JObject? &&
      Field(j.fields, "item_id", DecodeString).Ok? &&
      Field(j.fields, "resolved_id", DecodeString).Ok? &&
      OptField(j.fields, "given_url", DecodeString).Ok? &&
      Field(j.fields, "resolved_url", DecodeString).Ok? &&
      Field(j.fields, "excerpt", DecodeString).Ok? &&
      Field(j.fields, "is_article", DecodeBool).Ok? &&
      Field(j.fields, "has_image", DecodeHasImage).Ok? &&
      Field(j.fields, "has_video", DecodeHasVideo).Ok? &&
      Field(j.fields, "word_count", DecodeU64Str).Ok? &&
      OptField(j.fields, "lang", DecodeString).Ok? &&
      OptField(j.fields, "domain_metadata", DecodeDomainMetadata).Ok?) ==> r.Ok?
  {
    if !j.JObject? then Err(InvalidType("struct ModifiedItem"))
    else
      var o := j.fields;
      var itemId :- Field(o, "item_id", DecodeString);
      var resolvedId :- Field(o, "resolved_id", DecodeString);
      var givenUrl :- OptField(o, "given_url", DecodeString);
      var resolvedUrl :- Field(o, "resolved_url", DecodeString);
      var excerpt :- Field(o, "excerpt", DecodeString);
      var isArticle :- Field(o, "is_article", DecodeBool);
      var hasImage :- Field(o, "has_image", DecodeHasImage);
      var hasVideo :- Field(o, "has_video", DecodeHasVideo);
      var wordCount :- Field(o, "word_count", DecodeU64Str);
      var lang :- OptField(o, "lang", DecodeString);
      var domainMetadata :- OptField(o, "domain_metadata", DecodeDomainMetadata);
      Ok(ModifiedItem(
        itemId, resolvedId, givenUrl, resolvedUrl, excerpt, isArticle, hasImage, hasVideo,
        wordCount, lang, domainMetadata))
  }

  /** The fields of an item that a `ModifiedItem` also carries. */
  function AsModified(i: Item): ModifiedItem {
    ModifiedItem(
      i.itemId, i.resolvedId, Some(i.givenUrl), i.resolvedUrl, i.excerpt, i.isArticle,
      i.hasImage, i.hasVideo, i.wordCount, Some(i.lang), i.domainMetadata)
  }

  /** `ModifiedItem` is the looser shape: everything that decodes as an `Item` also decodes as a
      `ModifiedItem` with the same shared fields. */
  lemma ItemIsModifiedItem(j: Json)
    requires DecodeItem(j).Ok?
    ensures DecodeModifiedItem(j) == Ok(AsModified(DecodeItem(j).value))
  {
    var o := j.fields;
    var i := DecodeItem(j).value;
    assert OptField(o, "given_url", DecodeString) == Ok(Some(i.givenUrl));
    assert OptField(o, "lang", DecodeString) == Ok(Some(i.lang));
  }

  /** Each key of `o` a `ModifiedItem` reads decodes to the corresponding field of `m`. */
  predicate ModifiedFields(o: map<string, Json>, m: ModifiedItem) {
    && Field(o, "item_id", DecodeString) == Ok(m.itemId)
    && Field(o, "resolved_id", DecodeString) == Ok(m.resolvedId)
    && OptField(o, "given_url", DecodeString) == Ok(m.givenUrl)
    && Field(o, "resolved_url", DecodeString) == Ok(m.resolvedUrl)
    && Field(o, "excerpt", DecodeString) == Ok(m.excerpt)
    && Field(o, "is_article", DecodeBool) == Ok(m.isArticle)
    && Field(o, "has_image", DecodeHasImage) == Ok(m.hasImage)
    && Field(o, "has_video", DecodeHasVideo) == Ok(m.hasVideo)
    && Field(o, "word_count", DecodeU64Str) == Ok(m.wordCount)
    && OptField(o, "lang", DecodeString) == Ok(m.lang)
    && OptField(o, "domain_metadata", DecodeDomainMetadata) == Ok(m.domainMetadata)
  }

  /** A modified-item object decodes exactly to the item its fields describe. */
  lemma ModifiedItemOfFields(o: map<string, Json>, m: ModifiedItem)
    ensures DecodeModifiedItem(JObject(o)) == Ok(m) <==> ModifiedFields(o, m)
  {
  }

  /** Without `given_url` and `lang`, the other fields still read the same, and those two read
      as `None`. */
  lemma DropUrlAndLangFields(o: map<string, Json>, m: ModifiedItem)
    requires ModifiedFields(o, m)
    ensures ModifiedFields(o - {"given_url", "lang"}, m.(givenUrl := None, lang := None))
  {
    var o' := o - {"given_url", "lang"};
    forall k | k in o' ensures k in o && o'[k] == o[k] {}
  }

  /** An item object stripped of `given_url` and `lang` (as the server may return after
      re-adding) still decodes as a `ModifiedItem`: the same shared fields, with both of those
      `None`. */
  lemma ItemWithoutUrlAndLang(j: Json)
    requires DecodeItem(j).Ok?
    ensures DecodeModifiedItem(JObject(j.fields - {"given_url", "lang"})) ==
      Ok(AsModified(DecodeItem(j).value).(givenUrl := None, lang := None))
  {
    ItemIsModifiedItem(j);
    DropUrlAndLang(j, AsModified(DecodeItem(j).value));
  }

  /** Dropping `given_url` and `lang` from a modified-item object keeps it a modified item,
      with those two fields now `None`. */
  lemma DropUrlAndLang(j: Json, m: ModifiedItem)
    requires DecodeModifiedItem(j) == Ok(m)
    ensures DecodeModifiedItem(JObject(j.fields - {"given_url", "lang"})) == Ok(m.(givenUrl := None, lang := None))
  {
    ModifiedItemOfFields(j.fields, m);
    DropUrlAndLangFields(j.fields, m);
    ModifiedItemOfFields(j.fields - {"given_url", "lang"}, m.(givenUrl := None, lang := None));
  }

  /** The converse fails: an object without `given_url` that decodes as a `ModifiedItem` (such
      objects exist, by `ItemWithoutUrlAndLang`) never decodes as an `Item`. */
  lemma ModifiedItemWithoutGivenUrl(j: Json)
    requires DecodeModifiedItem(j).Ok? && "given_url" !in j.fields
    ensures DecodeModifiedItem(j).value.givenUrl.None?
    ensures DecodeItem(j).Err?
    ensures DecodeItemOrDeletedItem(j) == Ok(Deleted(DeletedItem(DecodeModifiedItem(j).value.itemId)))
  {
  }
}

=== FILE: modify.dfy ===
/** The client's "send" operation (`modify`): a batch of actions of one kind (archive,
    favorite or add), one per item id or URL, stamped with the current time and written as a
    JSON text by string formatting. The payload is posted to `Auth.Url("/send")`; the server's
    answer is not read. Nothing in the ids is escaped, so the model reads the payload back
    by splitting it at its double quotes and proves that every id, the verb, the key, the time
    and both credentials come back, provided none of them holds a double quote. */
module Modify {
  import opened Decimal
  import opened Text
  import Client

  /** The kinds of action the client sends. */
  datatype Action = Archive | Favorite | Add

  /** The action's name on the wire. */
  function Verb(a: Action): (r: string)
    ensures r == "archive" <==> a == Archive
    ensures r == "favorite" <==> a == Favorite
    ensures r == "add" <==> a == Add
  {
    match a
    case Favorite => "favorite"
    case Archive => "archive"
    case Add => "add"
  }

  /** An added item is named by its URL, the others by their item id. */
  function ItemKey(a: Action): (r: string)
    ensures r == "url" <==> a == Add
    ensures r == "item_id" <==> a != Add
  {
    match a
    case Add => "url"
    case _ => "item_id"
  }

  const Quote: char := '"'

  /** `s` between double quotes, with nothing escaped. */
  function Quoted(s: string): (r: string)
    ensures |r| == |s| + 2 && r[0] == Quote && r[|r| - 1] == Quote && r[1..|r| - 1] == s
  {
    [Quote] + s + [Quote]
  }

  /** One action, `{ "action": "<verb>", "<key>": "<id>", "time": "<time>" }`. */
  function ActionObject(verb: string, key: string, id: string, time: string): string {
    "{ " + Quoted("action") + ": " + Quoted(verb) + ", " + Quoted(key) + ": " + Quoted(id)
      + ", " + Quoted("time") + ": " + Quoted(time) + " }"
  }

  /** The text between the first and the last double quote of an action, cut at its double
      quotes: its names, values and the separators between them. */
  function InnerPieces(verb: string, key: string, id: string, time: string): (r: seq<string>)
    ensures |r| == 11 && r[2] == verb && r[4] == key && r[6] == id && r[10] == time
  {
    ["action", ": ", verb, ", ", key, ": ", id, ", ", "time", ": ", time]
  }

  /** A quoted word followed by unquoted text adds the word and the text as two pieces. */
  lemma SplitQuotedAppend(t: string, s: string, sep: string)
    requires Quote !in s && Quote !in sep
    ensures SplitChar(t + Quoted(s) + sep, Quote) == SplitChar(t, Quote) + [s, sep]
  {
    var x := t + [Quote] + s;
    assert SplitChar(x, Quote) == SplitChar(t, Quote) + [s] by {
      SplitCharAt(t, Quote, s);
      SplitCharNoSep(s, Quote);
    }
    assert SplitChar(x + [Quote] + sep, Quote) == SplitChar(x, Quote) + [sep] by {
      SplitCharAt(x, Quote, sep);
      SplitCharNoSep(sep, Quote);
    }
    assert t + Quoted(s) + sep == x + [Quote] + sep;
  }

  /** Text with six quoted words cut at its double quotes: the words and the unquoted text
      around them, in order. */
  lemma SplitSixQuoted(x0: string, w1: string, x1: string, w2: string, x2: string, w3: string,
                       x3: string, w4: string, x4: string, w5: string, x5: string, w6: string,
                       x6: string)
    requires Quote !in x0 && Quote !in x1 && Quote !in x2 && Quote !in x3 && Quote !in x4
    requires Quote !in x5 && Quote !in x6
    requires Quote !in w1 && Quote !in w2 && Quote !in w3 && Quote !in w4 && Quote !in w5
    requires Quote !in w6
    ensures SplitChar(x0 + Quoted(w1) + x1 + Quoted(w2) + x2 + Quoted(w3) + x3 + Quoted(w4) + x4
                  + Quoted(w5) + x5 + Quoted(w6) + x6, Quote)
      == [x0, w1, x1, w2, x2, w3, x3, w4, x4, w5, x5, w6, x6]
  {
    var t1 := x0 + Quoted(w1) + x1;
    var t2 := t1 + Quoted(w2) + x2;
    var t3 := t2 + Quoted(w3) + x3;
    var t4 := t3 + Quoted(w4) + x4;
    var t5 := t4 + Quoted(w5) + x5;
    assert SplitChar(t1, Quote) == [x0, w1, x1] by {
      SplitCharNoSep(x0, Quote);
      SplitQuotedAppend(x0, w1, x1);
    }
    assert SplitChar(t2, Quote) == [x0, w1, x1, w2, x2] by { SplitQuotedAppend(t1, w2, x2); }
    assert SplitChar(t3, Quote) == [x0, w1, x1, w2, x2, w3, x3] by { SplitQuotedAppend(t2, w3, x3); }
    assert SplitChar(t4, Quote) == [x0, w1, x1, w2, x2, w3, x3, w4, x4] by {
      SplitQuotedAppend(t3, w4, x4);
    }
    assert SplitChar(t5, Quote) == [x0, w1, x1, w2, x2, w3, x3, w4, x4, w5, x5] by {
      SplitQuotedAppend(t4, w5, x5);
    }
    SplitQuotedAppend(t5, w6, x6);
  }

  /** An action object cut at its double quotes gives back its verb, key, id and time, when
      none of them holds a double quote. */
  lemma SplitActionObject(verb: string, key: string, id: string, time: string)
    requires Quote !in verb && Quote !in key && Quote !in id && Quote !in time
    ensures SplitChar(ActionObject(verb, key, id, time), Quote)
      == ["{ "] + InnerPieces(verb, key, id, time) + [" }"]
  {
    SplitSixQuoted("{ ", "action", ": ", verb, ", ", key, ": ", id, ", ", "time", ": ", time, " }");
  }

  /** A timestamp's decimal form holds digits and perhaps a leading minus sign, never a
      double quote. */
  lemma TimeUnquoted(time: I64)
    ensures Quote !in ShowInt(time)
  {
    var r := ShowInt(time);
    if time < 0 {
      assert forall k :: 1 <= k < |r| ==> r[k] == r[1..][k - 1];
    }
  }

  /** The action objects of a batch: one per id, in order, all of the same kind and time. */
  function ActionObjects(a: Action, ids: seq<string>, time: I64): (r: seq<string>)
    ensures |r| == |ids|
    ensures forall k :: 0 <= k < |ids| ==> r[k] == ActionObject(Verb(a), ItemKey(a), ids[k], ShowInt(time))
  {
    seq(|ids|, k requires 0 <= k < |ids| => ActionObject(Verb(a), ItemKey(a), ids[k], ShowInt(time)))
  }

  /** The pieces of a non-empty batch of joined actions, cut at double quotes, between the
      opening `{ ` of the first and the closing ` }` of the last: each action's inner pieces,
      with ` }, { ` between neighbours. */
  function BatchPieces(verb: string, key: string, ids: seq<string>, time: string): (r: seq<string>)
    requires |ids| >= 1
    decreases |ids|
  {
    InnerPieces(verb, key, ids[0], time)
      + (if |ids| == 1 then [] else [" }, { "] + BatchPieces(verb, key, ids[1..], time))
  }

  /** Action `k` of the batch sits at pieces `12 * k` to `12 * k + 10`. */
  lemma {:induction false} BatchPiecesAt(verb: string, key: string, ids: seq<string>, time: string, k: nat)
    requires |ids| >= 1 && k < |ids|
    ensures |BatchPieces(verb, key, ids, time)| == 12 * |ids| - 1
    ensures var r := BatchPieces(verb, key, ids, time);
      r[12 * k + 2] == verb && r[12 * k + 4] == key && r[12 * k + 6] == ids[k] && r[12 * k + 10] == time
    decreases |ids|
  {
    if |ids| > 1 {
      BatchPiecesAt(verb, key, ids[1..], time, if k == 0 then 0 else k - 1);
    }
  }

  /** Joining the actions with `, ` and cutting the text at double quotes gives the batch's
      pieces between an opening `{ ` and a closing ` }`. */
  lemma {:induction false} SplitJoinedActions(a: Action, ids: seq<string>, time: I64)
    requires |ids| >= 1
    requires forall k :: 0 <= k < |ids| ==> Quote !in ids[k]
    ensures SplitChar(Join(ActionObjects(a, ids, time), ", "), Quote)
      == ["{ "] + BatchPieces(Verb(a), ItemKey(a), ids, ShowInt(time)) + [" }"]
    decreases |ids|
  {
    var verb, key, t := Verb(a), ItemKey(a), ShowInt(time);
    var first := ActionObject(verb, key, ids[0], t);
    TimeUnquoted(time);
    var inner := InnerPieces(verb, key, ids[0], t);
    assert SplitChar(first, Quote) == ["{ "] + inner + [" }"] by {
      SplitActionObject(verb, key, ids[0], t);
    }
    if |ids| == 1 {
      assert Join(ActionObjects(a, ids, time), ", ") == first;
      assert BatchPieces(verb, key, ids, t) == inner;
    } else {
      var rest := Join(ActionObjects(a, ids[1..], time), ", ");
      var restPieces := BatchPieces(verb, key, ids[1..], t);
      assert SplitChar(rest, Quote) == ["{ "] + restPieces + [" }"] by {
        SplitJoinedActions(a, ids[1..], time);
      }
      JoinActionsCons(a, ids, time);
      SplitJoinStep(first, rest, ["{ "] + inner, restPieces);
      BatchPiecesCons(verb, key, ids, t);
    }
  }

  /** Joining a batch of more than one action: the first, `, `, and the rest joined. */
  lemma JoinActionsCons(a: Action, ids: seq<string>, time: I64)
    requires |ids| > 1
    ensures Join(ActionObjects(a, ids, time), ", ")
      == ActionObject(Verb(a), ItemKey(a), ids[0], ShowInt(time)) + ", " + Join(ActionObjects(a, ids[1..], time), ", ")
  {
    assert ActionObjects(a, ids, time)[1..] == ActionObjects(a, ids[1..], time);
  }

  /** The pieces of a batch of more than one action, regrouped around the first. */
  lemma BatchPiecesCons(verb: string, key: string, ids: seq<string>, time: string)
    requires |ids| > 1
    ensures ["{ "] + InnerPieces(verb, key, ids[0], time) + [" }, { "] + BatchPieces(verb, key, ids[1..], time) + [" }"]
      == ["{ "] + BatchPieces(verb, key, ids, time) + [" }"]
  {
  }

  /** One step of the join: an action, `, `, and the rest of the batch. */
  lemma SplitJoinStep(first: string, rest: string, u: seq<string>, w: seq<string>)
    requires SplitChar(first, Quote) == u + [" }"]
    requires SplitChar(rest, Quote) == ["{ "] + w + [" }"]
    ensures SplitChar(first + ", " + rest, Quote) == u + [" }, { "] + w + [" }"]
  {
    assert " }, { " == " }" + ", " + "{ ";
    GlueSeparators(first, rest, u, w, " }", ", ", "{ ");
  }

  lemma GlueSeparators(first: string, rest: string, u: seq<string>, w: seq<string>,
                       close: string, comma: string, open: string)
    requires Quote !in comma
    requires SplitChar(first, Quote) == u + [close]
    requires SplitChar(rest, Quote) == [open] + w + [close]
    ensures SplitChar(first + comma + rest, Quote) == u + [close + comma + open] + w + [close]
  {
    var left := first + comma;
    assert SplitChar(left, Quote) == u + [close + comma] by {
      SplitCharAppend(first, comma, Quote);
      SplitCharNoSep(comma, Quote);
      GlueEnds(u, close, comma, []);
    }
    SplitCharAppend(left, rest, Quote);
    GlueMiddle(u, close + comma, open, w, close);
  }

  /** Gluing across one boundary, with the right side ending in a known piece. */
  lemma GlueMiddle(u: seq<string>, a: string, b: string, w: seq<string>, e: string)
    ensures Glue(u + [a], [b] + w + [e]) == u + [a + b] + w + [e]
  {
    GlueEnds(u, a, b, w + [e]);
    assert [b] + w + [e] == [b] + (w + [e]);
    assert u + [a + b] + (w + [e]) == u + [a + b] + w + [e];
  }

  // ---- the payload ----

  /** The indentation of the payload's continuation lines. */
  const Indent: string := "                               "

  /** What ends the credential lines of the payload. */
  const LineEnd: string := ",\n" + Indent

  /** What closes the payload after the actions. */
  const Close: string := "]\n" + Indent + "}"

  /** The text of the payload up to the first action. */
  function PayloadHead(c: Client.Client): string {
    "{ " + Quoted("consumer_key") + ":" + Quoted(c.consumerKey) + LineEnd
      + Quoted("access_token") + ":" + Quoted(c.authorizationCode) + LineEnd
      + Quoted("actions") + ": ["
  }

  /** `modify`'s payload:
      `{ "consumer_key":"<key>",` and `"access_token":"<token>",` on the first two lines,
      then `"actions": [<the action objects joined with ", ">]` and a closing brace on a line
      of its own. */
  function ModifyPayload(c: Client.Client, a: Action, ids: seq<string>, time: I64): string {
    PayloadHead(c) + Join(ActionObjects(a, ids, time), ", ") + Close
  }

  /** Text with five quoted words cut at its double quotes. */
  lemma SplitFiveQuoted(x0: string, w1: string, x1: string, w2: string, x2: string, w3: string,
                        x3: string, w4: string, x4: string, w5: string, x5: string)
    requires Quote !in x0 && Quote !in x1 && Quote !in x2 && Quote !in x3 && Quote !in x4
    requires Quote !in x5
    requires Quote !in w1 && Quote !in w2 && Quote !in w3 && Quote !in w4 && Quote !in w5
    ensures SplitChar(x0 + Quoted(w1) + x1 + Quoted(w2) + x2 + Quoted(w3) + x3 + Quoted(w4) + x4
                  + Quoted(w5) + x5, Quote)
      == [x0, w1, x1, w2, x2, w3, x3, w4, x4, w5, x5]
  {
    var t1 := x0 + Quoted(w1) + x1;
    var t2 := t1 + Quoted(w2) + x2;
    var t3 := t2 + Quoted(w3) + x3;
    var t4 := t3 + Quoted(w4) + x4;
    assert SplitChar(t1, Quote) == [x0, w1, x1] by {
      SplitCharNoSep(x0, Quote);
      SplitQuotedAppend(x0, w1, x1);
    }
    assert SplitChar(t2, Quote) == [x0, w1, x1, w2, x2] by { SplitQuotedAppend(t1, w2, x2); }
    assert SplitChar(t3, Quote) == [x0, w1, x1, w2, x2, w3, x3] by { SplitQuotedAppend(t2, w3, x3); }
    assert SplitChar(t4, Quote) == [x0, w1, x1, w2, x2, w3, x3, w4, x4] by {
      SplitQuotedAppend(t3, w4, x4);
    }
    SplitQuotedAppend(t4, w5, x5);
  }

  /** The head of the payload cut at its double quotes. */
  lemma SplitPayloadHead(c: Client.Client)
    requires Quote !in c.consumerKey && Quote !in c.authorizationCode
    ensures SplitChar(PayloadHead(c), Quote) == HeadPieces(c) + [": ["]
  {
    SplitFiveQuoted("{ ", "consumer_key", ":", c.consumerKey, LineEnd, "access_token", ":",
                    c.authorizationCode, LineEnd, "actions", ": [");
  }

  /** The first ten pieces of the payload: the credentials and the name of the actions. */
  function HeadPieces(c: Client.Client): (r: seq<string>)
    ensures |r| == 10 && r[3] == c.consumerKey && r[7] == c.authorizationCode
  {
    ["{ ", "consumer_key", ":", c.consumerKey, LineEnd, "access_token", ":", c.authorizationCode,
     LineEnd, "actions"]
  }

  /** The payload cut at its double quotes. */
  function PayloadPieces(c: Client.Client, verb: string, key: string, ids: seq<string>, time: string): seq<string> {
    if |ids| == 0 then HeadPieces(c) + [": [" + Close]
    else HeadPieces(c) + [": [{ "] + BatchPieces(verb, key, ids, time) + [" }" + Close]
  }

  /** The closing text holds no double quote. */
  lemma CloseUnquoted()
    ensures Quote !in Close
  {
  }

  /** Appending text without a double quote extends the last piece. */
  lemma SplitCharClose(x: string, u: seq<string>, last: string, close: string)
    requires Quote !in close
    requires SplitChar(x, Quote) == u + [last]
    ensures SplitChar(x + close, Quote) == u + [last + close]
  {
    SplitCharAppend(x, close, Quote);
    SplitCharNoSep(close, Quote);
    GlueEnds(u, last, close, []);
  }

  /** Appending text glues its first piece to the last piece so far. */
  lemma SplitCharOpen(x: string, y: string, u: seq<string>, last: string, first: string, w: seq<string>)
    requires SplitChar(x, Quote) == u + [last]
    requires SplitChar(y, Quote) == [first] + w
    ensures SplitChar(x + y, Quote) == u + [last + first] + w
  {
    SplitCharAppend(x, y, Quote);
    GlueEnds(u, last, first, w);
  }

  /** The payload cut at its double quotes, when no id and no credential holds one. */
  lemma SplitModifyPayload(c: Client.Client, a: Action, ids: seq<string>, time: I64)
    requires Quote !in c.consumerKey && Quote !in c.authorizationCode
    requires forall k :: 0 <= k < |ids| ==> Quote !in ids[k]
    ensures SplitChar(ModifyPayload(c, a, ids, time), Quote)
      == PayloadPieces(c, Verb(a), ItemKey(a), ids, ShowInt(time))
  {
    SplitPayloadHead(c);
    CloseUnquoted();
    if |ids| == 0 {
      SplitEmptyPayload(c, a, time);
    } else {
      SplitJoinedActions(a, ids, time);
      SplitBatchPayload(PayloadHead(c), Join(ActionObjects(a, ids, time), ", "), HeadPieces(c),
                        BatchPieces(Verb(a), ItemKey(a), ids, ShowInt(time)));
    }
  }

  /** The payload of no action at all. */
  lemma SplitEmptyPayload(c: Client.Client, a: Action, time: I64)
    requires SplitChar(PayloadHead(c), Quote) == HeadPieces(c) + [": ["]
    requires Quote !in Close
    ensures SplitChar(ModifyPayload(c, a, [], time), Quote) == HeadPieces(c) + [": [" + Close]
  {
    assert Join(ActionObjects(a, [], time), ", ") == "";
    assert PayloadHead(c) + "" == PayloadHead(c);
    SplitCharClose(PayloadHead(c), HeadPieces(c), ": [", Close);
  }

  /** The payload of at least one action, from the pieces of its head and of its actions. */
  lemma SplitBatchPayload(head: string, body: string, h: seq<string>, batch: seq<string>)
    requires SplitChar(head, Quote) == h + [": ["]
    requires SplitChar(body, Quote) == ["{ "] + batch + [" }"]
    requires Quote !in Close
    ensures SplitChar(head + body + Close, Quote) == h + [": [{ "] + batch + [" }" + Close]
  {
    assert ["{ "] + batch + [" }"] == ["{ "] + (batch + [" }"]);
    SplitCharOpen(head, body, h, ": [", "{ ", batch + [" }"]);
    assert ": [" + "{ " == ": [{ ";
    assert h + [": [{ "] + (batch + [" }"]) == (h + [": [{ "] + batch) + [" }"];
    SplitCharClose(head + body, h + [": [{ "] + batch, " }", Close);
  }

  // ---- reading a payload back ----

  /** One action as read back from a payload. */
  datatype ActionFields = ActionFields(verb: string, key: string, id: string, time: string)

  /** The actions of a payload, read from its pieces between double quotes: action `k` has
      its verb, key, id and time at pieces `13`, `15`, `17` and `21` plus `12 * k`. This cuts
      the text at every `"` and knows nothing of JSON escapes: it is not JSON decoding. */
  function ReadActions(payload: string): (r: seq<ActionFields>)
    ensures var ps := SplitChar(payload, Quote); |ps| >= 11 ==> |r| == (|ps| - 11) / 12
  {
    var ps := SplitChar(payload, Quote);
    if |ps| < 11 then []
    else
      seq((|ps| - 11) / 12, k requires 0 <= k < (|ps| - 11) / 12 =>
        ActionFields(ps[13 + 12 * k], ps[15 + 12 * k], ps[17 + 12 * k], ps[21 + 12 * k]))
  }

  /** The consumer key and the access token of a payload, read from pieces 3 and 7. */
  function ReadCredentials(payload: string): (r: (string, string))
    ensures var ps := SplitChar(payload, Quote); |ps| >= 8 ==> r == (ps[3], ps[7])
  {
    var ps := SplitChar(payload, Quote);
    if |ps| < 8 then ("", "") else (ps[3], ps[7])
  }

  /** Where the pieces of a payload hold the credentials and each action's fields. */
  lemma PayloadPiecesAt(c: Client.Client, verb: string, key: string, ids: seq<string>, t: string)
    ensures var ps := PayloadPieces(c, verb, key, ids, t);
      |ps| == 12 * |ids| + 11 && ps[3] == c.consumerKey && ps[7] == c.authorizationCode
    ensures var ps := PayloadPieces(c, verb, key, ids, t);
      forall k :: 0 <= k < |ids| ==>
        ps[13 + 12 * k] == verb && ps[15 + 12 * k] == key && ps[17 + 12 * k] == ids[k] && ps[21 + 12 * k] == t
  {
    var ps := PayloadPieces(c, verb, key, ids, t);
    assert ps[..10] == HeadPieces(c);
    if |ids| > 0 {
      BatchPiecesAt(verb, key, ids, t, 0);
      forall k | 0 <= k < |ids|
        ensures ps[13 + 12 * k] == verb && ps[15 + 12 * k] == key
        ensures ps[17 + 12 * k] == ids[k] && ps[21 + 12 * k] == t
      {
        BatchPiecesAt(verb, key, ids, t, k);
      }
    }
  }

  /** Reading the fields off pieces laid out as `PayloadPieces` lays them out. */
  lemma ReadPieces(payload: string, ps: seq<string>, verb: string, key: string, ids: seq<string>, t: string)
    requires SplitChar(payload, Quote) == ps
    requires |ps| == 12 * |ids| + 11
    requires forall k :: 0 <= k < |ids| ==>
      ps[13 + 12 * k] == verb && ps[15 + 12 * k] == key && ps[17 + 12 * k] == ids[k] && ps[21 + 12 * k] == t
    ensures ReadCredentials(payload) == (ps[3], ps[7])
    ensures |ReadActions(payload)| == |ids|
    ensures forall k :: 0 <= k < |ids| ==> ReadActions(payload)[k] == ActionFields(verb, key, ids[k], t)
  {
  }

  /** The payload carries exactly the requested actions, in order, each with the action's
      verb and key and the same time, and the client's credentials, when no id and no
      credential holds a double quote. */
  lemma ModifyPayloadRoundTrip(c: Client.Client, a: Action, ids: seq<string>, time: I64)
    requires Quote !in c.consumerKey && Quote !in c.authorizationCode
    requires forall k :: 0 <= k < |ids| ==> Quote !in ids[k]
    ensures ReadCredentials(ModifyPayload(c, a, ids, time)) == (c.consumerKey, c.authorizationCode)
    ensures |ReadActions(ModifyPayload(c, a, ids, time))| == |ids|
    ensures forall k :: 0 <= k < |ids| ==>
      ReadActions(ModifyPayload(c, a, ids, time))[k] == ActionFields(Verb(a), ItemKey(a), ids[k], ShowInt(time))
  {
    var verb, key, t := Verb(a), ItemKey(a), ShowInt(time);
    SplitModifyPayload(c, a, ids, time);
    PayloadPiecesAt(c, verb, key, ids, t);
    ReadPieces(ModifyPayload(c, a, ids, time), PayloadPieces(c, verb, key, ids, t), verb, key, ids, t);
  }

  // ---- the public actions ----

  /** `mark_as_read`: archive the given items. */
  function MarkAsRead(c: Client.Client, ids: seq<string>, time: I64): string {
    ModifyPayload(c, Archive, ids, time)
  }

  /** `mark_as_favorite`: favorite the given items. */
  function MarkAsFavorite(c: Client.Client, ids: seq<string>, time: I64): string {
    ModifyPayload(c, Favorite, ids, time)
  }

  /** `add_urls`: add the given URLs to the list. */
  function AddUrls(c: Client.Client, urls: seq<string>, time: I64): string {
    ModifyPayload(c, Add, urls, time)
  }

  /** `mark_as_read` sends one `archive` action per item, keyed by `item_id`. */
  lemma MarkAsReadArchives(c: Client.Client, ids: seq<string>, time: I64)
    requires Quote !in c.consumerKey && Quote !in c.authorizationCode
    requires forall k :: 0 <= k < |ids| ==> Quote !in ids[k]
    ensures |ReadActions(MarkAsRead(c, ids, time))| == |ids|
    ensures forall k :: 0 <= k < |ids| ==>
      ReadActions(MarkAsRead(c, ids, time))[k] == ActionFields("archive", "item_id", ids[k], ShowInt(time))
  {
    ModifyPayloadRoundTrip(c, Archive, ids, time);
  }

  /** `mark_as_favorite` sends one `favorite` action per item, keyed by `item_id`. */
  lemma MarkAsFavoriteFavorites(c: Client.Client, ids: seq<string>, time: I64)
    requires Quote !in c.consumerKey && Quote !in c.authorizationCode
    requires forall k :: 0 <= k < |ids| ==> Quote !in ids[k]
    ensures |ReadActions(MarkAsFavorite(c, ids, time))| == |ids|
    ensures forall k :: 0 <= k < |ids| ==>
      ReadActions(MarkAsFavorite(c, ids, time))[k] == ActionFields("favorite", "item_id", ids[k], ShowInt(time))
  {
    ModifyPayloadRoundTrip(c, Favorite, ids, time);
  }

  /** `add_urls` sends one `add` action per URL, keyed by `url`. */
  lemma AddUrlsAdds(c: Client.Client, urls: seq<string>, time: I64)
    requires Quote !in c.consumerKey && Quote !in c.authorizationCode
    requires forall k :: 0 <= k < |urls| ==> Quote !in urls[k]
    ensures |ReadActions(AddUrls(c, urls, time))| == |urls|
    ensures forall k :: 0 <= k < |urls| ==>
      ReadActions(AddUrls(c, urls, time))[k] == ActionFields("add", "url", urls[k], ShowInt(time))
  {
    ModifyPayloadRoundTrip(c, Add, urls, time);
  }
}

=== FILE: query.dfy ===
/** The filters of a "get" request (`GetInput`) and how serde writes them: a field that is
    `None` is left out, every other field is written under its own name (`detail_type` is
    renamed `detailType`), and the enumerations are written as lower-case names. */
module Query {
  import opened Wrappers
  import opened Decimal
  import opened Json
  import Wire

  /** Which items to return: unread ones, archived ones or both. */
  datatype State = Unread | Archive | All

  /** Return only items with a given tag, or only untagged items. */
  datatype TagFilter = TagName(name: string) | Untagged

  datatype ContentType = Article | Video | Image

  datatype Sort = Newest | Oldest | Title | Site

  datatype DetailType = Simple | Complete

  /** The page size `list_all` asks for. */
  const DEFAULT_COUNT: nat := 5000

  /** The optional filters of a "get" request. */
  datatype GetInput = GetInput(
    state: Option<State>,
    favorite: Option<Wire.FavoriteStatus>,
    tag: Option<TagFilter>,
    contentType: Option<ContentType>,
    sort: Option<Sort>,
    detailType: Option<DetailType>,
    search: Option<string>,
    domain: Option<string>,
    since: Option<U64>,
    count: Option<U32>,
    offset: Option<U32>)

  /** `GetInput::default()`: no filter at all. */
  const NoFilters := GetInput(None, None, None, None, None, None, None, None, None, None, None)

  // ---- the serde names of the enumerations ----

  function StateName(s: State): (r: string)
    ensures r == "unread" <==> s == Unread
    ensures r == "archive" <==> s == Archive
    ensures r == "all" <==> s == All
  {
    match s
    case Unread => "unread"
    case Archive => "archive"
    case All => "all"
  }

  function ContentTypeName(c: ContentType): (r: string)
    ensures r == "article" <==> c == Article
    ensures r == "video" <==> c == Video
    ensures r == "image" <==> c == Image
  {
    match c
    case Article => "article"
    case Video => "video"
    case Image => "image"
  }

  function SortName(s: Sort): (r: string)
    ensures r == "newest" <==> s == Newest
    ensures r == "oldest" <==> s == Oldest
    ensures r == "title" <==> s == Title
    ensures r == "site" <==> s == Site
  {
    match s
    case Newest => "newest"
    case Oldest => "oldest"
    case Title => "title"
    case Site => "site"
  }

  function DetailTypeName(d: DetailType): (r: string)
    ensures r == "simple" <==> d == Simple
    ensures r == "complete" <==> d == Complete
  {
    match d
    case Simple => "simple"
    case Complete => "complete"
  }

  /** `rename_all = "lowercase"`: each state is written as its lower-case name. */
  function EncodeState(s: State): (r: Json)
    ensures r == JString("unread") <==> s == Unread
    ensures r == JString("archive") <==> s == Archive
    ensures r == JString("all") <==> s == All
  {
    JString(StateName(s))
  }

  function EncodeContentType(c: ContentType): (r: Json)
    ensures r == JString("article") <==> c == Article
    ensures r == JString("video") <==> c == Video
    ensures r == JString("image") <==> c == Image
  {
    JString(ContentTypeName(c))
  }

  function EncodeSort(s: Sort): (r: Json)
    ensures r == JString("newest") <==> s == Newest
    ensures r == JString("oldest") <==> s == Oldest
    ensures r == JString("title") <==> s == Title
    ensures r == JString("site") <==> s == Site
  {
    JString(SortName(s))
  }

  function EncodeDetailType(d: DetailType): (r: Json)
    ensures r == JString("simple") <==> d == Simple
    ensures r == JString("complete") <==> d == Complete
  {
    JString(DetailTypeName(d))
  }

  /** serde's externally tagged form: the unit variant as its renamed name, the newtype
      variant as a one-key object holding its value. */
  function EncodeTagFilter(t: TagFilter): (r: Json)
    ensures r == JString("_untagged_") <==> t == Untagged
    ensures t.TagName? ==> r.JObject? && r.fields == map["TagName" := JString(t.name)]
  {
    match t
    case TagName(name) => JObject(map["TagName" := JString(name)])
    case Untagged => JString("_untagged_")
  }

  // ---- GetInput ----

  /** The JSON form of a present field; an absent one stays absent. */
  function Lift<T>(x: Option<T>, enc: T -> Json): (r: Option<Json>)
    ensures r.Some? <==> x.Some?
    ensures x.Some? ==> r.value == enc(x.value)
  {
    match x
    case None => None
    case Some(v) => Some(enc(v))
  }

  /** Every key `EncodeGetInput` can write. */
  const GetInputKeys: set<string> := {
    "state", "favorite", "tag", "content_type", "sort", "detailType", "search", "domain",
    "since", "count", "offset"}

  /** The value serde writes under key `k` of a `GetInput`, if any. */
  function GetInputField(g: GetInput, k: string): Option<Json> {
    if k == "state" then Lift(g.state, EncodeState)
    else if k == "favorite" then Lift(g.favorite, Wire.EncodeFavoriteStatus)
    else if k == "tag" then Lift(g.tag, EncodeTagFilter)
    else if k == "content_type" then Lift(g.contentType, EncodeContentType)
    else if k == "sort" then Lift(g.sort, EncodeSort)
    else if k == "detailType" then Lift(g.detailType, EncodeDetailType)
    else if k == "search" then Lift(g.search, EncodeString)
    else if k == "domain" then Lift(g.domain, EncodeString)
    else if k == "since" then Lift(g.since, EncodeU64)
    else if k == "count" then Lift(g.count, EncodeU32)
    else if k == "offset" then Lift(g.offset, EncodeU32)
    else None
  }

  /** serde's encoding of `GetInput` with `skip_serializing_none`: one key per present field. */
  function EncodeGetInput(g: GetInput): (r: Json)
    ensures r.JObject? && r.fields.Keys <= GetInputKeys
  {
    JObject(map k | k in GetInputKeys && GetInputField(g, k).Some? :: GetInputField(g, k).value)
  }

  /** `skip_serializing_none`: each of the selection filters is written exactly when it is
      present, under its serde name and in its serde form. */
  lemma SelectionFiltersWritten(g: GetInput)
    ensures "state" in EncodeGetInput(g).fields <==> g.state.Some?
    ensures "favorite" in EncodeGetInput(g).fields <==> g.favorite.Some?
    ensures "tag" in EncodeGetInput(g).fields <==> g.tag.Some?
    ensures "content_type" in EncodeGetInput(g).fields <==> g.contentType.Some?
    ensures "sort" in EncodeGetInput(g).fields <==> g.sort.Some?
    ensures "detailType" in EncodeGetInput(g).fields <==> g.detailType.Some?
    ensures g.state.Some? ==> EncodeGetInput(g).fields["state"] == JString(StateName(g.state.value))
    ensures g.favorite.Some? ==>
      EncodeGetInput(g).fields["favorite"] == JString(Wire.FavoriteStatusCode(g.favorite.value))
    ensures g.tag.Some? ==> EncodeGetInput(g).fields["tag"] == EncodeTagFilter(g.tag.value)
    ensures g.contentType.Some? ==>
      EncodeGetInput(g).fields["content_type"] == JString(ContentTypeName(g.contentType.value))
    ensures g.sort.Some? ==> EncodeGetInput(g).fields["sort"] == JString(SortName(g.sort.value))
    ensures g.detailType.Some? ==>
      EncodeGetInput(g).fields["detailType"] == JString(DetailTypeName(g.detailType.value))
  {
  }

  /** Likewise for the search and paging filters: strings as strings, numbers as numbers. */
  lemma PagingFiltersWritten(g: GetInput)
    ensures "search" in EncodeGetInput(g).fields <==> g.search.Some?
    ensures "domain" in EncodeGetInput(g).fields <==> g.domain.Some?
    ensures "since" in EncodeGetInput(g).fields <==> g.since.Some?
    ensures "count" in EncodeGetInput(g).fields <==> g.count.Some?
    ensures "offset" in EncodeGetInput(g).fields <==> g.offset.Some?
    ensures g.search.Some? ==> EncodeGetInput(g).fields["search"] == JString(g.search.value)
    ensures g.domain.Some? ==> EncodeGetInput(g).fields["domain"] == JString(g.domain.value)
    ensures g.since.Some? ==> EncodeGetInput(g).fields["since"] == JNumber(g.since.value)
    ensures g.count.Some? ==> EncodeGetInput(g).fields["count"] == JNumber(g.count.value)
    ensures g.offset.Some? ==> EncodeGetInput(g).fields["offset"] == JNumber(g.offset.value)
  {
  }

  /** Two present fields written alike were equal, for an encoder that never writes two
      values alike. */
  lemma LiftInjective<T>(x: Option<T>, y: Option<T>, enc: T -> Json)
    requires forall u, v :: enc(u) == enc(v) ==> u == v
    requires Lift(x, enc) == Lift(y, enc)
    ensures x == y
  {
    if x.Some? {
      assert enc(x.value) == enc(y.value);
    }
  }

  /** Two inputs written alike agree on every key's value. */
  lemma SameFields(a: GetInput, b: GetInput, k: string)
    requires EncodeGetInput(a) == EncodeGetInput(b)
    requires k in GetInputKeys
    ensures GetInputField(a, k) == GetInputField(b, k)
  {
    var oa, ob := EncodeGetInput(a).fields, EncodeGetInput(b).fields;
    assert k in oa <==> k in ob;
    if k in oa {
      assert oa[k] == ob[k];
    }
  }

  /** Two inputs written alike have the same selection filters. */
  lemma SameSelectionFilters(a: GetInput, b: GetInput)
    requires EncodeGetInput(a) == EncodeGetInput(b)
    ensures a.state == b.state && a.favorite == b.favorite && a.tag == b.tag
    ensures a.contentType == b.contentType && a.sort == b.sort && a.detailType == b.detailType
  {
    SameFields(a, b, "state");
    LiftInjective(a.state, b.state, EncodeState);
    SameFields(a, b, "favorite");
    forall u, v | Wire.EncodeFavoriteStatus(u) == Wire.EncodeFavoriteStatus(v) ensures u == v {
      assert Wire.DecodeFavoriteStatus(Wire.EncodeFavoriteStatus(u)) == Ok(u);
      assert Wire.DecodeFavoriteStatus(Wire.EncodeFavoriteStatus(v)) == Ok(v);
    }
    LiftInjective(a.favorite, b.favorite, Wire.EncodeFavoriteStatus);
    SameFields(a, b, "tag");
    forall u, v | EncodeTagFilter(u) == EncodeTagFilter(v) ensures u == v {
      if u.TagName? && v.TagName? {
        assert EncodeTagFilter(u).fields["TagName"] == JString(u.name);
      }
    }
    LiftInjective(a.tag, b.tag, EncodeTagFilter);
    SameFields(a, b, "content_type");
    LiftInjective(a.contentType, b.contentType, EncodeContentType);
    SameFields(a, b, "sort");
    LiftInjective(a.sort, b.sort, EncodeSort);
    SameFields(a, b, "detailType");
    LiftInjective(a.detailType, b.detailType, EncodeDetailType);
  }

  /** Two inputs written alike have the same search and paging filters. */
  lemma SamePagingFilters(a: GetInput, b: GetInput)
    requires EncodeGetInput(a) == EncodeGetInput(b)
    ensures a.search == b.search && a.domain == b.domain && a.since == b.since
    ensures a.count == b.count && a.offset == b.offset
  {
    SameFields(a, b, "search");
    LiftInjective(a.search, b.search, EncodeString);
    SameFields(a, b, "domain");
    LiftInjective(a.domain, b.domain, EncodeString);
    SameFields(a, b, "since");
    LiftInjective(a.since, b.since, EncodeU64);
    SameFields(a, b, "count");
    LiftInjective(a.count, b.count, EncodeU32);
    SameFields(a, b, "offset");
    LiftInjective(a.offset, b.offset, EncodeU32);
  }

  /** Different filters never produce the same request object: every field can be read back
      from what is written. */
  lemma EncodeGetInputInjective(a: GetInput, b: GetInput)
    requires EncodeGetInput(a) == EncodeGetInput(b)
    ensures a == b
  {
    SameSelectionFilters(a, b);
    SamePagingFilters(a, b);
  }
}

=== FILE: response.dfy ===
/** How the client classifies the body of a "get" response. The body normally holds a
    `"list"` object from item id to item; when there are no more items the server sends an
    empty array under `"list"` instead. */
module Response {
  import opened Wrappers
  import opened Json
  import opened Model

  /** A response body as the client receives it: a JSON value, or the error of a body that is
      not well-formed JSON. */
  type Body = Result<Json, DecodeError>

  /** `ReadingListResponse`: a page of the reading list. */
  datatype ReadingListResponse = ReadingListResponse(list: ReadingList)

  /** What a response body means to the client. */
  datatype ResponseState =
    | Parsed(response: ReadingListResponse)
    | NoMore
    | Error(error: DecodeError)

  function DecodeReadingListResponse(j: Json): (r: Decoded<ReadingListResponse>)
    ensures r.Ok? <==> j.JObject? && "list" in j.fields && DecodeReadingList(j.fields["list"]).Ok?
    ensures r.Ok? ==> r.value.list == DecodeReadingList(j.fields["list"]).value
  {
    if !j.JObject? then Err(InvalidType("struct ReadingListResponse"))
    else
      var list :- Field(j.fields, "list", DecodeReadingList);
      Ok(ReadingListResponse(list))
  }

  /** A `Vec<Item>`: an array whose every element decodes as an item. */
  function DecodeItems(j: Json): (r: Decoded<seq<Item>>)
    ensures r.Ok? <==> j.JArray? && forall k :: 0 <= k < |j.elems| ==> DecodeItem(j.elems[k]).Ok?
    ensures r.Ok? ==> |r.value| == |j.elems|
  {
    if j.JArray? then DecodeSeq(j.elems, DecodeItem) else Err(InvalidType("a sequence"))
  }

  /** `EmptyReadingListResponse`: the shape of a body whose `"list"` is an array of items. */
  function DecodeEmptyReadingListResponse(j: Json): (r: Decoded<seq<Item>>)
    ensures r.Ok? <==> j.JObject? && "list" in j.fields && DecodeItems(j.fields["list"]).Ok?
    ensures r.Ok? ==> |r.value| == |j.fields["list"].elems|
  {
    if !j.JObject? then Err(InvalidType("struct EmptyReadingListResponse"))
    else Field(j.fields, "list", DecodeItems)
  }

  /** `parse_all_response`: a body that reads as a page is `Parsed`; otherwise a body whose
      `"list"` is an empty array is `NoMore`; anything else is an `Error` carrying the error of
      the first attempt. */
  function ParseAllResponse(body: Body): (r: ResponseState)
    ensures r.Parsed? <==> body.Ok? && DecodeReadingListResponse(body.value).Ok?
    ensures r.Parsed? ==> r.response == DecodeReadingListResponse(body.value).value
    ensures r.NoMore? <==>
      body.Ok? && body.value.JObject? && "list" in body.value.fields
      && body.value.fields["list"] == JArray([])
    ensures r.Error? && body.Err? ==> r.error == body.error
    ensures r.Error? && body.Ok? ==> r.error == DecodeReadingListResponse(body.value).error
  {
    match body
    case Err(e) => Error(e)
    case Ok(j) =>
      match DecodeReadingListResponse(j)
      case Ok(page) => Parsed(page)
      case Err(e) =>
        match DecodeEmptyReadingListResponse(j)
        case Ok(items) => if |items| == 0 then NoMore else Error(e)
        case Err(_) => Error(e)
  }

  /** A `"list"` holding an object of items is a page, even when that object is empty. */
  lemma EmptyObjectListIsParsed()
    ensures ParseAllResponse(Ok(JObject(map["list" := JObject(map[])])))
      == Parsed(ReadingListResponse(map[]))
  {
    var j := JObject(map["list" := JObject(map[])]);
    assert DecodeReadingList(j.fields["list"]) == Ok(map[]);
  }

  /** A `"list"` holding an empty array means there are no more items. */
  lemma EmptyArrayListIsNoMore()
    ensures ParseAllResponse(Ok(JObject(map["list" := JArray([])]))) == NoMore
  {
  }

  /** A body that is not well-formed JSON is an error. */
  lemma MalformedBodyIsError(e: DecodeError)
    ensures ParseAllResponse(Err(e)) == Error(e)
  {
  }

  /** A `"list"` holding a non-empty array is an error, even when every element is an item. */
  lemma NonEmptyArrayListIsError(j: Json)
    requires j.JObject? && "list" in j.fields && j.fields["list"].JArray?
    requires |j.fields["list"].elems| > 0
    ensures ParseAllResponse(Ok(j)).Error?
    ensures ParseAllResponse(Ok(j)).error == DecodeReadingListResponse(j).error
  {
  }

  /** A body whose `"list"` key is missing is an error, whatever else it holds. */
  lemma MissingListIsError(j: Json)
    requires j.JObject? && "list" !in j.fields
    ensures ParseAllResponse(Ok(j)) == Error(MissingField("list"))
  {
  }
}

=== FILE: text.dfy ===
/** The string operations of Rust's `str` that the client relies on: substring search,
    `split` on a pattern, `join`, `starts_with` and `trim_end_matches`. */
module Text {
  import opened Wrappers

  /** `p` occurs in `s` starting at index `i`. */
  predicate MatchesAt(s: string, p: string, i: nat) {
    i + |p| <= |s| && s[i..i + |p|] == p
  }

  predicate Contains(s: string, p: string) {
    exists i: nat | i <= |s| :: MatchesAt(s, p, i)
  }

  predicate StartsWith(s: string, prefix: string) {
    |prefix| <= |s| && s[..|prefix|] == prefix
  }

  predicate EndsWith(s: string, suffix: string) {
    |suffix| <= |s| && s[|s| - |suffix|..] == suffix
  }

  /** Index of the leftmost occurrence of `p` in `s`, as `str::find` returns it. */
  function IndexOf(s: string, p: string): (r: Option<nat>)
    ensures r.Some? ==> MatchesAt(s, p, r.value)
    ensures r.Some? ==> forall j: nat :: j < r.value ==> !MatchesAt(s, p, j)
    ensures r.None? <==> !Contains(s, p)
  {
    IndexFrom(s, p, 0)
  }

  /** The leftmost occurrence of `p` in `s` at or after index `k`. */
  function IndexFrom(s: string, p: string, k: nat): (r: Option<nat>)
    requires k <= |s|
    ensures r.Some? ==> k <= r.value && MatchesAt(s, p, r.value)
    ensures r.Some? ==> forall j: nat :: k <= j < r.value ==> !MatchesAt(s, p, j)
    ensures r.None? ==> forall j: nat :: k <= j ==> !MatchesAt(s, p, j)
    decreases |s| - k
  {
    if MatchesAt(s, p, k) then Some(k)
    else if k == |s| then None
    else IndexFrom(s, p, k + 1)
  }

  /** `s.split(p)` for a non-empty pattern: the pieces between the leftmost, non-overlapping
      occurrences of `p`. There is one piece exactly when `p` does not occur. */
  function Split(s: string, p: string): (r: seq<string>)
    requires |p| > 0
    ensures |r| >= 1
    ensures |r| == 1 <==> !Contains(s, p)
    decreases |s|
  {
    match IndexOf(s, p)
    case None => [s]
    case Some(i) => [s[..i]] + Split(s[i + |p|..], p)
  }

  /** Splitting never loses text: joining the pieces with the pattern gives the string back. */
  lemma {:induction false} SplitJoin(s: string, p: string)
    requires |p| > 0
    ensures Join(Split(s, p), p) == s
    decreases |s|
  {
    match IndexOf(s, p)
    case None =>
    case Some(i) =>
      var rest := s[i + |p|..];
      SplitJoin(rest, p);
      NothingBeforeFirstMatch(s, p, i);
      JoinCons(s[..i], Split(rest, p), p);
  }

  /** No piece of a split contains the pattern. */
  lemma {:induction false} SplitPiecesFree(s: string, p: string)
    requires |p| > 0
    ensures forall k :: 0 <= k < |Split(s, p)| ==> !Contains(Split(s, p)[k], p)
    decreases |s|
  {
    match IndexOf(s, p)
    case None =>
    case Some(i) =>
      var rest := s[i + |p|..];
      SplitPiecesFree(rest, p);
      NothingBeforeFirstMatch(s, p, i);
      ConsParts(s[..i], Split(rest, p), p);
  }

  lemma NothingBeforeFirstMatch(s: string, p: string, i: nat)
    requires |p| > 0 && MatchesAt(s, p, i)
    requires forall j: nat :: j < i ==> !MatchesAt(s, p, j)
    ensures !Contains(s[..i], p)
    ensures Contains(s, p)
    ensures s == s[..i] + p + s[i + |p|..]
  {
    assert i <= |s|;
    assert s == s[..i] + s[i..i + |p|] + s[i + |p|..];
    forall j: nat | j <= i && MatchesAt(s[..i], p, j) ensures false {
      assert j < i;
      assert s[..i][j..j + |p|] == s[j..j + |p|];
      assert MatchesAt(s, p, j);
    }
  }

  lemma ConsParts(a: string, rest: seq<string>, p: string)
    requires !Contains(a, p)
    requires forall k :: 0 <= k < |rest| ==> !Contains(rest[k], p)
    ensures forall k :: 0 <= k < 1 + |rest| ==> !Contains(([a] + rest)[k], p)
  {
    assert forall k :: 1 <= k < 1 + |rest| ==> ([a] + rest)[k] == rest[k - 1];
  }

  lemma JoinCons(a: string, rest: seq<string>, sep: string)
    requires |rest| >= 1
    ensures Join([a] + rest, sep) == a + sep + Join(rest, sep)
  {
    assert ([a] + rest)[1..] == rest;
  }

  /** `parts.join(sep)`. */
  function Join(parts: seq<string>, sep: string): string {
    if |parts| == 0 then ""
    else if |parts| == 1 then parts[0]
    else parts[0] + sep + Join(parts[1..], sep)
  }

  /** `s.trim_end_matches(suffix)` for a non-empty suffix: strips every trailing repetition. */
  function TrimEndMatches(s: string, suffix: string): (r: string)
    requires |suffix| > 0
    ensures r <= s
    ensures !EndsWith(r, suffix)
    ensures !EndsWith(s, suffix) ==> r == s
    decreases |s|
  {
    if EndsWith(s, suffix) then TrimEndMatches(s[..|s| - |suffix|], suffix) else s
  }

  /** Splitting at a pattern that occurs exactly once in the leftmost scan gives two pieces:
      the text before the first occurrence and the text after it. */
  lemma SplitTwo(s: string, p: string)
    requires |p| > 0
    ensures |Split(s, p)| == 2 <==>
      IndexOf(s, p).Some? && !Contains(s[IndexOf(s, p).value + |p|..], p)
    ensures |Split(s, p)| == 2 ==> Split(s, p)[0] == s[..IndexOf(s, p).value]
  {
    match IndexOf(s, p)
    case None =>
    case Some(i) =>
      assert Split(s, p) == [s[..i]] + Split(s[i + |p|..], p);
  }

  /** With a one-character pattern, a match is an occurrence of that character. */
  lemma ContainsChar(s: string, c: char)
    ensures Contains(s, [c]) <==> c in s
  {
    if c in s {
      var j :| 0 <= j < |s| && s[j] == c;
      assert MatchesAt(s, [c], j);
    }
    if Contains(s, [c]) {
      var j: nat :| j <= |s| && MatchesAt(s, [c], j);
      assert s[j] == s[j..j + 1][0];
    }
  }

  /** Splitting on a character peels off the text before its first occurrence. */
  lemma SplitCons(a: string, c: char, rest: string)
    requires c !in a
    ensures Split(a + [c] + rest, [c]) == [a] + Split(rest, [c])
  {
    var s := a + [c] + rest;
    assert MatchesAt(s, [c], |a|);
    forall j: nat | j < |a| ensures !MatchesAt(s, [c], j) {
      assert s[j..j + 1][0] == s[j] == a[j];
    }
    var i := IndexOf(s, [c]).value;
    assert i == |a|;
    assert s[..i] == a && s[i + 1..] == rest;
  }

  /** A match of a one-character pattern is that character. */
  lemma MatchesAtChar(s: string, c: char, j: nat)
    ensures MatchesAt(s, [c], j) <==> j < |s| && s[j] == c
  {
    if j < |s| {
      assert s[j..j + 1] == [s[j]];
    }
  }

  /** No character before the first occurrence is that character. */
  lemma NotBeforeFirst(s: string, c: char, i: nat)
    requires i <= |s|
    requires forall j: nat :: j < i ==> !MatchesAt(s, [c], j)
    ensures c !in s[..i]
  {
    forall j | 0 <= j < i ensures s[..i][j] != c {
      MatchesAtChar(s, c, j);
    }
  }

  /** The first occurrence of a character splits the string around it. */
  lemma FirstOccurrence(s: string, c: char)
    requires c in s
    ensures IndexOf(s, [c]).Some?
    ensures var i := IndexOf(s, [c]).value;
      i < |s| && s == s[..i] + [c] + s[i + 1..] && c !in s[..i]
  {
    ContainsChar(s, c);
    var i := IndexOf(s, [c]).value;
    MatchesAtChar(s, c, i);
    NotBeforeFirst(s, c, i);
    Around(s, i);
  }

  lemma Around(s: string, i: nat)
    requires i < |s|
    ensures s == s[..i] + [s[i]] + s[i + 1..]
  {
    assert s[..i] + [s[i]] == s[..i + 1];
  }

  /** A string without the pattern is a single piece. */
  lemma SplitNone(s: string, p: string)
    requires |p| > 0 && !Contains(s, p)
    ensures Split(s, p) == [s]
  {
  }

  /** The pieces of two splits glued end to start: the last piece of `sx` and the first of
      `sy` become one. */
  function Glue(sx: seq<string>, sy: seq<string>): seq<string>
    requires |sx| >= 1 && |sy| >= 1
  {
    sx[..|sx| - 1] + [sx[|sx| - 1] + sy[0]] + sy[1..]
  }

  lemma GlueCons(a: string, u: seq<string>, sy: seq<string>)
    requires |u| >= 1 && |sy| >= 1
    ensures Glue([a] + u, sy) == [a] + Glue(u, sy)
  {
    var t := [a] + u;
    assert t[..|t| - 1] == [a] + u[..|u| - 1];
    assert t[|t| - 1] == u[|u| - 1];
  }

  /** A string holding a character is the text before its first occurrence, the character,
      and the rest. */
  lemma SplitAtFirst(s: string, c: char) returns (a: string, rest: string)
    requires c in s
    ensures s == a + [c] + rest && c !in a
  {
    FirstOccurrence(s, c);
    var i := IndexOf(s, [c]).value;
    a, rest := s[..i], s[i + 1..];
  }

  /** Gluing a list that ends in `a` to one that starts with `b`. */
  lemma GlueEnds(u: seq<string>, a: string, b: string, w: seq<string>)
    ensures Glue(u + [a], [b] + w) == u + [a + b] + w
  {
    var sx, sy := u + [a], [b] + w;
    assert sx[..|sx| - 1] == u;
    assert sy[1..] == w;
  }

  lemma GlueEmpty(sx: seq<string>, sy: seq<string>)
    requires |sx| >= 1
    ensures Glue(sx, [""] + sy) == sx + sy
  {
    assert sx == sx[..|sx| - 1] + [sx[|sx| - 1]];
    GlueEnds(sx[..|sx| - 1], sx[|sx| - 1], "", sy);
    assert sx[|sx| - 1] + "" == sx[|sx| - 1];
  }

  /** A string without the character is one piece. */
  lemma SplitCharNone(s: string, c: char)
    requires c !in s
    ensures Split(s, [c]) == [s]
  {
    ContainsChar(s, c);
    SplitNone(s, [c]);
  }

  /** The first piece of a split on a character is the text up to its first occurrence, or
      all of the string when the character does not occur. */
  lemma FirstPiece(s: string, c: char)
    ensures var f := Split(s, [c])[0];
      f <= s && c !in f && (f == s <==> c !in s) && (c in s ==> s[|f|] == c)
  {
    if c in s {
      var a, rest := SplitAtFirst(s, c);
      SplitCons(a, c, rest);
      assert s[..|a|] == a && s[|a|] == c;
    } else {
      SplitCharNone(s, c);
    }
  }

  // ---- splitting on a character ----

  /** `s.split(c)` for a character pattern, one character at a time: a `c` closes the current
      piece and opens an empty one; any other character extends the current piece. This is
      `Split` again (`SplitCharIsSplit`), in a form whose proofs about long strings stay small. */
  function SplitChar(s: string, c: char): (r: seq<string>)
    ensures |r| >= 1
    decreases |s|
  {
    if |s| == 0 then [""]
    else
      var rest := SplitChar(s[1..], c);
      if s[0] == c then [""] + rest else [[s[0]] + rest[0]] + rest[1..]
  }

  lemma {:induction false} SplitCharNoSep(s: string, c: char)
    requires c !in s
    ensures SplitChar(s, c) == [s]
    decreases |s|
  {
    if |s| > 0 {
      SplitCharNoSep(s[1..], c);
      assert [s[0]] + s[1..] == s;
    }
  }

  /** Splitting a concatenation on a character glues the last piece of the first part to the
      first piece of the second. */
  lemma {:induction false} SplitCharAppend(x: string, y: string, c: char)
    ensures SplitChar(x + y, c) == Glue(SplitChar(x, c), SplitChar(y, c))
    decreases |x|
  {
    var sx, sy := SplitChar(x, c), SplitChar(y, c);
    if |x| == 0 {
      assert x + y == y;
      assert "" + sy[0] == sy[0];
      assert sy == [sy[0]] + sy[1..];
    } else {
      var u := SplitChar(x[1..], c);
      assert (x + y)[1..] == x[1..] + y;
      SplitCharAppend(x[1..], y, c);
      if x[0] == c {
        GlueCons("", u, sy);
      } else {
        GlueExtend(x[0], u, sy);
      }
    }
  }

  /** Gluing after extending the first piece of the first list. */
  lemma GlueExtend(a: char, u: seq<string>, sy: seq<string>)
    requires |u| >= 1 && |sy| >= 1
    ensures var g := Glue(u, sy);
      Glue([[a] + u[0]] + u[1..], sy) == [[a] + g[0]] + g[1..]
  {
    var v := [[a] + u[0]] + u[1..];
    var last := u[|u| - 1] + sy[0];
    if |u| == 1 {
      assert v[..|v| - 1] == [] && u[..|u| - 1] == [];
      assert [a] + u[0] + sy[0] == [a] + (u[0] + sy[0]);
    } else {
      assert v[..|v| - 1] == [[a] + u[0]] + u[1..|u| - 1];
      assert u[..|u| - 1] == [u[0]] + u[1..|u| - 1];
      var g := Glue(u, sy);
      assert g == [u[0]] + (u[1..|u| - 1] + [last] + sy[1..]);
    }
  }

  /** Splitting at an occurrence of the character: the pieces of each side, side by side. */
  lemma SplitCharAt(x: string, c: char, y: string)
    ensures SplitChar(x + [c] + y, c) == SplitChar(x, c) + SplitChar(y, c)
  {
    var sx, sy := SplitChar(x, c), SplitChar(y, c);
    assert SplitChar([c] + y, c) == [""] + sy by {
      assert ([c] + y)[1..] == y;
    }
    assert SplitChar(x + [c] + y, c) == Glue(sx, [""] + sy) by {
      assert x + [c] + y == x + ([c] + y);
      SplitCharAppend(x, [c] + y, c);
    }
    GlueEmpty(sx, sy);
  }

  /** The character-pattern split agrees with the general one. */
  lemma {:induction false} SplitCharIsSplit(s: string, c: char)
    ensures SplitChar(s, c) == Split(s, [c])
    decreases |s|
  {
    if c in s {
      var a, rest := SplitAtFirst(s, c);
      SplitCons(a, c, rest);
      SplitCharAt(a, c, rest);
      SplitCharNoSep(a, c);
      SplitCharIsSplit(rest, c);
    } else {
      SplitCharNone(s, c);
      SplitCharNoSep(s, c);
    }
  }
}

=== FILE: wire.dfy ===
/** The Pocket wire encodings of primitive values: booleans as the strings "0"/"1", counters
    and timestamps as decimal strings (serde_with's `DisplayFromStr`), and the enumerations
    `FavoriteStatus`, `Status`, `HasImage` and `HasVideo` as the string of their ordinal. */
module Wire {
  import opened Wrappers
  import opened Decimal
  import opened Json

  // ---- booleans ----

  /** `deserialize_string_to_bool`: exactly "0" and "1" are accepted. */
  function DecodeBool(j: Json): (r: Decoded<bool>)
    ensures r == Ok(false) <==> j == JString("0")
    ensures r == Ok(true) <==> j == JString("1")
    ensures r.Err? <==> j != JString("0") && j != JString("1")
  {
    match j
    case JString(s) =>
      if s == "0" then Ok(false)
      else if s == "1" then Ok(true)
      else Err(InvalidValue(s, "0 or 1"))
    case _ => Err(InvalidType("a string"))
  }

  /** `serialize_bool_to_string`; reading it back gives the same boolean. */
  function EncodeBool(b: bool): (r: Json)
    ensures r.JString?
    ensures DecodeBool(r) == Ok(b)
  {
    JString(if b then "1" else "0")
  }

  // ---- integers carried as decimal strings ----

  /** A `u64` read with `DisplayFromStr`: only a JSON string holding a decimal number that
      fits is accepted; a native JSON number is a type error. */
  function DecodeU64Str(j: Json): (r: Decoded<U64>)
    ensures j.JNumber? ==> r.Err?
    ensures r.Ok? ==> j.JString? && ParseUnsigned(j.s, U64_LIMIT) == Some(r.value as nat)
    ensures j.JString? && ParseUnsigned(j.s, U64_LIMIT).None? ==> r.Err?
    ensures j.JString? && ParseUnsigned(j.s, U64_LIMIT).Some? ==> r == Ok(ParseUnsigned(j.s, U64_LIMIT).value as U64)
  {
    match j
    case JString(s) =>
      (match ParseUnsigned(s, U64_LIMIT)
       case Some(v) => Ok(v)
       case None => Err(InvalidValue(s, "u64")))
    case _ => Err(InvalidType("a string"))
  }

  /** A `u64` written with `DisplayFromStr`; reading it back gives the same number. */
  function EncodeU64Str(n: U64): (r: Json)
    ensures r == JString(ShowNat(n))
    ensures DecodeU64Str(r) == Ok(n)
  {
    ParseShowNat(n, U64_LIMIT);
    JString(ShowNat(n))
  }

  /** A `u32` read with `DisplayFromStr`. */
  function DecodeU32Str(j: Json): (r: Decoded<U32>)
    ensures j.JNumber? ==> r.Err?
    ensures r.Ok? ==> j.JString? && ParseUnsigned(j.s, U32_LIMIT) == Some(r.value as nat)
    ensures j.JString? && ParseUnsigned(j.s, U32_LIMIT).None? ==> r.Err?
    ensures j.JString? && ParseUnsigned(j.s, U32_LIMIT).Some? ==> r == Ok(ParseUnsigned(j.s, U32_LIMIT).value as U32)
  {
    match j
    case JString(s) =>
      (match ParseUnsigned(s, U32_LIMIT)
       case Some(v) => Ok(v)
       case None => Err(InvalidValue(s, "u32")))
    case _ => Err(InvalidType("a string"))
  }

  /** A `u32` written with `DisplayFromStr`; reading it back gives the same number. */
  function EncodeU32Str(n: U32): (r: Json)
    ensures r == JString(ShowNat(n))
    ensures DecodeU32Str(r) == Ok(n)
  {
    ParseShowNat(n, U32_LIMIT);
    JString(ShowNat(n))
  }

  // ---- enumerations carried as the string of their ordinal ----

  datatype FavoriteStatus = NotFavorited | Favorited

  function FavoriteStatusCode(f: FavoriteStatus): string {
    match f
    case NotFavorited => "0"
    case Favorited => "1"
  }

  function DecodeFavoriteStatus(j: Json): (r: Decoded<FavoriteStatus>)
    ensures r.Ok? <==> j == JString("0") || j == JString("1")
    ensures r.Ok? ==> j == JString(FavoriteStatusCode(r.value))
  {
    match j
    case JString(s) =>
      if s == "0" then Ok(NotFavorited)
      else if s == "1" then Ok(Favorited)
      else Err(UnknownVariant(s, "0 or 1"))
    case _ => Err(InvalidType("a string"))
  }

  function EncodeFavoriteStatus(f: FavoriteStatus): (r: Json)
    ensures r.JString?
    ensures DecodeFavoriteStatus(r) == Ok(f)
  {
    JString(FavoriteStatusCode(f))
  }

  datatype Status = Unread | Read | ShouldBeDeleted

  function StatusCode(s: Status): string {
    match s
    case Unread => "0"
    case Read => "1"
    case ShouldBeDeleted => "2"
  }

  function DecodeStatus(j: Json): (r: Decoded<Status>)
    ensures r.Ok? <==> j == JString("0") || j == JString("1") || j == JString("2")
    ensures r.Ok? ==> j == JString(StatusCode(r.value))
  {
    match j
    case JString(s) =>
      if s == "0" then Ok(Unread)
      else if s == "1" then Ok(Read)
      else if s == "2" then Ok(ShouldBeDeleted)
      else Err(UnknownVariant(s, "0, 1 or 2"))
    case _ => Err(InvalidType("a string"))
  }

  function EncodeStatus(s: Status): (r: Json)
    ensures r.JString?
    ensures DecodeStatus(r) == Ok(s)
  {
    JString(StatusCode(s))
  }

  /** `Display for Status`: the variant's name, distinct for each variant and never its code. */
  function StatusName(s: Status): (r: string)
    ensures r == "Unread" <==> s == Unread
    ensures r == "Read" <==> s == Read
    ensures r == "ShouldBeDeleted" <==> s == ShouldBeDeleted
    ensures r != StatusCode(s)
  {
    match s
    case Read => "Read"
    case Unread => "Unread"
    case ShouldBeDeleted => "ShouldBeDeleted"
  }

  datatype HasImage = NoImage | HasImages | IsImage

  function HasImageCode(h: HasImage): string {
    match h
    case NoImage => "0"
    case HasImages => "1"
    case IsImage => "2"
  }

  function DecodeHasImage(j: Json): (r: Decoded<HasImage>)
    ensures r.Ok? <==> j == JString("0") || j == JString("1") || j == JString("2")
    ensures r.Ok? ==> j == JString(HasImageCode(r.value))
  {
    match j
    case JString(s) =>
      if s == "0" then Ok(NoImage)
      else if s == "1" then Ok(HasImages)
      else if s == "2" then Ok(IsImage)
      else Err(UnknownVariant(s, "0, 1 or 2"))
    case _ => Err(InvalidType("a string"))
  }

  function EncodeHasImage(h: HasImage): (r: Json)
    ensures r.JString?
    ensures DecodeHasImage(r) == Ok(h)
  {
    JString(HasImageCode(h))
  }

  datatype HasVideo = NoVideo | HasVideos | IsVideo

  function HasVideoCode(h: HasVideo): string {
    match h
    case NoVideo => "0"
    case HasVideos => "1"
    case IsVideo => "2"
  }

  function DecodeHasVideo(j: Json): (r: Decoded<HasVideo>)
    ensures r.Ok? <==> j == JString("0") || j == JString("1") || j == JString("2")
    ensures r.Ok? ==> j == JString(HasVideoCode(r.value))
  {
    match j
    case JString(s) =>
      if s == "0" then Ok(NoVideo)
      else if s == "1" then Ok(HasVideos)
      else if s == "2" then Ok(IsVideo)
      else Err(UnknownVariant(s, "0, 1 or 2"))
    case _ => Err(InvalidType("a string"))
  }

  function EncodeHasVideo(h: HasVideo): (r: Json)
    ensures r.JString?
    ensures DecodeHasVideo(r) == Ok(h)
  {
    JString(HasVideoCode(h))
  }
}

=== FILE: wrappers.dfy ===
/** Option and Result, the failure-compatible wrappers used throughout the model.
    `Result` mirrors Rust's `Result<T, E>` (constructors `Ok` and `Err`). */
module Wrappers {

  datatype Option<+T> = None | Some(value: T)

  datatype Result<+T, +E> = Ok(value: T) | Err(error: E) {
    predicate IsFailure() {
      Err?
    }

    function PropagateFailure<U>(): Result<U, E>
      requires Err?
    {
      Err(error)
    }

    function Extract(): T
      requires Ok?
    {
      value
    }
  }
}
